=== FILE: README.md ===
# A verified model of the S command protocol core

The S system connects a chat-driven assistant to a local machine. The assistant
writes messages that start with one of five prefixes: `CMD:`, `CODE:`, `INFO:`,
`FILE:` and `REPLAY:`. A client-side handler filters them and a WebSocket
command server runs them. A response router classifies each reply, and a
replay ledger remembers what ran. This project models that core in Dafny as
immutable records and pure step functions. The clock, the shell, the Python
interpreter, the file system and the language model are explicit parameters.

| file | module | models |
|---|---|---|
| `wrappers.dfy` | `Wrappers` | `Option`, for the source's `None` and its swallowed exceptions |
| `text.dfy` | `Text` | the Python string operations the core relies on: `strip`, `startswith`, `in`, `find`, `lower`, `split`, `replace`, `join`, `int()` and `str()` of integers |
| `json.dfy` | `Json` | which strings Python's `json.loads` accepts, and a serialiser for JSON documents |
| `ledger.dfy` | `Ledger` | `ReplayManager`: the bounded newest-first history, failure counts, last-run times, retry decisions and command validation. It covers the three copies in `replay_manager.py`, `replay/replay_manager.py` and `archive/replay_manager_ai.py` |
| `router.dfy` | `Router` | `route_response`: the ordered rule chain that labels a reply ERROR, ECHO, CODE, JSON or UNKNOWN |
| `server.dfy` | `Server` | `CommandServer`: the shared history, `handle_cmd`, `handle_code` and `handle_file`, and the per-message dispatch with its one-shot `RETRY_NEEDED` retry and `REPLAY:n` resolution |
| `handler.dfy` | `Handler` | `AICommandHandler`, current and archived: `_is_new_command`, the deduplicating history and its index round trip, `extract_schedule_delay`, `_is_error_response`, the simple commands, the shell fallback guards of `_run_system_command`, the forwarding decision of `handle_response` and the cache-key normalisation |
| `library.dfy` | `Library` | `command_library.py`: the construction of `COMMAND_LIBRARY` from its tables, and `_execute_command` with its guards, output truncation and time-limited cache |
| `agent.dfy` | `Agent` | the OpenAI agent's post-processing: the recommendation handed to the sender, the printed report, the output path `<stem>_ai.py` and the code-block extraction |

The time, in seconds, is always passed as a `real` parameter: `now`, and for `_execute_command` also `done`, the clock read again after the run.

The model follows the code wherever the repository's tests expect something else:

- `test_replay_manager.py:28-42` expects `should_retry` to be true right after a failure. The code's cooldown makes it false until `retry_cooldown` seconds have passed (`Ledger.CooldownAfterFailure`).
- `archive/N/test_response_router.py` was written for an older router. The current `route_response` behaves differently:
  - `"   "` is ERROR, not UNKNOWN (`Router.RouteSpaces`).
  - `"```"` is CODE, not UNKNOWN (`Router.RouteFence`).
  - `'CMD: {"json": true}'` is JSON, not ECHO (`Router.RouteSpacedCommand`).
  - The cases at lines 13-15, 46-50 and 93 fall through to UNKNOWN because they match no rule of the current chain. These are `Traceback…`, `RuntimeError…`, `A critical error…`, `//` and `/*` comments, `<?php`, `if`, `async def` and `<!-- -->`.

## Model

| member | source | states |
|---|---|---|
| Ledger.AddCommand | replay_manager.py:34-66 | keeps a valid ledger valid: the history never exceeds its bound. The new history is the new entry followed by the old one, cut to length, and it grows by one unless the bound was reached |
| Ledger.AddCommandTracking | replay/replay_manager.py:75-87 | the command's last-run time becomes `now` whatever the outcome. A failure adds one to its count, starting from 0; a success removes the count. No other command's time or count changes |
| Ledger.RecordOutcome | replay_manager.py:61-66 | a success removes the command's failure count, a failure sets it to one more than before (from 0), and every other command's count is kept |
| Ledger.GetCommand | replay_manager.py:70-88 | returns an entry exactly when `1 <= index <= len(history)`, and that entry is `history[index-1]`; out of range it returns `None` instead of raising |
| Ledger.ShouldRetry | replay_manager.py:90-112 | refuses once the failure count reaches `max_retries`, and refuses inside the cooldown after the last run |
| Ledger.RetryAllowed | replay_manager.py:90-112 | the converse: under the cap and outside the cooldown a retry is allowed |
| Ledger.ClearHistory | replay_manager.py:114-118 | the history, the failure counts and the last-run times are all emptied together |
| Ledger.RemoveFailedOnly | archive/replay_manager_ai.py:97-99 | forgets every failure count and leaves the history and the last-run times unchanged |
| Ledger.ValidateCommand | replay_manager.py:121-148 | a text validates exactly when it is non-empty, has one of the five prefixes and, for `REPLAY:`, the field after the first `:` is read by `int()` (surrounding whitespace, a sign, leading zeros and `_` groups allowed) as an index in `[1, len(history)]` |
| Ledger.GetRetryStatus | replay_manager.py:150-166 | reports the failure count (0 when none) and the cap. `can_retry` is exactly `should_retry`'s answer. The cooldown is `retry_cooldown - (now - last)` when that is positive and 0 otherwise, where `last` is 0 for a command never run |
| Ledger.RetryStatusConsistent | replay_manager.py:150-166 | the reported fields agree: `can_retry` holds exactly when the attempts are under the cap and either the command never ran or no cooldown is left |
| Ledger.AddThenGet | replay_manager.py:46-56 | after `add_command(c, r, s)`, `get_command(1)` is exactly `{c, r, s}` |
| Ledger.AddShifts | replay/replay_manager.py:75-77 | older entries move back one place, and only the oldest can fall off |
| Ledger.AddAllHistory | replay_manager.py:34-56 | after a run of additions the history holds the new entries newest first, then the old history, cut at the bound |
| Ledger.SevenIntoFive | test_replay_manager.py:18-26 | seven additions to an empty ledger bounded at five keep five entries, with the seventh first |
| Ledger.ThreeFailures | replay_manager.py:101-103 | after three failures a cap of three refuses a retry at any time |
| Ledger.CooldownAfterFailure | replay_manager.py:106-110 | right after a failure the command is in cooldown. It becomes retryable exactly when the cooldown has elapsed, provided the cap is not reached |
| Ledger.SuccessClearsFailures | replay_manager.py:62-66 | after a success the command has no failure count |
| Ledger.NeverRunRetries | replay_manager.py:97-112 | a command never run is retryable whenever the cap is positive |
| Ledger.ClearForgets | replay_manager.py:114-118 | after `clear_history` no index finds an entry, nothing is in cooldown and no `REPLAY:` validates |
| Ledger.RetryAfterRemoveFailed | archive/replay_manager_ai.py:77-99 | once the failure counts are dropped, the cooldown alone decides a retry |
| Ledger.ValidateReplay | replay_manager.py:140-146 | `REPLAY:k`, with `k` in decimal, validates exactly when `1 <= k <= len(history)` |
| Ledger.ValidateIndexed | replay_manager.py:140-146 | a `REPLAY:` text whose index field reads `k` validates exactly when `1 <= k <= len(history)`, whatever the spelling of `k` |
| Ledger.ReplayPiece | replay_manager.py:142 | after `REPLAY:`, text without another `:` is the whole index field, so `int()` reads all of it, stripped |
| Ledger.ReplayIndex | replay_manager.py:142 | the index field: the piece after the first `:` up to the next, stripped and read by `int()`; none when there is no such piece or `int()` refuses it. It is a definition; ReplayPiece and ValidateCommand state its use |
| Ledger.ValidatePlain | replay_manager.py:135-148 | every text under `CMD:`, `CODE:`, `INFO:` or `FILE:` validates |
| Ledger.RejectUnknownPrefix | replay_manager.py:131-137 | the empty text and any text without one of the five prefixes never validate |
| Ledger.RejectReplayWord | replay_manager.py:140-146 | a replay whose index field is not an integer never validates |
| Ledger.AcceptExamples | test_replay_manager.py:44-53 | `CMD:test`, `CODE:print('test')` and `INFO:status` validate; `""`, `INVALID:test` and `REPLAY:invalid` do not |
| Ledger.GetCommandById | replay/replay_manager.py:261-292 | the command of the `k`-th `[… COMMAND: …]` line met when scanning every third line of the log, stripped, or `None` |
| Router.Route | core/response_router.py:4-8 | a non-string input or a blank text is ERROR; any other text is labelled exactly as its stripped text is |
| Router.RouteStripped | core/response_router.py:11-62 | the ordered chain: ERROR exactly when the command-payload rule does not apply and the error rule does; ECHO only for echo-prefixed texts, CODE only for texts the code rule claims, JSON only through the payload rule or the whole-text rule, and UNKNOWN only when the whole-text JSON, code, echo and error rules all fail |
| Router.IsErrorText | core/response_router.py:43-44 | the error rule: `error`, `hiba`, `exception`, `failed` or `sikertelen`, in any case, then `:` or whitespace. A definition; RouteErrorIff states when it decides the label |
| Router.IsEchoText | core/response_router.py:47-48 | the echo rule: one of the six echo prefixes, case-sensitive. A definition; RouteEchoIff states when it decides the label |
| Router.IsCodeText | core/response_router.py:51-52 | the code rule: a keyword, a decorator, a fence, or "python" in any case among the first 20 characters. A definition; RouteCodeText and BracketOpening state its place in the chain |
| Router.IsJsonText | core/response_router.py:55-60 | the last rule: a bracketed text that `json.loads` accepts. A definition; RouteBracketed and RouteEncoded state when it decides the label |
| Router.FirstOpen | core/response_router.py:34 | a position holding `{` or `[`, and -1 exactly when there is neither |
| Router.FirstOpenFirst | core/response_router.py:34 | no `{` or `[` comes before the position found, so it is the first bracket of either kind |
| Router.RouteErrorIff | core/response_router.py:43-44 | a text is ERROR exactly when it is blank or opens with an error word followed by `:` or whitespace, in any case |
| Router.ErrorTextNotPrefixed | core/response_router.py:11-44 | no command or echo prefix opens with an error word, so the JSON payload rule and the error rule never compete |
| Router.RouteEchoIff | core/response_router.py:47-48 | ECHO is exactly the texts with one of the six echo prefixes that carry no JSON payload |
| Router.BracketOpening | core/response_router.py:43-52 | a text opening with a bracket falls through every rule before the code rule |
| Router.RouteTrimmed | core/response_router.py:8 | a text without whitespace at its ends reaches the rule chain unchanged |
| Router.RouteBracketed | core/response_router.py:51-60 | a bracketed text that `json.loads` accepts is JSON unless the code rule claims it first |
| Router.EncodedJsonText | core/response_router.py:55-60 | the serialisation of any array or object is a bracketed text that `json.loads` accepts |
| Router.RouteEncoded | core/response_router.py:51-60 | a serialised array or object is JSON, unless "python" appears in its first 20 characters and the earlier code rule claims it |
| Router.CommandColon | core/response_router.py:13 | the first `:` of a command is the one that ends its prefix |
| Router.CommandPayload | core/response_router.py:13-18 | the payload of a prefix, an optional `FORCE:` and a bracketed text is that text |
| Router.RouteCommandPayload | core/response_router.py:11-25 | a command whose payload is a bracketed JSON document is JSON, ahead of the error and echo rules |
| Router.RouteCommandJson | core/response_router.py:11-25 | a `CMD:` or `ECHO:` message whose payload, after an optional `FORCE:`, is a serialised array or object is JSON |
| Router.RouteSpaces | core/response_router.py:5-6 | whitespace alone is ERROR |
| Router.RouteEmptyObject | core/response_router.py:55-58 | `{}` is JSON |
| Router.RouteEmptyArray | core/response_router.py:55-58 | `[]` is JSON |
| Router.RouteBarePrefix | core/response_router.py:47-48 | the bare prefix `CMD:` is ECHO |
| Router.RouteBareErrorWord | core/response_router.py:43-44 | the bare error word `ERROR` is not ERROR but UNKNOWN |
| Router.RouteErrorColon | core/response_router.py:43-44 | `Error: x`, an error word followed by a colon, is ERROR |
| Router.RouteFence | core/response_router.py:51-52 | a lone code fence is CODE |
| Router.RouteCodeText | core/response_router.py:11-52 | a text that no command, error or echo rule claims and the code rule does is CODE |
| Router.FenceFacts | core/response_router.py:11-52 | a lone fence is no command and no error or echo text, and the code rule claims it |
| Router.RouteSpacedCommand | core/response_router.py:11-25 | a bracketed JSON document after `CMD: ` or `ECHO: ` is JSON, ahead of the echo rule |
| Router.RouteCommandEcho | core/response_router.py:30-38 | a command whose payload passes the second JSON test is JSON |
| Router.RouteCommandTail | core/response_router.py:30-38 | because `and` binds tighter than `or`, a command needs no `echo`: any payload ending in a serialised array after text without brackets is JSON |
| Json.LoadsEncode | core/response_router.py:24 | `json.loads` accepts the serialisation of every JSON document |
| Json.Loads | core/response_router.py:24 | `json.loads` succeeds exactly on one value with only whitespace around it. A definition; LoadsEncode states that every serialised document passes |
| Server.AddToHistory | core/command_server.py:42-50 | a new command goes to the front and the oldest falls off past ten. `REPLAY:` messages and repeats leave the history unchanged |
| Server.HistoryKept | core/command_server.py:42-50 | recording keeps the history at most ten long, free of repeats and free of `REPLAY:` entries |
| Server.NotReplay | core/command_server.py:374-397 | a message with one of the four handler prefixes is never taken for a replay, so recording it always happens |
| Server.GetFromHistory | core/command_server.py:52-57 | zero-based lookup: an entry exactly for `0 <= index < len`, otherwise `None` |
| Server.RecordedFirst | core/command_server.py:42-57 | a newly recorded command is the one at index 0, and the previous entries move back one place |
| Server.CallLibrary | core/command_server.py:140-148 | a library result is the reply and records the command; a raised exception becomes the error reply and records nothing. Only the history can change |
| Server.JsonCmd | core/command_server.py:64-85 | malformed JSON gives the JSON error reply and no change. A `parancs` or `paraméterek` that is not a string raises, and the outer handler answers `Error executing command: …` and lowers the retry flag; otherwise only the history can change. The retry marker comes back only if the named library function itself returns it |
| Server.EarlyCmd | core/command_server.py:64-197 | the JSON, `diagnose network` and library branches never raise the retry flag and never touch `last_command`: only the history changes, or the flag is lowered by a non-string JSON field |
| Server.ShellCmd | core/command_server.py:150-197 | a failing exit asks for a retry exactly when no retry is running and the command differs from the last one that asked, and then sets both flags. Every other reply lowers `retry_in_progress` and keeps `last_command`. Files never change |
| Server.HandleCmd | core/command_server.py:59-197 | no branch touches the files; the retry flag goes up only with the marker as the reply; the branches that start no subprocess keep `last_command` and never raise the flag |
| Server.HandleCode | core/command_server.py:199-252 | when `generated_code.py` cannot be opened for writing, the reply is `Error executing code: <error>`, the retry flag drops and nothing is written or run. Otherwise the file is written first, whatever the run does: the byte order mark, the four header lines, then the code. Then the same retry protocol as the shell branch, keyed by the code text; the history never changes |
| Server.CodeFileTaken | core/command_server.py:199-251 | once a file is stored below `generated_code.py`, that name is a directory, and `CODE:` answers the OS error and writes nothing |
| Server.Script | core/command_server.py:203-209 | the script file starts with U+FEFF (the `utf-8-sig` mark), then the header, and ends with exactly the code |
| Server.Truncate | core/command_server.py:292-294 | contents of at most 5000 characters are kept; longer ones keep their first 5000 characters followed by the mark |
| Server.Universal | core/command_server.py:289-290 | reading in text mode leaves no `\r`: `\r\n` and a lone `\r` each become `\n`, so the text never grows |
| Server.UniversalPlain | core/command_server.py:289-290 | text without `\r` reads back unchanged |
| Server.ReadFile | core/command_server.py:278-300 | a path with `..` or `~` gets the security error. A stored file gives its contents as text mode reads them (newlines translated), truncated, under `File content of <path>:`. A directory, a path below a stored file and a path above one give the error the open raises; any other path gives `File not found`. The reply is never the retry marker |
| Server.ReadBelowFile | core/command_server.py:290-300 | reading `a/b` when `a` is a stored file gives `Error reading file`, not `File not found` |
| Server.ReadAboveFile | core/command_server.py:290-300 | reading `d` when a file is stored below `d` gives `Error reading file`, not `File not found` |
| Server.WriteRequest | core/command_server.py:304-310 | there is a request exactly when `||` occurs; the path is the stripped text before the first `||` |
| Server.WriteFile | core/command_server.py:302-326 | either no file changes or exactly the requested path is set to the requested content; a change only happens for a path that passes the guard; a guarded path that `os.makedirs` or `open` refuse gets `Error in FILE operation: <error>` and nothing changes, and any other guarded path is written |
| Server.WriteBlocked | core/command_server.py:318-321 | the empty path, a path ending in `/`, a directory, a path under or above a stored file, and whatever the environment refuses, all raise |
| Server.ListDir | core/command_server.py:328-352 | a path with `..` or `~` gets the directory security error. A directory gives its `- name` lines under `Contents of <dir>:`, a file gives `Not a directory`, and anything else `Directory not found`. The reply is never the retry marker |
| Server.HandleFile | core/command_server.py:273-358 | only `write` can change the files, and no file operation answers with the retry marker |
| Server.WriteSplitAt | core/command_server.py:307-308 | in `p || c` the first `||` is the one after `p` when `p` holds none |
| Server.WriteRequestOf | core/command_server.py:307-310 | `p || c` is read back as path `p` and content `c` |
| Server.FileParams | core/command_server.py:278-304 | `read <p>` and `write <rest>` select their operations, with `p` and `rest` as parameters |
| Server.WriteThenRead | core/command_server.py:284-324 | what is written to a permitted path is stored exactly as sent, and reading it back gives it as text mode reads it, truncated past 5000 characters |
| Server.WriteThenReadPlain | core/command_server.py:284-324 | content without `\r` reads back exactly as written, truncated past 5000 characters |
| Server.WrittenFile | core/command_server.py:302-324 | `write p || c`, for a guarded path that `Server.WriteBlocked` lets through, stores `c` under `p` and changes no other file |
| Server.ReadWritten | core/command_server.py:278-294 | `read p` of a stored permitted path gives the header and its translated, truncated contents |
| Server.Target | core/command_server.py:410-418 | a history entry is replayed by the handler of its prefix, and an entry with no known prefix goes nowhere; replay never refuses at this point |
| Server.ResolveReplay | core/command_server.py:399-424 | a refusal of a `REPLAY:` argument is never the retry marker |
| Server.Resolve | core/command_server.py:374-427 | only a `REPLAY:` message can be refused, and never with the retry marker |
| Server.Perform | core/command_server.py:374-427 | no handler keeps the previous reply, a refusal answers with its reason and changes nothing, and the retry flag can only be raised together with the marker |
| Server.Dispatch | core/command_server.py:372-428 | one pass replies what its handler replies. A `CMD:`, `CODE:` or `FILE:` message is recorded unless it asked for a retry; an `INFO:` message is always recorded |
| Server.HandleMessage | core/command_server.py:366-438 | one message takes one or two passes, two exactly when the first answered with the marker. A message with no prefix answers "Unknown command format" and changes nothing |
| Server.AskedOnlyByFailure | core/command_server.py:166-179 | in an environment that never prints the marker itself, only the subprocess branches ask for a retry, only with the flag down, and asking changes nothing but the two flags |
| Server.RetryAnswers | core/command_server.py:171-179 | with a retry running, the subprocess branches answer with something other than the marker and lower the flag |
| Server.InfoMessage | core/command_server.py:388-390 | an `INFO:` message goes to the information handler |
| Server.NeverSendsMarker | core/command_server.py:370-438 | in such an environment the reply sent is never `RETRY_NEEDED`, and a server whose flag is down before a message has it down afterwards |
| Server.ReplayBranch | core/command_server.py:374-399 | a `REPLAY:` message takes none of the other four branches |
| Server.ReplayMessage | core/command_server.py:399-402 | a `REPLAY:` message is resolved by the text after the prefix |
| Server.ReplayResolves | core/command_server.py:402-420 | `REPLAY:n` replays the `n`-th most recent entry, counting from one, and any other number gets the index error with the history size |
| Server.ReplayNumber | core/command_server.py:402-421 | any `REPLAY:` argument that `int()` reads as `n`, however spelled, replays the `n`-th most recent entry, or gets the index error naming `n` and the history size |
| Server.ReplayResolvesTo | core/command_server.py:399-421 | a `REPLAY:` message whose argument reads as `n` resolves as `n` does |
| Server.IntToStringReads | core/command_server.py:402 | the decimal text of `n` is read back as `n` by `int()` after stripping |
| Server.RefusedMessage | core/command_server.py:419-435 | a refused message is answered with the refusal in one pass and changes nothing |
| Server.ReplayOutOfRange | core/command_server.py:419-421 | an out-of-range replay answers with the index and the history size and changes nothing |
| Server.ReplayNotANumber | core/command_server.py:422-424 | a replay of something that is not a number answers with the format error and changes nothing |
| Handler.MatchedPrefix | core/ai_command_handler.py:843-847 | the prefix found is one the command starts with, and none exactly when the command has none of the five |
| Handler.RemoveAt | core/ai_command_handler.py:916-917 | removing one position keeps every other element and introduces no repeat |
| Handler.Admit | core/ai_command_handler.py:915-917 | below five entries the command is added. From five on the size stays the same, because one element (possibly the new one) is popped. Nothing else enters and no repeat arises |
| Handler.IsNewCommand | core/ai_command_handler.py:837-922 | a rejection changes no state, and an acceptance sets the timestamp to `now`. A forced command leaves the recent set alone. Any other accepted command was not recent, and it is recent afterwards unless the set was full. The recent set stays at most five long and free of repeats |
| Handler.AcceptedCommand | core/ai_command_handler.py:843-908 | an accepted command has a prefix and more than the prefix. Unless forced, its content meets the prefix's minimum length (CODE 10, CMD 3, FILE 4, INFO 1) and the quiet period (9 s for CODE, 3 s otherwise) has passed |
| Handler.RepeatNeedsForce | core/ai_command_handler.py:855-912 | a command already among the recent ones gets through only by the `FORCE:` bypass |
| Handler.ArchivedRejectsRepeat | archive/core/ai_command_handler.py:334-410 | the archived filter has no bypass, so a recent command is always turned away |
| Handler.AcceptedThenRepeated | core/ai_command_handler.py:910-917 | an accepted command that was not forced is turned away when it comes again, however much later, while it is still among the recent ones |
| Handler.CooldownHolds | core/ai_command_handler.py:882-908 | within the cooldown nothing but a forced command is accepted |
| Handler.AddToHistory | core/ai_command_handler.py:985-993 | empty and `REPLAY:` text and repeats leave the history unchanged; a new command goes first and the history stays at most ten long |
| Handler.IndexOf | core/ai_command_handler.py:957-959 | the first position holding the command |
| Handler.CommandIndex | core/ai_command_handler.py:945-960 | -1 exactly when the command is absent, otherwise a 1-based position holding it |
| Handler.PreviousCommand | core/ai_command_handler.py:1651-1661 | a command exactly for `1 <= index <= len`, and it comes from the history |
| Handler.IndexThenPrevious | core/ai_command_handler.py:945-960 | the index of a present command leads back to that command |
| Handler.PreviousThenIndex | core/ai_command_handler.py:1651-1661 | in a history without repeats, the command at a position has that position as its index |
| Handler.FirstPhrase | core/ai_command_handler.py:1380 | the leftmost position from `i` on where ASCII digits, optional whitespace and the unit word match; no earlier position matches |
| Handler.FirstPhraseCounts | core/ai_command_handler.py:1379-1383 | the first phrase of a unit counts, whatever follows it |
| Handler.OtherUnitZero | core/ai_command_handler.py:1373-1377 | a phrase in one unit counts nothing for a unit its word does not start with |
| Handler.ScheduleAllUnits | core/ai_command_handler.py:1371-1383 | `<h> óra <m> perc <s> másodperc` is `3600·h + 60·m + s` seconds |
| Handler.ThreeAmounts | core/ai_command_handler.py:1371-1379 | in three phrases whose unit words begin with different letters, each of the three patterns finds the number of its own phrase |
| Handler.SingleUnitDelay | core/ai_command_handler.py:1371-1383 | `<n> óra` is `3600·n`, `<n> perc` is `60·n` and `<n> másodperc` is `n` seconds; the minutes pattern does not match inside `másodperc` |
| Handler.ScheduleDelay | core/ai_command_handler.py:1371-1383 | no delay exactly when none of the three patterns finds a non-zero number; the total is at least 3600 times the hours and 60 times the minutes found |
| Handler.Amount | core/ai_command_handler.py:1379-1382 | without a match of the unit's pattern the unit adds nothing |
| Handler.NoDigitNoDelay | core/ai_command_handler.py:1371-1383 | a message without an ASCII digit asks for no delay |
| Handler.ErrorIgnoresCase | archive/core/ai_command_handler.py:412-431 | the error test ignores case: lower-casing the response first changes nothing |
| Handler.ErrorLead | archive/core/ai_command_handler.py:412-431 | a response that opens with `Error` is an error response, whatever follows |
| Handler.ServerFailuresAreErrors | core/ai_command_handler.py:924-943 | the server's failure replies for commands, code and files count as errors, so a failed command is never taken for a success |
| Handler.IsErrorResponse | core/ai_command_handler.py:924-943 | one of the seven indicators occurs in the lower-cased response. A definition; ErrorIgnoresCase, ErrorLead and ServerFailuresAreErrors state its properties |
| Handler.HandleSimpleCommand | archive/core/ai_command_handler.py:896-909 | with the content taken after `CMD:` and stripped: content opening with `echo` in any case answers the stripped text after its first five characters; any other content answers `Simple command executed: ` followed by exactly that content |
| Handler.IsSimpleCommand | archive/core/ai_command_handler.py:879-894 | a `CMD:` text whose stripped, lower-cased content opens with one of the thirteen simple words. A definition; EchoAnswers uses it |
| Handler.EchoAnswers | archive/core/ai_command_handler.py:879-909 | `CMD:echo t` is a simple command and answers exactly `t`, for a `t` without surrounding whitespace |
| Handler.RunFallback | core/ai_command_handler.py:401-424 | the reply is never empty. A command longer than 200 characters is refused. A permitted command that exits replies with at most 1000 characters plus the mark |
| Handler.LongNeverRuns | core/ai_command_handler.py:403-404 | an overlong command never reaches the shell, whatever the shell would do |
| Handler.HarmfulNeverRuns | core/ai_command_handler.py:407-409 | a command holding a harmful pattern never reaches the shell either |
| Handler.BlockedInAnyCase | core/ai_command_handler.py:407-409 | the patterns match in any case: any casing of a pattern inside the command blocks it |
| Handler.LongOutputCut | core/ai_command_handler.py:414-417 | long output is cut to its first 1000 characters plus the mark |
| Handler.IsSystemCommand | core/ai_command_handler.py:112-122 | the first word of the stripped, lower-cased command names a registered system command. A definition; PlainCommandAnswered relies on it |
| Handler.ShouldSend | core/ai_command_handler.py:1423-1473 | the forwarding decision. A definition; OnlyEchoesHeldBack, PlainCommandAnswered and RepeatedInfoHeldBack state when it holds |
| Handler.OnlyEchoesHeldBack | core/ai_command_handler.py:1423-1473 | a response is held back only when it is routed ECHO and, stripped, equals the command without `CMD:` and `FORCE:` |
| Handler.PlainCommandAnswered | core/ai_command_handler.py:1423-1473 | the answer to a command whose cleaned text does not itself open with an echo prefix is always sent back |
| Handler.RepeatedInfoHeldBack | core/ai_command_handler.py:1448-1461 | a response that merely repeats an `INFO:` or `REPLAY:` command is held back |
| Handler.Collapse | core/ai_command_handler.py:142 | empty exactly for empty text. It starts and ends with whitespace exactly where the text does, and every character is a space or one of the text's |
| Handler.CollapseIsCollapsed | core/ai_command_handler.py:142 | the result holds no whitespace other than single spaces |
| Handler.CollapsedKept | core/ai_command_handler.py:142 | text already collapsed is left as it is |
| Handler.Normalize | core/ai_command_handler.py:139-143 | the text the cache key hashes: stripped, lower-cased, whitespace runs collapsed. A definition; NormalizeIdempotent states that it is idempotent |
| Handler.NormalizeIdempotent | core/ai_command_handler.py:138-143 | normalising twice is normalising once, so a normalised text keeps its cache key |
| Handler.NormalizeIgnoresCase | core/ai_command_handler.py:141 | a text and its lower-cased form normalise alike |
| Handler.CaseVariantsShareKey | core/ai_command_handler.py:138-143 | texts that lower-case alike, accented capitals included, share one cache key |
| Handler.StripLower | core/ai_command_handler.py:141 | stripping then lower-casing is lower-casing then stripping |
| Text.Strip | core/command_server.py:309-310 | `str.strip`: no whitespace at either end, empty exactly for blank text, never longer |
| Text.IsSpace | core/command_server.py:309-310 | the characters `str.isspace` accepts, which `strip` removes |
| Text.Lower | core/ai_command_handler.py:141 | `str.lower` for ASCII, Latin-1 and Latin Extended-A capitals, Kelvin sign and dotted capital I; never shorter |
| Text.LowerIdempotent | core/ai_command_handler.py:141 | lower-casing twice is lower-casing once |
| Text.HungarianLower | core/ai_command_handler.py:141 | `ÁRVÍZTŰRŐ TÜKÖRFÚRÓGÉP` lower-cases to `árvíztűrő tükörfúrógép` |
| Text.ParseInt | core/command_server.py:402 | `int()` of a text: it succeeds only on a text that is not blank; Server.IntToStringReads reads every decimal text back |
| Library.Internals | core/command_library.py:289-290 | every internal command is registered under its own name and nothing else is |
| Library.CommentFree | core/command_library.py:294 | the entry cut at its first `#` (if any) and stripped, so no `#` remains |
| Library.AddSystem | core/command_library.py:293-299 | an entry that is empty without its comment, or whose first word (lower-cased) is already a key, adds nothing; otherwise exactly that first word is added, running the entry without its comment as a shell command |
| Library.PowerShellKey | core/command_library.py:306 | the key is `ps_` followed by the first word, lower-cased and without dashes |
| Library.AddPowerShell | core/command_library.py:302-308 | a PowerShell entry is added as `powershell <entry>` under a free `ps_` key; nothing registered before changes |
| Library.CandidateInjective | core/command_library.py:326-331 | different counters give different candidate keys |
| Library.FreeCandidate | core/command_library.py:326-331 | the uniqueness loop ends, and the key it yields is not yet registered |
| Library.AddSecurity | core/command_library.py:311-333 | nothing registered before changes. An entry empty without its comment adds nothing; any other entry adds exactly one key, the first of `sec_…`, `sec_…_1`, `sec_…_2`, … not yet registered, running the entry without its comment |
| Library.SecurityKey | core/command_library.py:314-324 | `sec_` and the lower-cased first word, with the lower-cased second word added for `powershell`, `netsh` and `reg` when there is one. A definition used by AddSecurity |
| Library.AddFirstFree | core/command_library.py:326-333 | the entry is added under the first free candidate of the key, and exactly one key is added |
| Library.FirstFreeUnique | core/command_library.py:326-331 | only one candidate is the first free one |
| Library.AddAlias | core/command_library.py:352-354 | nothing registered before changes, and an alias whose name is free is added with its command |
| Library.LibraryOf | core/command_library.py:271-354 | no table overwrites an internal command: every internal name keeps its Python function, and every other name is a shell command |
| Library.InternalReached | core/command_server.py:136-148 | with the server's library set to this module's keys, a command whose first word names an internal function takes the library branch and never reaches the shell |
| Library.CommentOnlySkipped | core/command_library.py:294-295 | an entry that is empty once its comment is dropped adds nothing |
| Library.CommentFreePlain | core/command_library.py:294 | an entry without a comment and without surrounding whitespace is taken as it is |
| Library.PowerShellWordKey | core/command_library.py:302-308 | a one-word entry such as `Get-Content` is registered under `ps_getcontent` |
| Library.KeptOutput | core/command_library.py:61-68 | stdout stripped, or stderr stripped when stdout is blank; cut past 1000 characters to its first 1000 plus the mark; `(Nincs kimenet)` when nothing is left. Never empty |
| Library.Position | core/command_library.py:37 | the position of a key in the cache, found exactly when the key is there |
| Library.Oldest | core/command_library.py:45-46 | an entry no younger than any other, the first such one |
| Library.Evict | core/command_library.py:43-49 | removes `n` entries, or all when there are fewer, and keeps only entries of the cache. Every removed entry is no younger than any kept one, and keys stay distinct |
| Library.Store | core/command_library.py:71 | afterwards the key maps to the new result and time, every other entry is kept, and keys stay distinct |
| Library.Execute | core/command_library.py:30-79 | the cache never exceeds 100 entries and keeps its keys distinct. A miss on a full cache leaves at most 91 entries. A fresh hit returns the cached result and keeps the cache. A miss that passes the guards and runs answers the kept output and stores it under its key, stamped with the clock read after the run |
| Library.RefusedNeverRuns | core/command_library.py:53-58 | an overlong or harmful command line is refused whatever the shell would do, and the cache only loses entries |
| Library.HarmfulAnyCase | core/command_library.py:56-57 | the harmful patterns are matched in any case |
| Library.OpenPortsBlocked | core/command_library.py:337 | the `open_ports` alias contains `|`, so it is refused unless a fresh result is cached |
| Library.CachedRepeat | core/command_library.py:37-71 | a result that was run and cached is answered from the cache, whatever the shell would now say, until 300 seconds after the run ended |
| Library.RefusedNotCached | core/command_library.py:53-71 | a refused command line leaves no cache entry behind, so from an empty cache it is refused every time |
| Agent.FirstExecutable | openai_agent.py:48-55 | a recommendation is sent exactly when some item is reached and executable, and the one sent is that item |
| Agent.SentOnce | openai_agent.py:52-54 | the loop sends at most one recommendation |
| Agent.StringsFirstExecutable | openai_agent.py:48-55 | for a list of strings the sender gets the first one starting with `CMD:` or `REPLAY:` |
| Agent.NoExecutableNothingSent | openai_agent.py:48-55 | with no executable recommendation nothing is sent |
| Agent.FirstExecutableKey | openai_agent.py:48-55 | iterating an object yields an executable key if there is one; otherwise nothing is sent |
| Agent.Lookup | openai_agent.py:48 | `d.get(key)` finds a value exactly when the key occurs, and it is the value of the last occurrence |
| Agent.LookupInit | openai_agent.py:48 | past a last member with another key, the key occurs, and occurs last, exactly where it does among the other members |
| Agent.Recommendation | openai_agent.py:43-57 | whatever is sent is executable, and a failed analysis or a non-object answer sends nothing |
| Agent.SentIsRecommended | archive/openai_agent.py:49-55 | what reaches the sender is one of the listed recommendations |
| Agent.StringValueSendsNothing | openai_agent.py:48-55 | a string value iterates as single characters, none executable, so nothing is sent |
| Agent.Label | openai_agent.py:147-154 | a known level gets its own label; a missing or other severity gets the unknown label |
| Agent.LabelsDistinct | openai_agent.py:147-152 | different levels get different labels |
| Agent.BulletsRoundTrip | openai_agent.py:135-145 | every listed item can be read back from its `  - ` line |
| Agent.ReadSection | openai_agent.py:135-145 | a section can be read back from the lines: its title, then its items in order |
| Agent.ReportLines | openai_agent.py:131-154 | the report has six lines plus one per listed item |
| Agent.RespondingListed | openai_agent.py:135-137 | the responding servers are listed in order under their title |
| Agent.FailingListed | openai_agent.py:139-141 | the failing servers follow, in order, under their title |
| Agent.RecommendationsListed | openai_agent.py:143-154 | then come the recommendations in order, and last the severity label |
| Agent.ReportOpening | openai_agent.py:131-156 | the printed report starts with the header line and the rule |
| Agent.LastIndex | archive/openai_agent.py:177 | the last position of a character, or -1 when it does not occur |
| Agent.TrimSlashes | archive/openai_agent.py:177 | a prefix that ends without `/` unless it is empty; only slashes were removed |
| Agent.SplitPath | archive/openai_agent.py:177 | the name part holds no `/`, and the directory part ends without `/` unless it is all slashes |
| Agent.Stem | archive/openai_agent.py:178 | the stem is a prefix of the name and holds no `/` when the name holds none; a shorter stem ends just before the last `.` and holds a character other than `.`; the whole name is kept only when every `.` in it has only dots before it |
| Agent.SplitName | archive/openai_agent.py:177 | a bare name splits into no directory and itself |
| Agent.SplitUnderRoot | archive/openai_agent.py:177-179 | a name under a root of slashes splits back into the two |
| Agent.SplitUnderDirectory | archive/openai_agent.py:177-179 | a name joined to a directory with one slash splits back into the two |
| Agent.AiPathSameDirectory | archive/openai_agent.py:176-179 | the edited file lands next to the original: splitting the new path gives back the directory, and the name is the stem plus `_ai.py` |
| Agent.AiNameStem | archive/openai_agent.py:178-179 | the new name's own stem is the old stem plus `_ai` |
| Agent.FirstOpening | archive/openai_agent.py:210-213 | the first block from `i` on that opens a Python block, if there is one |
| Agent.ExtractCode | archive/openai_agent.py:206-213 | without the Python fence the reply is kept unchanged. With it, the reply is kept when no block opens with `python`; otherwise the result is the first such block with every `python` removed, stripped |
| Agent.ExtractAt | archive/openai_agent.py:206-213 | where the first opening block is block `i`, the result is that block with every `python` removed, stripped |
| Agent.ExtractSecond | archive/openai_agent.py:206-213 | when the second block is `python` plus code and opens first, the result is the code, stripped |
| Agent.FirstOpeningFirst | archive/openai_agent.py:210-213 | the block found opens a Python block, and none before it from `i` on does |
| Agent.FencedCode | archive/openai_agent.py:206-213 | text, a fence opened with `python`, code, a closing fence and more text give back exactly the code, stripped |
| Agent.FencedReply | archive/openai_agent.py:206-213 | the same round trip for the reply given as a whole |

## Left out

- I/O, processes and services are environment parameters. This covers `subprocess.run`, the Python interpreter run by `handle_code`, `platform`, `psutil` and `socket` (`handle_info` and the internal library commands), the file system seen by `handle_file`, `os.listdir`, the network diagnostics and the OpenAI calls. They are `Server.Env`, the `run` parameter of `Library.Execute` and `Handler.RunFallback`, and the parsed answer passed to `Agent.Recommendation`.
- Logging, the journal, `export_history`/`import_history` and the pickle cache are left out; they write files and change no modelled state.
- Selenium, the DOM, the WebSocket client with its backoff, `start_server` and `find_free_port` are left out: they are browser and network automation.
- The async loops are left out: `start_monitoring`, `start_retry_loop`, `replay_command` and `schedule_delayed_command`. They are scheduling over real time.
- Ledger.AddCommand: the ISO timestamp string stored in each entry is not modelled. Only the numeric clock `now` is kept.
- Ledger.GetCommandById: the log lines are a parameter; reading the log file is left out.
- Handler.NormalizeIdempotent: the md5 hash of `_calculate_cache_key` is left out. Only the normalisation before it is modelled, and equal normalised texts give equal keys under any hash.
- Handler.Admit: the element `set.pop()` removes is arbitrary in Python. The model takes it as the caller's `evict` index, so the contracts hold for every choice.
- Handler.HandleSimpleCommand: it models the archived version. The current copy calls `.trip()` at core/ai_command_handler.py:1412, which raises `AttributeError` on every call, and nothing in the current copy calls the method.
- `exist_oké` at core/ai_command_handler.py:1579 is not valid Python. It sits in file-editing code outside this model.
- The two `apply_code_edit` definitions in core/ai_command_handler.py (the second shadows the first) belong to the OpenAI editing path, which is left out.
- Library.Execute: `platform.node()` and the clock are parameters, and decoding with `errors='ignore'` is left to the `run` parameter. A shell exception other than a timeout is an `Outcome` of `run`.
- Text.Lower: Python's `str.lower` is modelled for ASCII, the Latin-1 Supplement and Latin Extended-A (every accented Hungarian capital), KELVIN SIGN and U+0130. Other scripts (Greek, Cyrillic, Latin Extended-B and beyond) keep their capitals in the model, so texts in those scripts that differ only in case get different cache keys in the model and one key in the source.
- Handler.Normalize: the same limit applies to the lower-casing it uses; see `- Text.Lower:`.
- Router.IsCodeText: `\w` in `@\w` is modelled as ASCII letters, digits and `_`. Python also matches Unicode letters and digits.
- Text.ParseInt: Python's `int()` also accepts non-ASCII decimal digits; they are left out. CPython 3.11 and later also refuse a decimal text of more than 4300 digits with ValueError; the model reads any length. So Server.ResolveReplay, Server.ReplayNumber, Server.ReplayNotANumber and Ledger.ReplayIndex read a `REPLAY:` argument of 4301 or more digits as a number and give the index refusal, where the source answers `Invalid REPLAY format`.
- Json.Loads: the recursion-depth limit, the 4300-digit integer limit and the values produced (floats, duplicate-key merging) are left out. Only acceptance matters to the router.
- Agent.Stem: POSIX path rules (`posixpath`) are modelled. Windows drive letters and `\` separators are left out.
- Agent.ReportLines: list items are strings. The `str()` of non-string items, and a severity that is not a string, are left out.
- Agent.Recommendation: a callback that raises is not modelled. Its exception would be swallowed like the others, after the command was sent.
- Server.EarlyCmd: the `diagnose network` reply is the environment's `diagnose` text. The diagnostics, the JSON file written and the ping targets are left out.
- Ledger.ValidateCommand: the `not isinstance(command, str)` guard is not modelled, because the model's argument is always a text. A non-text argument returns `False` in the source.
- Server.WriteFile: the directories `os.makedirs` creates are not modelled. Directories are the fixed `dirs` of the environment, so a write never creates a directory entry; the refusals of `os.makedirs` and `open` are `Server.WriteBlocked`, whose error texts come from the environment.
- Server.ListDir: listings come from the environment's fixed `dirs`, so a file written by `FILE:write` does not appear in a later listing, while the source lists it.
- Server.ReadFile: reading follows POSIX text mode. Newlines are translated on read only; on Windows a write would also turn `\n` into `\r\n`, which the read turns back. Path normalisation (`a/./b` and `a/b` naming one file) and bytes that are not valid UTF-8 are left out.
- Handler.ScheduleDelay: `\d` in the three patterns matches any Unicode decimal digit, and `int()` reads them. The model matches ASCII digits only, so a message such as `٣ perc` asks for 180 seconds in the source and none in the model.
- Handler.FirstPhrase: `\d` is taken as ASCII `0`-`9`; the source's `re` also matches the other Unicode decimal digits.
- Handler.NoDigitNoDelay: it holds for messages without an ASCII digit only when they hold no other Unicode decimal digit either; the model has no such digits.
- Server.Env: the `library` set is a parameter of the server model. Library.Serves ties it to the keys of `COMMAND_LIBRARY`, and Library.InternalReached uses that tie; the server's contracts hold for any set.
- core/system_commands.py is transcribed as constant tables; it holds no logic.

=== FILE: agent.dfy ===
/**
  What the log-analysis agent does with a model's answer: which
  recommendation it hands to the command sender, how it prints an
  analysis, where it writes an edited file and which part of the reply it
  keeps as code. The language model, the files and the log are left out;
  the answer arrives as a parsed JSON document or as text.
 */
module Agent {
  import opened Wrappers
  import opened Text
  import Json

  // ----------------------------------------------------- the recommendation

  /** A recommendation the command sender can run. */
  predicate Executable(r: String) {
    StartsWith(r, "CMD:") || StartsWith(r, "REPLAY:")
  }

  /**
    The loop reaches item `i` and sends it: every item before it is a string
    that is not executable (a non-string would have raised), and item `i` is
    an executable string.
   */
  predicate SentAt(items: seq<Json.Doc>, i: int) {
    && 0 <= i < |items|
    && items[i].Str? && Executable(items[i].text)
    && forall j | 0 <= j < i :: items[j].Str? && !Executable(items[j].text)
  }

  /** The loop over a list of recommendations: the first executable one, or none. */
  function FirstExecutable(items: seq<Json.Doc>): (r: Option<String>)
    ensures r.Some? <==> exists i :: SentAt(items, i)
    ensures r.Some? ==> exists i :: SentAt(items, i) && items[i].text == r.value
  {
    if items == [] then None
    else if !items[0].Str? then None
    else if Executable(items[0].text) then
      assert SentAt(items, 0);
      Some(items[0].text)
    else
      var r := FirstExecutable(items[1..]);
      SentShift(items);
      r
  }

  /** Past a skipped first item, the loop goes on with the rest. */
  lemma SentShift(items: seq<Json.Doc>)
    requires items != [] && items[0].Str? && !Executable(items[0].text)
    ensures (exists i :: SentAt(items, i)) <==> (exists i :: SentAt(items[1..], i))
    ensures forall i | SentAt(items[1..], i) :: SentAt(items, i + 1) && items[i + 1] == items[1..][i]
  {
    forall i | SentAt(items, i) ensures SentAt(items[1..], i - 1) {
      assert i != 0;
    }
    forall i | SentAt(items[1..], i) ensures SentAt(items, i + 1) {
      assert forall j | 1 <= j < i + 1 :: items[j] == items[1..][j - 1];
    }
  }

  /** The loop sends at most one recommendation. */
  lemma SentOnce(items: seq<Json.Doc>, i: int, j: int)
    requires SentAt(items, i) && SentAt(items, j)
    ensures i == j
  {
  }

  /** For a list of strings the sender gets the first executable one, if any. */
  lemma StringsFirstExecutable(recs: seq<String>, i: nat)
    requires i < |recs| && Executable(recs[i])
    requires forall j | 0 <= j < i :: !Executable(recs[j])
    ensures FirstExecutable(seq(|recs|, k requires 0 <= k < |recs| => Json.Str(recs[k]))) == Some(recs[i])
  {
    var items := seq(|recs|, k requires 0 <= k < |recs| => Json.Str(recs[k]));
    assert SentAt(items, i);
  }

  /** With no executable recommendation nothing is sent. */
  lemma NoExecutableNothingSent(recs: seq<String>)
    requires forall j | 0 <= j < |recs| :: !Executable(recs[j])
    ensures FirstExecutable(seq(|recs|, k requires 0 <= k < |recs| => Json.Str(recs[k]))) == None
  {
  }

  /** The first executable key of a JSON object, which Python iterates by key. */
  function FirstExecutableKey(fields: seq<Json.Field>): (r: Option<String>)
    ensures r.Some? ==> Executable(r.value) && exists i | 0 <= i < |fields| :: fields[i].key == r.value
    ensures r.None? ==> forall i | 0 <= i < |fields| :: !Executable(fields[i].key)
  {
    if fields == [] then None
    else if Executable(fields[0].key) then Some(fields[0].key)
    else
      var r := FirstExecutableKey(fields[1..]);
      assert r.Some? ==> fields[1..][0].key == fields[1].key;
      r
  }

  /** Member `i` has the key, and no later member does. */
  predicate LastWith(fields: seq<Json.Field>, key: String, i: int) {
    0 <= i < |fields| && fields[i].key == key && forall j | i < j < |fields| :: fields[j].key != key
  }

  /** `d.get(key)` on a parsed object: the last value given for the key. */
  function Lookup(fields: seq<Json.Field>, key: String): (r: Option<Json.Doc>)
    ensures r.Some? <==> exists i | 0 <= i < |fields| :: fields[i].key == key
    ensures r.Some? ==> exists i :: LastWith(fields, key, i) && fields[i].value == r.value
  {
    if fields == [] then None
    else if fields[|fields| - 1].key == key then
      assert LastWith(fields, key, |fields| - 1);
      Some(fields[|fields| - 1].value)
    else
      var r := Lookup(fields[..|fields| - 1], key);
      LookupInit(fields, key);
      r
  }

  /** Past a last member with another key, `d.get(key)` looks among the others. */
  lemma LookupInit(fields: seq<Json.Field>, key: String)
    requires fields != [] && fields[|fields| - 1].key != key
    ensures var init := fields[..|fields| - 1];
      && ((exists i | 0 <= i < |fields| :: fields[i].key == key) <==> (exists i | 0 <= i < |init| :: init[i].key == key))
      && forall i | LastWith(init, key, i) :: LastWith(fields, key, i) && fields[i] == init[i]
  {
    var init := fields[..|fields| - 1];
    forall i | 0 <= i < |fields| && fields[i].key == key ensures 0 <= i < |init| && init[i].key == key {
      assert i != |fields| - 1;
    }
    forall i | LastWith(init, key, i) ensures LastWith(fields, key, i) && fields[i] == init[i] {
      forall j | i < j < |fields| ensures fields[j].key != key {
        if j < |init| {
          assert init[j] == fields[j];
        }
      }
    }
  }

  /**
    `analyze_and_execute`: the one command handed to the sender, or `None`
    when nothing is sent. `analysis` is the parsed answer, `None` when the
    analysis raised. Every exception on the way (the analysis failing, an
    answer that is not an object, a `recommendations` value that cannot be
    iterated, a non-string before the first executable item) is swallowed.
   */
  function Recommendation(analysis: Option<Json.Doc>): (r: Option<String>)
    ensures r.Some? ==> Executable(r.value)
    ensures analysis.None? || !analysis.value.Obj? ==> r.None?
  {
    match analysis
      case None => None
      case Some(Obj(fields)) =>
        (match Lookup(fields, "recommendations").GetOr(Json.Arr([]))
          case Arr(items) => FirstExecutable(items)
          case Obj(keys) => FirstExecutableKey(keys)
          case _ => None)
      case Some(_) => None
  }

  /** A recommendation that reaches the sender is one of the listed recommendations. */
  lemma SentIsRecommended(fields: seq<Json.Field>, items: seq<Json.Doc>)
    requires Lookup(fields, "recommendations") == Some(Json.Arr(items))
    requires Recommendation(Some(Json.Obj(fields))).Some?
    ensures Json.Str(Recommendation(Some(Json.Obj(fields))).value) in items
  {
    var i :| SentAt(items, i) && items[i].text == FirstExecutable(items).value;
    assert items[i] == Json.Str(items[i].text);
  }

  /** A single-character string is never executable, so a string value sends nothing. */
  lemma StringValueSendsNothing(fields: seq<Json.Field>, t: String)
    requires Lookup(fields, "recommendations") == Some(Json.Str(t))
    ensures Recommendation(Some(Json.Obj(fields))).None?
  {
  }

  // --------------------------------------------------------------- the report

  /** The parts of an analysis the report prints. `severity` is `None` when missing. */
  datatype Analysis = Analysis(responding: seq<String>, failing: seq<String>,
                               recommendations: seq<String>, severity: Option<String>)

  const Header: String := "🔍 Szerver Státusz Elemzés"
  const RespondingTitle: String := "\n✅ Megfelelően válaszoló szerverek:"
  const FailingTitle: String := "\n❌ Problémás szerverek:"
  const RecommendationsTitle: String := "\n💡 Javaslatok:"
  const SeverityTitle: String := "\n⚠️ Probléma súlyossága: "
  const UnknownLabel: String := "❓ Ismeretlen"

  /** How many `=` make the rule under the header. */
  const RuleWidth: nat := 30

  /** The rule under the header. */
  function Rule(): (r: String)
    ensures |r| == RuleWidth && forall i | 0 <= i < RuleWidth :: r[i] == '='
  {
    Repeat('=', RuleWidth)
  }

  /** The severity levels the report knows, lowest first. */
  const Levels: seq<String> := ["low", "medium", "high", "critical"]

  const Labels: seq<String> := ["⚪ Alacsony", "🟡 Közepes", "🟠 Magas", "🔴 Kritikus"]

  /** The label of a severity: its own for a known level, the unknown label otherwise. */
  function Label(severity: Option<String>): (r: String)
    ensures r == UnknownLabel <==> severity.None? || severity.value !in Levels
    ensures forall i | 0 <= i < |Levels| :: severity == Some(Levels[i]) ==> r == Labels[i]
  {
    match severity
      case Some(s) =>
        if s == "low" then "⚪ Alacsony"
        else if s == "medium" then "🟡 Közepes"
        else if s == "high" then "🟠 Magas"
        else if s == "critical" then "🔴 Kritikus"
        else UnknownLabel
      case None => UnknownLabel
  }

  /** Different known levels get different labels. */
  lemma LabelsDistinct(a: String, b: String)
    requires a in Levels && b in Levels && Label(Some(a)) == Label(Some(b))
    ensures a == b
  {
  }

  /** One listed item. */
  function Bullet(x: String): String {
    "  - " + x
  }

  function Bullets(xs: seq<String>): (r: seq<String>)
    ensures |r| == |xs|
    ensures forall i | 0 <= i < |xs| :: r[i] == Bullet(xs[i])
  {
    if xs == [] then [] else [Bullet(xs[0])] + Bullets(xs[1..])
  }

  /** Reading an item back from its line. */
  function Unbullet(line: String): String {
    Drop(line, 4)
  }

  function Unbullets(lines: seq<String>): (r: seq<String>)
    ensures |r| == |lines|
    ensures forall i | 0 <= i < |lines| :: r[i] == Unbullet(lines[i])
  {
    if lines == [] then [] else [Unbullet(lines[0])] + Unbullets(lines[1..])
  }

  /** Every listed item can be read back from its line. */
  lemma {:induction false} BulletsRoundTrip(xs: seq<String>)
    ensures Unbullets(Bullets(xs)) == xs
  {
    forall i | 0 <= i < |xs| ensures Unbullets(Bullets(xs))[i] == xs[i] {
      assert Bullet(xs[i])[4..] == xs[i];
    }
  }

  /** A title line and one line per item. */
  function Section(title: String, xs: seq<String>): seq<String> {
    [title] + Bullets(xs)
  }

  /** A section at the front of some lines can be read back: its title, then its items. */
  lemma ReadSection(lines: seq<String>, title: String, xs: seq<String>, rest: seq<String>)
    requires lines == Section(title, xs) + rest
    ensures |lines| == 1 + |xs| + |rest|
    ensures lines[0] == title && Unbullets(lines[1..1 + |xs|]) == xs && lines[1 + |xs|..] == rest
  {
    assert lines[1..1 + |xs|] == Bullets(xs);
    BulletsRoundTrip(xs);
  }

  /** The lines of `format_analysis_result`, before they are joined with newlines. */
  function ReportLines(a: Analysis): (lines: seq<String>)
    ensures |lines| == 6 + |a.responding| + |a.failing| + |a.recommendations|
  {
    [Header, Rule()] + (Section(RespondingTitle, a.responding) + FailingOn(a))
  }

  /** `format_analysis_result` */
  function Report(a: Analysis): String {
    Join(ReportLines(a), "\n")
  }

  /** The lines after the header and the rule, from the first section on. */
  lemma ReportTail(a: Analysis)
    ensures ReportLines(a)[0] == Header && ReportLines(a)[1] == Rule()
    ensures ReportLines(a)[2..] == Section(RespondingTitle, a.responding) + FailingOn(a)
  {
  }

  /** The lines from the failing section on. */
  function FailingOn(a: Analysis): seq<String> {
    Section(FailingTitle, a.failing) + RecommendationsOn(a)
  }

  /** The lines from the recommendations section on. */
  function RecommendationsOn(a: Analysis): seq<String> {
    Section(RecommendationsTitle, a.recommendations) + [SeverityTitle + Label(a.severity)]
  }

  /** A section starting at line `at` can be read back there. */
  lemma ReadSectionAt(lines: seq<String>, at: nat, title: String, xs: seq<String>, rest: seq<String>)
    requires at <= |lines| && lines[at..] == Section(title, xs) + rest
    ensures |lines| == at + 1 + |xs| + |rest|
    ensures lines[at] == title && Unbullets(lines[at + 1..at + 1 + |xs|]) == xs && lines[at + 1 + |xs|..] == rest
  {
    var t := lines[at..];
    ReadSection(t, title, xs, rest);
    assert lines[at + 1..at + 1 + |xs|] == t[1..1 + |xs|];
    assert lines[at + 1 + |xs|..] == t[1 + |xs|..];
  }

  /** The responding servers are listed, in order, under their title. */
  lemma RespondingListed(a: Analysis)
    ensures var lines, n := ReportLines(a), |a.responding|;
      lines[2] == RespondingTitle && Unbullets(lines[3..3 + n]) == a.responding && lines[3 + n..] == FailingOn(a)
  {
    ReportTail(a);
    ReadSectionAt(ReportLines(a), 2, RespondingTitle, a.responding, FailingOn(a));
  }

  /** The failing servers follow, in order, under their title. */
  lemma FailingListed(a: Analysis)
    ensures var lines, n, m := ReportLines(a), |a.responding|, |a.failing|;
      lines[3 + n] == FailingTitle && Unbullets(lines[4 + n..4 + n + m]) == a.failing
      && lines[4 + n + m..] == RecommendationsOn(a)
  {
    RespondingListed(a);
    ReadSectionAt(ReportLines(a), 3 + |a.responding|, FailingTitle, a.failing, RecommendationsOn(a));
  }

  /** Then the recommendations, in order, and last the severity label. */
  lemma RecommendationsListed(a: Analysis)
    ensures var lines, n, m, k := ReportLines(a), |a.responding|, |a.failing|, |a.recommendations|;
      && lines[4 + n + m] == RecommendationsTitle
      && Unbullets(lines[5 + n + m..5 + n + m + k]) == a.recommendations
      && lines[5 + n + m + k] == SeverityTitle + Label(a.severity)
      && |lines| == 6 + n + m + k
  {
    var last := [SeverityTitle + Label(a.severity)];
    FailingListed(a);
    var at := 4 + |a.responding| + |a.failing|;
    ReadSectionAt(ReportLines(a), at, RecommendationsTitle, a.recommendations, last);
    assert ReportLines(a)[at + 1 + |a.recommendations|..][0] == last[0];
  }

  /** Three or more joined lines start with the first two, each followed by the separator. */
  lemma JoinOpening(lines: seq<String>, sep: String)
    requires |lines| >= 3
    ensures StartsWith(Join(lines, sep), lines[0] + sep + lines[1] + sep)
  {
    var h, r, t := lines[0], lines[1], lines[2..];
    assert lines == [h] + ([r] + t);
    JoinCons(h, [r] + t, sep);
    JoinCons(r, t, sep);
    var rest := Join(t, sep);
    assert Join(lines, sep) == h + sep + r + sep + rest;
    PrefixOfConcat(h + sep + r + sep, rest);
  }

  /** The printed report starts with the header line and the rule. */
  lemma ReportOpening(a: Analysis)
    ensures StartsWith(Report(a), Header + "\n" + Rule() + "\n")
  {
    ReportTail(a);
    JoinOpening(ReportLines(a), "\n");
  }

  // ---------------------------------------------------------- the output path

  /** The last position of `c` in `s`, or -1: `s.rfind(c)`. */
  function LastIndex(s: String, c: char): (r: int)
    ensures -1 <= r < |s|
    ensures r >= 0 ==> s[r] == c
    ensures forall j | r < j < |s| :: s[j] != c
  {
    if s == [] then -1
    else if s[|s| - 1] == c then |s| - 1
    else LastIndex(s[..|s| - 1], c)
  }

  predicate AllSlashes(s: String) {
    forall i | 0 <= i < |s| :: s[i] == '/'
  }

  /** `s.rstrip('/')` */
  function TrimSlashes(s: String): (r: String)
    ensures |r| <= |s| && r == s[..|r|]
    ensures r == [] || r[|r| - 1] != '/'
    ensures forall i | |r| <= i < |s| :: s[i] == '/'
  {
    if s != [] && s[|s| - 1] == '/' then
      var init := s[..|s| - 1];
      var r := TrimSlashes(init);
      assert forall i | 0 <= i < |init| :: init[i] == s[i];
      r
    else s
  }

  /**
    POSIX `os.path.split`: the part up to the last `/`, with trailing
    slashes removed unless it is all slashes, and the name after it.
   */
  function SplitPath(p: String): (r: (String, String))
    ensures '/' !in r.1
    ensures r.0 == [] || AllSlashes(r.0) || r.0[|r.0| - 1] != '/'
  {
    var i := LastIndex(p, '/') + 1;
    var head, tail := p[..i], p[i..];
    assert forall j | 0 <= j < |tail| :: tail[j] == p[i + j];
    if head != [] && !AllSlashes(head) then
      (TrimSlashes(head), tail)
    else (head, tail)
  }

  /**
    POSIX `os.path.splitext(name)[0]` for a name without `/`: everything
    before the last `.`, unless only dots precede it (a hidden file keeps
    its whole name).
   */
  function Stem(name: String): (r: String)
    ensures |r| <= |name| && r == name[..|r|]
    ensures '/' !in name ==> '/' !in r
    ensures r != name ==>
      && name[|r|] == '.'
      && (forall j | |r| < j < |name| :: name[j] != '.')
      && !(forall k | 0 <= k < |r| :: r[k] == '.')
    ensures r == name ==> forall j, k | 0 <= k < j < |name| && name[j] == '.' :: name[k] == '.'
  {
    var dot := LastIndex(name, '.');
    if dot > 0 && exists k | 0 <= k < dot :: name[k] != '.' then name[..dot] else name
  }

  /** POSIX `os.path.join(a, b)` for two parts. */
  function JoinPath(a: String, b: String): String {
    if StartsWith(b, "/") then b
    else if a == [] || a[|a| - 1] == '/' then a + b
    else a + "/" + b
  }

  /** Where `edit_code_file` writes: the same directory, the stem of the name plus `_ai.py`. */
  function AiPath(p: String): String {
    var (dir, name) := SplitPath(p);
    JoinPath(dir, Stem(name) + "_ai.py")
  }

  /** The slash that ends a head is the last slash of the joined path. */
  lemma LastSlashBefore(a: String, b: String)
    requires a != [] && a[|a| - 1] == '/' && '/' !in b
    ensures LastIndex(a + b, '/') == |a| - 1
  {
    var s := a + b;
    var r := LastIndex(s, '/');
    assert s[|a| - 1] == '/';
  }

  /** A bare name splits into no directory and itself. */
  lemma SplitName(n: String)
    requires '/' !in n
    ensures SplitPath(n) == ([], n)
  {
    assert n[..0] == [] && n[0..] == n;
  }

  /** A name under a root of slashes splits back into the two. */
  lemma SplitUnderRoot(d: String, n: String)
    requires d != [] && AllSlashes(d) && '/' !in n
    ensures SplitPath(d + n) == (d, n)
  {
    var q := d + n;
    LastSlashBefore(d, n);
    assert q[..|d|] == d && q[|d|..] == n;
  }

  /** A name joined to a directory with a slash splits back into the two. */
  lemma SplitUnderDirectory(d: String, n: String)
    requires d != [] && d[|d| - 1] != '/' && '/' !in n
    ensures SplitPath(d + "/" + n) == (d, n)
  {
    var e := d + "/";
    var q := e + n;
    LastSlashBefore(e, n);
    assert q[..|e|] == e && q[|e|..] == n;
    assert !AllSlashes(e) by { assert e[|d| - 1] != '/'; }
    assert e[..|d|] == d;
  }

  /**
    The edited file lands next to the original: splitting the new path
    gives back the directory, and the name is the stem plus `_ai.py`.
   */
  lemma AiPathSameDirectory(p: String)
    ensures SplitPath(AiPath(p)) == (SplitPath(p).0, Stem(SplitPath(p).1) + "_ai.py")
  {
    var (dir, name) := SplitPath(p);
    var n := Stem(name) + "_ai.py";
    assert '/' !in Stem(name);
    assert '/' !in n;
    assert !StartsWith(n, "/") by {
      if Stem(name) != [] {
        assert n[0] == Stem(name)[0];
      } else {
        assert n[0] == '_';
      }
    }
    if dir == [] {
      SplitName(n);
    } else if dir[|dir| - 1] == '/' {
      SplitUnderRoot(dir, n);
    } else {
      SplitUnderDirectory(dir, n);
    }
  }

  /** The new name's own stem is the old stem plus `_ai`. */
  lemma AiNameStem(stem: String)
    ensures Stem(stem + "_ai.py") == stem + "_ai"
  {
    var name := stem + "_ai.py";
    var dot := |stem| + 3;
    assert name[dot] == '.' && name[dot + 1] == 'p' && name[dot + 2] == 'y';
    assert LastIndex(name, '.') == dot;
    assert name[|stem|] == '_';
    assert name[..dot] == stem + "_ai";
  }

  // ------------------------------------------------------------ the code block

  const Fence: String := "```"

  /** Every block stripped, as `block.strip()` gives each. */
  function StripEach(blocks: seq<String>): (r: seq<String>)
    ensures |r| == |blocks|
  {
    if blocks == [] then [] else [Strip(blocks[0])] + StripEach(blocks[1..])
  }

  lemma {:induction false} StripEachAt(blocks: seq<String>, k: nat)
    requires k < |blocks|
    ensures StripEach(blocks)[k] == Strip(blocks[k])
    decreases k
  {
    if k > 0 {
      StripEachAt(blocks[1..], k - 1);
      assert blocks[1..][k - 1] == blocks[k];
    }
  }

  /**
    Over the stripped blocks: block `i` starts with `python`, or the
    block before it ends with `python`.
   */
  predicate Opens(stripped: seq<String>, i: int)
    requires 0 <= i < |stripped|
  {
    StartsWith(stripped[i], "python") || (i > 0 && EndsWith(stripped[i - 1], "python"))
  }

  /** The first block from `i` on that opens, if any. */
  function FirstOpening(stripped: seq<String>, i: nat): (r: Option<nat>)
    requires i <= |stripped|
    ensures r.Some? ==> i <= r.value < |stripped|
    decreases |stripped| - i
  {
    if i == |stripped| then None
    else if Opens(stripped, i) then Some(i)
    else FirstOpening(stripped, i + 1)
  }

  /** Block `i` opens, and no block before it does. */
  predicate FirstOpens(stripped: seq<String>, i: int) {
    0 <= i < |stripped| && Opens(stripped, i) && forall j | 0 <= j < i :: !Opens(stripped, j)
  }

  /** The block `FirstOpening` finds opens, and none before it does. */
  lemma {:induction false} FirstOpeningFirst(stripped: seq<String>, i: nat)
    requires i <= |stripped|
    ensures FirstOpening(stripped, i).Some? ==> Opens(stripped, FirstOpening(stripped, i).value)
    ensures forall j | i <= j < |stripped| && (FirstOpening(stripped, i).None? || j < FirstOpening(stripped, i).value) ::
      !Opens(stripped, j)
    decreases |stripped| - i
  {
    if i < |stripped| && !Opens(stripped, i) {
      FirstOpeningFirst(stripped, i + 1);
    }
  }

  /** A text holding `t + u` holds `t`. */
  lemma ContainsLead(s: String, t: String, u: String)
    requires Contains(s, t + u)
    ensures Contains(s, t)
  {
    var i := Find(s, t + u);
    assert s[i..i + |t|] == (t + u)[..|t|];
    ContainsIntro(s, t, i);
  }

  /**
    The code `edit_code_file` keeps from a reply: when the reply holds
    a Python fence, the first opening block with every `python` removed,
    stripped; otherwise the reply itself.
   */
  function ExtractCode(reply: String): (r: String)
    ensures !Contains(reply, "```python") ==> r == reply
    ensures Contains(reply, "```python") ==>
      var blocks := SplitOn(reply, Fence);
      var stripped := StripEach(blocks);
      && ((forall i | 0 <= i < |stripped| :: !Opens(stripped, i)) ==> r == reply)
      && forall i | FirstOpens(stripped, i) :: r == Strip(ReplaceAll(blocks[i], "python", []))
  {
    if !Contains(reply, "```python") then reply
    else
      PythonFenceHoldsFence(reply);
      var blocks := SplitOn(reply, Fence);
      var stripped := StripEach(blocks);
      FirstOpeningFirst(stripped, 0);
      match FirstOpening(stripped, 0)
        case Some(k) =>
          assert forall i | FirstOpens(stripped, i) :: i == k;
          Strip(ReplaceAll(blocks[k], "python", []))
        case None =>
          reply
  }

  /** Where a first opening block is found, the reply keeps that block's code. */
  lemma ExtractAt(reply: String, i: nat)
    requires Contains(reply, "```python")
    requires FirstOpening(StripEach(SplitOn(reply, Fence)), 0) == Some(i)
    ensures i < |SplitOn(reply, Fence)|
    ensures ExtractCode(reply) == Strip(ReplaceAll(SplitOn(reply, Fence)[i], "python", []))
  {
    PythonFenceHoldsFence(reply);
  }

  /** The second test of `edit_code_file`, `"```" in reply`, follows from the first. */
  lemma PythonFenceHoldsFence(reply: String)
    requires Contains(reply, "```python")
    ensures Contains(reply, Fence)
  {
    assert Fence + "python" == "```python";
    ContainsLead(reply, Fence, "python");
  }

  /** Splitting at a separator preceded by text that cannot overlap it. */
  lemma SplitAfterPiece(pre: String, rest: String)
    requires !Contains(pre, Fence) && (pre == [] || pre[|pre| - 1] != '`')
    ensures SplitOn(pre + Fence + rest, Fence) == [pre] + SplitOn(rest, Fence)
  {
    var s := pre + Fence + rest;
    var k := |pre|;
    assert s[k..k + 3] == Fence;
    forall j | 0 <= j < k ensures !OccursAt(s, Fence, j) {
      if j + 3 <= k {
        assert pre[j..j + 3] == s[j..j + 3];
        if OccursAt(s, Fence, j) {
          ContainsIntro(pre, Fence, j);
        }
      } else {
        assert s[k - 1] == pre[k - 1];
        assert s[j..j + 3][k - 1 - j] == s[k - 1];
      }
    }
    FindFirst(s, Fence, k);
    assert s[..k] == pre;
    assert s[k + 3..] == rest;
  }

  /** `replace` removes a leading `python`. */
  lemma ReplaceLeading(code: String)
    requires !Contains(code, "python")
    ensures ReplaceAll("python" + code, "python", []) == code
  {
    var s := "python" + code;
    assert s[0..6] == "python";
    FindFirst(s, "python", 0);
    assert s[6..] == code;
    assert SplitOn(s, "python") == [[]] + SplitOn(code, "python");
    assert SplitOn(code, "python") == [code];
    JoinCons([], [code], []);
  }

  /** A non-blank text starting with a word keeps it when stripped. */
  lemma StripKeepsLead(w: String, rest: String)
    requires w != [] && !IsSpace(w[0]) && !IsSpace(w[|w| - 1])
    ensures StartsWith(Strip(w + rest), w)
  {
    PrefixOfConcat(w, rest);
    TrimStartKeeps(w + rest);
    TrimEndKeepsPrefix(w + rest, w);
  }

  /** A block opening with `python` holds no fence when its code holds none. */
  lemma PythonBlockClean(code: String, block: String)
    requires block == "python" + code
    requires !Contains(code, Fence) && (code == [] || code[|code| - 1] != '`')
    ensures !Contains(block, Fence) && (block == [] || block[|block| - 1] != '`')
  {
    forall i | 0 <= i && i + 3 <= |block| ensures !OccursAt(block, Fence, i) {
      if i < 6 {
        assert block[i..i + 3][0] == block[i] == "python"[i];
      } else {
        assert block[i..i + 3] == code[i - 6..i - 3];
        assert !OccursAt(code, Fence, i - 6);
      }
    }
    assert block[|block| - 1] != '`' by {
      if code != [] {
        assert block[|block| - 1] == code[|code| - 1];
      }
    }
  }

  /** The fence marker sits right after the text before it. */
  lemma MarkerAfter(pre: String, x: String)
    requires StartsWith(x, "python")
    ensures Contains(pre + Fence + x, "```python") && Contains(pre + Fence + x, Fence)
  {
    var s := pre + Fence + x;
    assert s[|pre|..|pre| + 3] == Fence;
    assert s[|pre| + 3..|pre| + 9] == x[..6];
    assert s[|pre|..|pre| + 9] == "```python";
    ContainsIntro(s, "```python", |pre|);
    ContainsIntro(s, Fence, |pre|);
  }

  /** The blocks of such a reply: the text before the fence, then the Python block. */
  lemma FencedBlocks(pre: String, code: String, post: String, reply: String)
    requires !Contains(pre, Fence) && (pre == [] || pre[|pre| - 1] != '`')
    requires !Contains(code, Fence) && (code == [] || code[|code| - 1] != '`')
    requires reply == pre + Fence + ("python" + code + Fence + post)
    ensures |SplitOn(reply, Fence)| >= 2 && SplitOn(reply, Fence)[0] == pre && SplitOn(reply, Fence)[1] == "python" + code
  {
    var block := "python" + code;
    PythonBlockClean(code, block);
    SplitAfterPiece(pre, block + Fence + post);
    SplitAfterPiece(block, post);
    assert SplitOn(reply, Fence) == [pre] + ([block] + SplitOn(post, Fence));
  }

  /** With a first block that does not open, a Python block second is the one found. */
  lemma SecondOpens(stripped: seq<String>)
    requires |stripped| >= 2 && !StartsWith(stripped[0], "python") && StartsWith(stripped[1], "python")
    ensures FirstOpening(stripped, 0) == Some(1)
  {
    assert !Opens(stripped, 0);
    assert Opens(stripped, 1);
  }

  /** A stripped block starts with a word exactly when the block does once stripped. */
  lemma StrippedStarts(blocks: seq<String>, k: nat, w: String)
    requires k < |blocks|
    ensures StartsWith(StripEach(blocks)[k], w) <==> StartsWith(Strip(blocks[k]), w)
  {
    StripEachAt(blocks, k);
  }

  /** A block opening with `python` still does once stripped. */
  lemma PythonBlockStripped(block: String, code: String)
    requires block == "python" + code
    ensures StartsWith(Strip(block), "python")
  {
    StripKeepsLead("python", code);
  }

  /** A first block that does not open followed by a Python block: the second is the one found. */
  lemma PythonSecond(blocks: seq<String>, pre: String, code: String)
    requires |blocks| >= 2 && blocks[0] == pre && blocks[1] == "python" + code
    requires !StartsWith(Strip(pre), "python")
    ensures FirstOpening(StripEach(blocks), 0) == Some(1)
  {
    StrippedStarts(blocks, 0, "python");
    PythonBlockStripped(blocks[1], code);
    StrippedStarts(blocks, 1, "python");
    SecondOpens(StripEach(blocks));
  }

  /** Such a reply holds the Python fence. */
  lemma FencedMarker(pre: String, code: String, post: String, reply: String)
    requires reply == pre + Fence + ("python" + code + Fence + post)
    ensures Contains(reply, "```python")
  {
    var block := "python" + code;
    PrefixOfConcat("python", code);
    PrefixOfConcat(block, Fence);
    PrefixOfConcat(block + Fence, post);
    PrefixOfPrefix(block + Fence, block, "python");
    PrefixOfPrefix(block + Fence + post, block + Fence, "python");
    MarkerAfter(pre, block + Fence + post);
  }

  /** A reply whose second block is the first to open keeps that block's code. */
  lemma ExtractSecond(reply: String, code: String)
    requires Contains(reply, "```python") && !Contains(code, "python")
    requires |SplitOn(reply, Fence)| >= 2 && SplitOn(reply, Fence)[1] == "python" + code
    requires FirstOpening(StripEach(SplitOn(reply, Fence)), 0) == Some(1)
    ensures ExtractCode(reply) == Strip(code)
  {
    ExtractAt(reply, 1);
    ReplaceLeading(code);
  }

  /**
    A reply made of some text, a fence opened with `python`, code, a
    closing fence and more text gives back exactly the code, stripped.
   */
  lemma FencedCode(pre: String, code: String, post: String)
    requires !Contains(pre, Fence) && (pre == [] || pre[|pre| - 1] != '`')
    requires !StartsWith(Strip(pre), "python")
    requires !Contains(code, Fence) && (code == [] || code[|code| - 1] != '`')
    requires !Contains(code, "python")
    ensures ExtractCode(pre + Fence + ("python" + code + Fence + post)) == Strip(code)
  {
    FencedReply(pre, code, post, pre + Fence + ("python" + code + Fence + post));
  }

  /** `FencedCode`, for the reply given as a whole. */
  lemma FencedReply(pre: String, code: String, post: String, reply: String)
    requires !Contains(pre, Fence) && (pre == [] || pre[|pre| - 1] != '`')
    requires !StartsWith(Strip(pre), "python")
    requires !Contains(code, Fence) && (code == [] || code[|code| - 1] != '`')
    requires !Contains(code, "python")
    requires reply == pre + Fence + ("python" + code + Fence + post)
    ensures ExtractCode(reply) == Strip(code)
  {
    FencedBlocks(pre, code, post, reply);
    PythonSecond(SplitOn(reply, Fence), pre, code);
    FencedMarker(pre, code, post, reply);
    ExtractSecond(reply, code);
  }
}

=== FILE: handler.dfy ===
/**
  The client-side filters of `AICommandHandler`, in its current form and in
  the archived one: which detected texts are taken as new commands, the
  command history and its 1-based indices, Hungarian delay phrases, simple
  and error responses, the guards of the shell fallback, the decision to
  send a reply back, and the normalisation behind the response-cache key.
 */
module Handler {
  import opened Wrappers
  import opened Text
  import Server
  import Router
  import Library

  /** The two versions of the class differ in the `FORCE:` bypass. */
  datatype Version = Current | Archived

  /** The five command prefixes. */
  datatype Kind = Cmd | Code | Info | File | Replay

  function PrefixText(k: Kind): String {
    match k
      case Cmd => "CMD:"
      case Code => "CODE:"
      case Info => "INFO:"
      case File => "FILE:"
      case Replay => "REPLAY:"
  }

  /** `command_cooldown`, in seconds. */
  const Cooldown: real := 3.0

  /** `max_recent_commands` */
  const MaxRecent: nat := 5

  // ----------------------------------------------------------- new commands

  /**
    The filter's state: when a command was last accepted, and the recently
    accepted commands (a Python set, held here without repeats).
   */
  datatype Filter = Filter(lastTimestamp: real, recent: seq<String>)

  /** A freshly constructed handler. */
  const Fresh := Filter(0.0, [])

  /** No repeated elements. */
  predicate Distinct(s: seq<String>) {
    forall i, j | 0 <= i < j < |s| :: s[i] != s[j]
  }

  predicate FilterOk(f: Filter) {
    |f.recent| <= MaxRecent && Distinct(f.recent)
  }

  /** The first of `COMMAND_PREFIXES`, in order, that the command starts with. */
  function MatchedPrefix(command: String): (r: Option<Kind>)
    ensures r.Some? ==> StartsWith(command, PrefixText(r.value))
    ensures r.None? <==> forall k: Kind :: !StartsWith(command, PrefixText(k))
  {
    if StartsWith(command, "CMD:") then Some(Cmd)
    else if StartsWith(command, "CODE:") then Some(Code)
    else if StartsWith(command, "INFO:") then Some(Info)
    else if StartsWith(command, "FILE:") then Some(File)
    else if StartsWith(command, "REPLAY:") then Some(Replay)
    else None
  }

  /** `command.split(prefix, 1)[1].strip()` for a command that starts with the prefix. */
  function Content(command: String, k: Kind): String
    requires StartsWith(command, PrefixText(k))
  {
    Strip(command[|PrefixText(k)|..])
  }

  /** How multi-line code must end. */
  predicate ProperEnding(code: String) {
    || EndsWith(code, "```") || EndsWith(code, "```python") || EndsWith(code, "```py")
    || EndsWith(code, ";") || EndsWith(code, "}") || EndsWith(code, ")") || EndsWith(code, "]")
  }

  /** The per-prefix content minimums. */
  predicate ContentOk(k: Kind, content: String) {
    match k
      case Code => |content| >= 10 && ('\n' in content ==> |SplitOn(content, "\n")| >= 2 && ProperEnding(content))
      case Cmd => |content| >= 3
      case File => |content| >= 4
      case Info => content != []
      case Replay => true
  }

  /** The quiet period after the last accepted command: three times as long before code. */
  function QuietPeriod(k: Kind): real {
    if k == Code then 3.0 * Cooldown else Cooldown
  }

  /** `CMD:` with `FORCE:` among its first 15 characters skips the checks in the current version. */
  predicate Forced(v: Version, command: String) {
    v == Current && StartsWith(command, "CMD:") && Contains(Take(command, 15), "FORCE:")
  }

  /** Removing one position keeps the other elements and no repeats. */
  lemma RemoveAt(g: seq<String>, k: nat)
    requires k < |g|
    ensures forall x | x in g[..k] + g[k + 1..] :: x in g
    ensures Distinct(g) ==> Distinct(g[..k] + g[k + 1..])
  {
    var r := g[..k] + g[k + 1..];
    forall i | 0 <= i < |r| ensures r[i] == (if i < k then g[i] else g[i + 1]) {
    }
  }

  /**
    Adding to the recent set and popping one element when it grows past
    five; which element `set.pop` removes is the caller's `evict` (taken
    modulo the size), and it may be the one just added.
   */
  function Admit(recent: seq<String>, command: String, evict: nat): (r: seq<String>)
    requires command !in recent
    ensures |recent| < MaxRecent ==> r == recent + [command]
    ensures |recent| >= MaxRecent ==> |r| == |recent|
    ensures forall x | x in r :: x in recent || x == command
    ensures Distinct(recent) ==> Distinct(r)
  {
    var g := recent + [command];
    assert Distinct(recent) ==> Distinct(g);
    if |g| > MaxRecent then
      var k := evict % |g|;
      RemoveAt(g, k);
      g[..k] + g[k + 1..]
    else g
  }

  /** `_is_new_command`: whether the text is taken as a new command, and the filter after deciding. */
  function IsNewCommand(v: Version, f: Filter, command: String, now: real, evict: nat): (r: (bool, Filter))
    ensures !r.0 ==> r.1 == f
    ensures r.0 ==> r.1.lastTimestamp == now
    ensures r.0 && Forced(v, command) ==> r.1.recent == f.recent
    ensures r.0 && !Forced(v, command) ==> command !in f.recent && (command in r.1.recent || |f.recent| >= MaxRecent)
    ensures FilterOk(f) ==> FilterOk(r.1)
  {
    if command == [] then (false, f)
    else match MatchedPrefix(command)
      case None => (false, f)
      case Some(k) =>
        if |Strip(command)| <= |PrefixText(k)| then (false, f)
        else if Forced(v, command) then (true, f.(lastTimestamp := now))
        else if !ContentOk(k, Content(command, k)) then (false, f)
        else if k == Code && now - f.lastTimestamp <= 3.0 * Cooldown then (false, f)
        else if now - f.lastTimestamp <= Cooldown then (false, f)
        else if command in f.recent then (false, f)
        else (true, Filter(now, Admit(f.recent, command, evict)))
  }

  /**
    An accepted command has one of the prefixes and more than the prefix;
    unless forced, its content meets the prefix's minimum and the quiet
    period has passed.
   */
  lemma AcceptedCommand(v: Version, f: Filter, command: String, now: real, evict: nat)
    requires IsNewCommand(v, f, command, now, evict).0
    ensures MatchedPrefix(command).Some?
    ensures |Strip(command)| > |PrefixText(MatchedPrefix(command).value)|
    ensures !Forced(v, command) ==>
      var k := MatchedPrefix(command).value;
      ContentOk(k, Content(command, k)) && now - f.lastTimestamp > QuietPeriod(k)
  {
  }

  /** A command already among the recent ones gets through only by the `FORCE:` bypass. */
  lemma RepeatNeedsForce(v: Version, f: Filter, command: String, now: real, evict: nat)
    requires command in f.recent
    ensures IsNewCommand(v, f, command, now, evict).0 <==> Forced(v, command) && |Strip(command)| > |"CMD:"|
  {
    if Forced(v, command) {
      assert MatchedPrefix(command) == Some(Cmd);
    }
  }

  /** The archived filter has no bypass: a recent command is always turned away. */
  lemma ArchivedRejectsRepeat(f: Filter, command: String, now: real, evict: nat)
    requires command in f.recent
    ensures !IsNewCommand(Archived, f, command, now, evict).0
  {
    RepeatNeedsForce(Archived, f, command, now, evict);
  }

  /**
    An accepted command that is not forced is turned away when it comes
    again, however much later, as long as it is still among the recent ones
    (it always is when fewer than five were held before).
   */
  lemma AcceptedThenRepeated(v: Version, f: Filter, command: String, now: real, evict: nat, later: real, evict2: nat)
    requires IsNewCommand(v, f, command, now, evict).0 && !Forced(v, command)
    requires |f.recent| < MaxRecent
    ensures !IsNewCommand(v, IsNewCommand(v, f, command, now, evict).1, command, later, evict2).0
  {
    var g := IsNewCommand(v, f, command, now, evict).1;
    assert command in g.recent;
    RepeatNeedsForce(v, g, command, later, evict2);
  }

  /** Within the cooldown nothing but a forced command is accepted. */
  lemma CooldownHolds(v: Version, f: Filter, command: String, now: real, evict: nat)
    requires now - f.lastTimestamp <= Cooldown && !Forced(v, command)
    ensures !IsNewCommand(v, f, command, now, evict).0
  {
  }

  // ---------------------------------------------------------------- history

  /**
    `_add_to_history` (both versions): the server's rule, except that empty
    text is ignored as well.
   */
  function AddToHistory(h: seq<String>, c: String): (r: seq<String>)
    ensures c == [] || StartsWith(c, "REPLAY:") || c in h ==> r == h
    ensures c != [] && !StartsWith(c, "REPLAY:") ==> c in r && (c !in h ==> r[0] == c)
    ensures Server.HistoryOk(h) ==> Server.HistoryOk(r)
  {
    if c == [] then h else Server.AddToHistory(h, c)
  }

  /** The first position of a present element. */
  function IndexOf(h: seq<String>, c: String): (r: nat)
    requires c in h
    ensures r < |h| && h[r] == c
    ensures forall j | 0 <= j < r :: h[j] != c
  {
    if h[0] == c then 0 else 1 + IndexOf(h[1..], c)
  }

  /** `_get_command_index`: the 1-based position of the command, or -1. */
  function CommandIndex(h: seq<String>, c: String): (r: int)
    ensures r == -1 <==> c !in h
    ensures r != -1 ==> 1 <= r <= |h|
  {
    if c in h then IndexOf(h, c) + 1 else -1
  }

  /** `get_previous_command`: the command at a 1-based position, if there is one. */
  function PreviousCommand(h: seq<String>, index: int): (r: Option<String>)
    ensures r.Some? <==> 1 <= index <= |h|
    ensures r.Some? ==> r.value in h
  {
    if 0 <= index - 1 < |h| then Some(h[index - 1]) else None
  }

  /** The index of a present command leads back to it. */
  lemma IndexThenPrevious(h: seq<String>, c: String)
    requires c in h
    ensures PreviousCommand(h, CommandIndex(h, c)) == Some(c)
  {
  }

  /** Without repeats, the command at a position has that position as its index. */
  lemma PreviousThenIndex(h: seq<String>, index: int)
    requires forall i, j | 0 <= i < j < |h| :: h[i] != h[j]
    requires 1 <= index <= |h|
    ensures CommandIndex(h, PreviousCommand(h, index).value) == index
  {
  }

  // ------------------------------------------------------------ delay phrases

  /** The end of the run of ASCII digits that starts at `i`. */
  function DigitsEnd(s: String, i: nat): (j: nat)
    requires i <= |s|
    ensures i <= j <= |s|
    ensures forall k | i <= k < j :: IsDigit(s[k])
    ensures j == |s| || !IsDigit(s[j])
    decreases |s| - i
  {
    if i < |s| && IsDigit(s[i]) then DigitsEnd(s, i + 1) else i
  }

  /** The end of the run of whitespace that starts at `i`. */
  function SpacesEnd(s: String, i: nat): (j: nat)
    requires i <= |s|
    ensures i <= j <= |s|
    ensures forall k | i <= k < j :: IsSpace(s[k])
    ensures j == |s| || !IsSpace(s[j])
    decreases |s| - i
  {
    if i < |s| && IsSpace(s[i]) then SpacesEnd(s, i + 1) else i
  }

  /**
    The pattern `(\d+)\s*` followed by `unit` matches at `i`. Backtracking
    cannot find another match: giving up a digit or a space leaves a digit or
    a space where the unit's first letter must be.
   */
  predicate PhraseAt(s: String, unit: String, i: nat) {
    i < |s| && IsDigit(s[i]) && StartsWith(s[SpacesEnd(s, DigitsEnd(s, i))..], unit)
  }

  /** `re.search`: the leftmost position from `i` on where the pattern matches. */
  function FirstPhrase(s: String, unit: String, i: nat): (r: Option<nat>)
    requires i <= |s|
    ensures r.Some? ==> i <= r.value < |s| && PhraseAt(s, unit, r.value)
    ensures forall k | i <= k < |s| && (r.None? || k < r.value) :: !PhraseAt(s, unit, k)
    decreases |s| - i
  {
    if i == |s| then None
    else if PhraseAt(s, unit, i) then Some(i)
    else FirstPhrase(s, unit, i + 1)
  }

  /** The number in the first match of the pattern for `unit`, or 0 without a match. */
  function Amount(s: String, unit: String): (n: nat)
    ensures FirstPhrase(s, unit, 0).None? ==> n == 0
  {
    match FirstPhrase(s, unit, 0)
      case None => 0
      case Some(k) =>
        var digits := s[k..DigitsEnd(s, k)];
        assert AllDigits(digits) by {
          forall i | 0 <= i < |digits| ensures IsDigit(digits[i]) {
            assert digits[i] == s[k + i];
          }
        }
        DigitsValue(digits)
  }

  /** `extract_schedule_delay`: hours, minutes and seconds, in seconds. */
  function ScheduleDelay(message: String): (d: nat)
    ensures d == 0 <==> Amount(message, "óra") == 0 && Amount(message, "perc") == 0 && Amount(message, "másodperc") == 0
    ensures d >= 3600 * Amount(message, "óra") && d >= 60 * Amount(message, "perc")
  {
    3600 * Amount(message, "óra") + 60 * Amount(message, "perc") + Amount(message, "másodperc")
  }

  /** A unit word begins with a letter that is neither a digit nor whitespace and holds no digit. */
  predicate UnitWord(u: String) {
    u != [] && !IsSpace(u[0]) && forall i | 0 <= i < |u| :: !IsDigit(u[i])
  }

  /** Where a digit run of `d + " " + u + tail` ends, and where the spaces after it end. */
  lemma {:induction false} PhraseRuns(d: String, u: String, tail: String, k: nat)
    requires |d| >= 1 && AllDigits(d) && UnitWord(u) && k < |d|
    ensures DigitsEnd(d + " " + u + tail, k) == |d|
    ensures SpacesEnd(d + " " + u + tail, |d|) == |d| + 1
    ensures (d + " " + u + tail)[|d| + 1..] == u + tail
  {
    var s := d + " " + u + tail;
    assert s[|d|] == ' ';
    assert s[|d| + 1] == u[0];
    assert s[|d| + 1..] == u + tail;
  }

  /** The first phrase counts, whatever follows it. */
  lemma FirstPhraseCounts(d: String, u: String, tail: String)
    requires |d| >= 1 && AllDigits(d) && UnitWord(u)
    ensures Amount(d + " " + u + tail, u) == DigitsValue(d)
  {
    var s := d + " " + u + tail;
    PhraseRuns(d, u, tail, 0);
    PrefixOfConcat(u, tail);
    assert PhraseAt(s, u, 0);
    assert s[0..|d|] == d;
  }

  /** A phrase in one unit counts nothing for a unit its word does not start with. */
  lemma OtherUnitZero(d: String, u: String, w: String)
    requires |d| >= 1 && AllDigits(d) && UnitWord(u) && !StartsWith(u, w)
    ensures Amount(d + " " + u, w) == 0
  {
    var s := d + " " + u;
    assert s == d + " " + u + [];
    forall k | 0 <= k < |s| ensures !PhraseAt(s, w, k) {
      if k < |d| {
        PhraseRuns(d, u, [], k);
        assert s[|d| + 1..] == u;
      } else if k > |d| {
        assert s[k] == u[k - |d| - 1];
      }
    }
  }

  /** The three unit words, and none of them starts another. */
  lemma Units()
    ensures UnitWord("óra") && UnitWord("perc") && UnitWord("másodperc")
    ensures !StartsWith("óra", "perc") && !StartsWith("óra", "másodperc")
    ensures !StartsWith("perc", "óra") && !StartsWith("perc", "másodperc")
    ensures !StartsWith("másodperc", "óra") && !StartsWith("másodperc", "perc")
  {
    CharBlocks("óra", "perc", 0);
    CharBlocks("óra", "másodperc", 0);
    CharBlocks("perc", "óra", 0);
    CharBlocks("perc", "másodperc", 0);
    CharBlocks("másodperc", "óra", 0);
    CharBlocks("másodperc", "perc", 0);
  }

  /** A single phrase `d + " " + u` in one of the three units. */
  lemma SinglePhrase(d: String, u: String)
    requires |d| >= 1 && AllDigits(d)
    requires u == "óra" || u == "perc" || u == "másodperc"
    ensures Amount(d + " " + u, "óra") == if u == "óra" then DigitsValue(d) else 0
    ensures Amount(d + " " + u, "perc") == if u == "perc" then DigitsValue(d) else 0
    ensures Amount(d + " " + u, "másodperc") == if u == "másodperc" then DigitsValue(d) else 0
  {
    Units();
    assert d + " " + u + [] == d + " " + u;
    FirstPhraseCounts(d, u, []);
    if u != "óra" {
      OtherUnitZero(d, u, "óra");
    }
    if u != "perc" {
      OtherUnitZero(d, u, "perc");
    }
    if u != "másodperc" {
      OtherUnitZero(d, u, "másodperc");
    }
  }

  /**
    `"<n> óra"` is `n` hours, `"<n> perc"` `n` minutes and `"<n> másodperc"`
    `n` seconds: the minutes pattern does not match inside `másodperc`.
   */
  lemma SingleUnitDelay(n: nat)
    ensures ScheduleDelay(NatToString(n) + " " + "óra") == 3600 * n
    ensures ScheduleDelay(NatToString(n) + " " + "perc") == 60 * n
    ensures ScheduleDelay(NatToString(n) + " " + "másodperc") == n
  {
    DigitsValueOfNat(n);
    SinglePhrase(NatToString(n), "óra");
    SinglePhrase(NatToString(n), "perc");
    SinglePhrase(NatToString(n), "másodperc");
  }

  /** Digit runs are found at the same place after a prefix. */
  lemma {:induction false} DigitsShift(a: String, t: String, k: nat)
    requires k <= |t|
    ensures DigitsEnd(a + t, |a| + k) == |a| + DigitsEnd(t, k)
    decreases |t| - k
  {
    if k < |t| && IsDigit(t[k]) {
      assert (a + t)[|a| + k] == t[k];
      DigitsShift(a, t, k + 1);
    } else if k < |t| {
      assert (a + t)[|a| + k] == t[k];
    }
  }

  /** Whitespace runs are found at the same place after a prefix. */
  lemma {:induction false} SpacesShift(a: String, t: String, k: nat)
    requires k <= |t|
    ensures SpacesEnd(a + t, |a| + k) == |a| + SpacesEnd(t, k)
    decreases |t| - k
  {
    if k < |t| && IsSpace(t[k]) {
      assert (a + t)[|a| + k] == t[k];
      SpacesShift(a, t, k + 1);
    } else if k < |t| {
      assert (a + t)[|a| + k] == t[k];
    }
  }

  /** Whether the pattern matches at a position of `t` does not depend on what precedes `t`. */
  lemma PhraseShift(a: String, t: String, u: String, k: nat)
    requires k <= |t|
    ensures PhraseAt(a + t, u, |a| + k) <==> PhraseAt(t, u, k)
  {
    if k < |t| {
      assert (a + t)[|a| + k] == t[k];
      DigitsShift(a, t, k);
      SpacesShift(a, t, DigitsEnd(t, k));
      var e := SpacesEnd(t, DigitsEnd(t, k));
      assert (a + t)[|a| + e..] == t[e..];
    }
  }

  /** Positions of `t` where the pattern does not match keep not matching after a prefix. */
  lemma NoPhraseShifted(pre: String, t: String, w: String, n: nat)
    requires n <= |t|
    requires forall k | 0 <= k < n :: !PhraseAt(t, w, k)
    ensures forall k | |pre| <= k < |pre| + n :: !PhraseAt(pre + t, w, k)
  {
    forall k | |pre| <= k < |pre| + n ensures !PhraseAt(pre + t, w, k) {
      PhraseShift(pre, t, w, k - |pre|);
    }
  }

  /**
    In `d + " " + u + " " + rest` no match for `w` starts before `rest` when
    `u` does not begin with `w`'s first letter.
   */
  lemma PrefixNoPhrase(d: String, u: String, rest: String, w: String)
    requires |d| >= 1 && AllDigits(d) && UnitWord(u) && w != [] && u[0] != w[0]
    ensures forall k | 0 <= k < |d| + |u| + 2 :: !PhraseAt(d + " " + u + " " + rest, w, k)
  {
    var s := d + " " + u + " " + rest;
    forall k | 0 <= k < |d| + |u| + 2 ensures !PhraseAt(s, w, k) {
      if k < |d| {
        assert s == d + " " + u + (" " + rest);
        PhraseRuns(d, u, " " + rest, k);
        CharBlocks(u + (" " + rest), w, 0);
      } else if k == |d| || k == |d| + |u| + 1 {
        assert s[k] == ' ';
      } else {
        assert s[k] == u[k - |d| - 1];
      }
    }
  }

  /** The leftmost match is at `i` when it matches there and nowhere before. */
  lemma FirstAt(s: String, u: String, i: nat)
    requires i < |s| && PhraseAt(s, u, i)
    requires forall k | 0 <= k < i :: !PhraseAt(s, u, k)
    ensures FirstPhrase(s, u, 0) == Some(i)
  {
  }

  /** The amount read from a leftmost match at `i` whose digits are `d`. */
  lemma AmountAt(s: String, u: String, i: nat, d: String)
    requires FirstPhrase(s, u, 0) == Some(i) && AllDigits(d)
    requires DigitsEnd(s, i) == i + |d| && s[i..i + |d|] == d
    ensures Amount(s, u) == DigitsValue(d)
  {
  }

  /** `d + " " + u + tail` opens with a match whose digits are `d`. */
  lemma PhraseAtStart(d: String, u: String, tail: String)
    requires |d| >= 1 && AllDigits(d) && UnitWord(u)
    ensures PhraseAt(d + " " + u + tail, u, 0)
    ensures DigitsEnd(d + " " + u + tail, 0) == |d| && (d + " " + u + tail)[..|d|] == d
  {
    PhraseRuns(d, u, tail, 0);
    PrefixOfConcat(u, tail);
  }

  /** The `n` characters after a prefix are the first `n` of what follows it. */
  lemma SliceAfter(pre: String, t: String, n: nat)
    requires n <= |t|
    ensures (pre + t)[|pre|..|pre| + n] == t[..n]
  {
  }

  /** A match at the start of `t`, after a prefix in which the pattern does not match, is the leftmost. */
  lemma MatchAfter(pre: String, t: String, u: String, d: String)
    requires PhraseAt(t, u, 0) && AllDigits(d) && DigitsEnd(t, 0) == |d| && t[..|d|] == d
    requires forall k | 0 <= k < |pre| :: !PhraseAt(pre + t, u, k)
    ensures Amount(pre + t, u) == DigitsValue(d)
  {
    PhraseShift(pre, t, u, 0);
    FirstAt(pre + t, u, |pre|);
    DigitsShift(pre, t, 0);
    SliceAfter(pre, t, |d|);
    AmountAt(pre + t, u, |pre|, d);
  }

  /** A phrase for `u` after a prefix in which the pattern for `u` does not match counts. */
  lemma AmountAfter(pre: String, d: String, u: String, tail: String)
    requires |d| >= 1 && AllDigits(d) && UnitWord(u)
    requires forall k | 0 <= k < |pre| :: !PhraseAt(pre + (d + " " + u + tail), u, k)
    ensures Amount(pre + (d + " " + u + tail), u) == DigitsValue(d)
  {
    PhraseAtStart(d, u, tail);
    MatchAfter(pre, d + " " + u + tail, u, d);
  }

  /** Three phrases whose digit strings are `a`, `b`, `c` and whose unit words begin with three different letters. */
  predicate ThreePhrases(a: String, b: String, c: String, u: String, v: String, w: String) {
    && |a| >= 1 && AllDigits(a) && |b| >= 1 && AllDigits(b) && |c| >= 1 && AllDigits(c)
    && UnitWord(u) && UnitWord(v) && UnitWord(w)
    && u[0] != v[0] && u[0] != w[0] && v[0] != w[0]
  }

  /** The middle phrase of `a u b v c w` counts for `v`. */
  lemma SecondAmount(a: String, b: String, c: String, u: String, v: String, w: String)
    requires ThreePhrases(a, b, c, u, v, w)
    ensures Amount(a + " " + u + " " + b + " " + v + " " + c + " " + w, v) == DigitsValue(b)
  {
    var t1 := b + " " + v + (" " + c + " " + w);
    var pre1 := a + " " + u + " ";
    assert a + " " + u + " " + b + " " + v + " " + c + " " + w == pre1 + t1 == a + " " + u + " " + t1;
    PrefixNoPhrase(a, u, t1, v);
    AmountAfter(pre1, b, v, " " + c + " " + w);
  }

  /** The last phrase of `a u b v c w` counts for `w`. */
  lemma ThirdAmount(a: String, b: String, c: String, u: String, v: String, w: String)
    requires ThreePhrases(a, b, c, u, v, w)
    ensures Amount(a + " " + u + " " + b + " " + v + " " + c + " " + w, w) == DigitsValue(c)
  {
    var t2 := c + " " + w + [];
    var t1 := b + " " + v + " " + t2;
    var pre1 := a + " " + u + " ";
    var pre2 := pre1 + (b + " " + v + " ");
    assert t1 == b + " " + v + " " + (c + " " + w);
    PrefixNoPhrase(a, u, t1, w);
    PrefixNoPhrase(b, v, t2, w);
    NoPhraseShifted(pre1, t1, w, |b| + |v| + 2);
    assert a + " " + u + " " + b + " " + v + " " + c + " " + w == pre1 + t1 == pre2 + t2;
    AmountAfter(pre2, c, w, []);
  }

  /** In three phrases `a u b v c w` each pattern finds its own phrase. */
  lemma ThreeAmounts(a: String, b: String, c: String, u: String, v: String, w: String)
    requires ThreePhrases(a, b, c, u, v, w)
    ensures var msg := a + " " + u + " " + b + " " + v + " " + c + " " + w;
      Amount(msg, u) == DigitsValue(a) && Amount(msg, v) == DigitsValue(b) && Amount(msg, w) == DigitsValue(c)
  {
    var rest := " " + b + " " + v + " " + c + " " + w;
    assert a + " " + u + " " + b + " " + v + " " + c + " " + w == a + " " + u + rest;
    FirstPhraseCounts(a, u, rest);
    SecondAmount(a, b, c, u, v, w);
    ThirdAmount(a, b, c, u, v, w);
  }

  /** `"<h> óra <m> perc <s> másodperc"` is `3600·h + 60·m + s` seconds. */
  lemma ScheduleAllUnits(h: nat, m: nat, sec: nat)
    ensures ScheduleDelay(NatToString(h) + " " + "óra" + " " + NatToString(m) + " " + "perc" + " " + NatToString(sec) + " " + "másodperc")
         == 3600 * h + 60 * m + sec
  {
    Units();
    DigitsValueOfNat(h);
    DigitsValueOfNat(m);
    DigitsValueOfNat(sec);
    ThreeAmounts(NatToString(h), NatToString(m), NatToString(sec), "óra", "perc", "másodperc");
  }

  /** Text without an ASCII digit asks for no delay. */
  lemma NoDigitNoDelay(message: String)
    requires forall i | 0 <= i < |message| :: !IsDigit(message[i])
    ensures ScheduleDelay(message) == 0
  {
  }

  // ------------------------------------------------------------ error replies

  /**
    `_is_error_response`: one of the seven indicators, lower-cased, occurs in
    the lower-cased response.
   */
  predicate IsErrorResponse(response: String) {
    var l := Lower(response);
    || Contains(l, "error") || Contains(l, "not recognized") || Contains(l, "failed")
    || Contains(l, "permission denied") || Contains(l, "cannot find") || Contains(l, "invalid")
    || Contains(l, "websocket error")
  }

  /** The test ignores case: lower-casing the response first changes nothing. */
  lemma ErrorIgnoresCase(response: String)
    ensures IsErrorResponse(Lower(response)) <==> IsErrorResponse(response)
  {
    LowerIdempotent(response);
  }

  /** A response that opens with `Error` is an error response, whatever follows. */
  lemma ErrorLead(s: String)
    requires StartsWith(s, "Error")
    ensures IsErrorResponse(s)
  {
    var rest := s[5..];
    assert s == "Error" + rest;
    LowerAppend("Error", rest);
    assert Lower("Error") == "error";
    assert ("error" + Lower(rest))[0..5] == "error";
    ContainsIntro(Lower(s), "error", 0);
  }

  /**
    The server's failure replies for commands, code and files are taken as
    errors by the handler, so a failed command is never recorded as a success.
   */
  lemma ServerFailuresAreErrors(e: String, err: String, out: String)
    ensures IsErrorResponse("Error executing command: " + e)
    ensures IsErrorResponse("Error executing code: " + e)
    ensures IsErrorResponse("Error in FILE operation: " + e)
    ensures IsErrorResponse("Error:\n" + err + "\n\nOutput:\n" + out)
  {
    ErrorLead("Error executing command: " + e);
    ErrorLead("Error executing code: " + e);
    ErrorLead("Error in FILE operation: " + e);
    ErrorLead("Error:\n" + err + "\n\nOutput:\n" + out);
  }

  // ---------------------------------------------------------- simple commands

  /** One of the thirteen words `_is_simple_command` lists opens the text. */
  predicate OpensWithSimpleWord(c: String) {
    || StartsWith(c, "echo") || StartsWith(c, "dir") || StartsWith(c, "ls") || StartsWith(c, "cd")
    || StartsWith(c, "pwd") || StartsWith(c, "clear") || StartsWith(c, "time") || StartsWith(c, "date")
    || StartsWith(c, "whoami") || StartsWith(c, "hostname") || StartsWith(c, "ping")
    || StartsWith(c, "type") || StartsWith(c, "cat")
  }

  /** `_is_simple_command` (archived version). */
  predicate IsSimpleCommand(command: String) {
    StartsWith(command, "CMD:") && OpensWithSimpleWord(Lower(Strip(Drop(command, 4))))
  }

  /** `_handle_simple_command` (archived version): echo answers itself, the rest are acknowledged. */
  function HandleSimpleCommand(command: String): (r: String)
    ensures var content := Strip(Drop(command, 4));
      && (StartsWith(Lower(content), "echo") ==> r == Strip(Drop(content, 5)))
      && (!StartsWith(Lower(content), "echo") ==>
            StartsWith(r, "Simple command executed: ") && r[|"Simple command executed: "|..] == content)
  {
    var content := Strip(Drop(command, 4));
    if StartsWith(Lower(content), "echo") then Strip(Drop(content, 5))
    else
      PrefixOfConcat("Simple command executed: ", content);
      "Simple command executed: " + content
  }

  lemma EchoLower()
    ensures Lower("echo ") == "echo " && StartsWith("echo ", "echo")
  {
    LowerPlain("echo ");
  }

  /** `CMD:echo t` is a simple command that answers `t`, for text without surrounding whitespace. */
  lemma EchoAnswers(t: String)
    requires t != [] && !IsSpace(t[0]) && !IsSpace(t[|t| - 1])
    ensures IsSimpleCommand("CMD:echo " + t)
    ensures HandleSimpleCommand("CMD:echo " + t) == t
  {
    var c := "CMD:echo " + t;
    var content := "echo " + t;
    assert c == "CMD:" + content;
    PrefixOfConcat("CMD:", content);
    assert Drop(c, 4) == content;
    StripNoEdgeSpace(content);
    LowerAppend("echo ", t);
    EchoLower();
    PrefixOfConcat("echo ", Lower(t));
    PrefixOfPrefix(Lower(content), "echo ", "echo");
    assert Drop(content, 5) == t;
    StripNoEdgeSpace(t);
  }

  // ------------------------------------------------------------ shell fallback

  /** The longest command the fallback hands to the shell. */
  const MaxShellCommand: nat := 200

  const TooLong: String := "Hiba: Túl hosszú rendszerparancs."
  const Blocked: String := "Hiba: Potenciálisan veszélyes parancs blokkolva."

  /** One of the harmful patterns occurs in the lower-cased command. */
  predicate Harmful(lowered: String) {
    || Contains(lowered, "rm ") || Contains(lowered, "del ") || Contains(lowered, ":(){:|:&};:")
    || Contains(lowered, "format ") || Contains(lowered, "shutdown")
  }

  /**
    The end of `_run_system_command`, for a command no internal handler or
    library entry took: the length and pattern guards, then the shell with a
    15-second limit.
   */
  function RunFallback(cmd: String, run: (String, nat) -> Server.Outcome): (r: String)
    ensures r != []
    ensures |cmd| > MaxShellCommand ==> r == TooLong
    ensures |cmd| <= MaxShellCommand && run(cmd, 15).Exited? && !Harmful(Lower(cmd)) ==>
      |r| <= Library.MaxOutput + |Library.CutMark|
  {
    if |cmd| > MaxShellCommand then TooLong
    else if Harmful(Lower(cmd)) then Blocked
    else match run(cmd, 15)
      case Exited(_, stdout, stderr) => Library.KeptOutput(stdout, stderr)
      case TimedOut => "Hiba: Rendszerparancs időtúllépés."
      case Raised(e) => "Rendszerparancs hiba: " + e
  }

  /** An overlong command never reaches the shell, whatever it would have done. */
  lemma LongNeverRuns(cmd: String, run: (String, nat) -> Server.Outcome)
    requires |cmd| > MaxShellCommand
    ensures RunFallback(cmd, run) == TooLong
  {
  }

  /** Neither does a command with a harmful pattern. */
  lemma HarmfulNeverRuns(cmd: String, run: (String, nat) -> Server.Outcome)
    requires |cmd| <= MaxShellCommand && Harmful(Lower(cmd))
    ensures RunFallback(cmd, run) == Blocked
  {
  }

  /** The patterns are matched in any case: a command holding any casing of one is blocked. */
  lemma BlockedInAnyCase(cmd: String, x: String, run: (String, nat) -> Server.Outcome)
    requires |cmd| <= MaxShellCommand && Contains(cmd, x)
    requires Lower(x) in ["rm ", "del ", ":(){:|:&};:", "format ", "shutdown"]
    ensures RunFallback(cmd, run) == Blocked
  {
    LowerContains(cmd, x);
  }

  /** Long output is cut to its first 1000 characters plus the mark. */
  lemma LongOutputCut(cmd: String, run: (String, nat) -> Server.Outcome)
    requires |cmd| <= MaxShellCommand && !Harmful(Lower(cmd))
    requires run(cmd, 15).Exited? && |Strip(run(cmd, 15).stdout)| > Library.MaxOutput
    ensures RunFallback(cmd, run) == Strip(run(cmd, 15).stdout)[..Library.MaxOutput] + Library.CutMark
  {
  }

  // ---------------------------------------------------------- sending back

  /** The keys of the `system_commands` registry. */
  const SystemCommands: set<String> :=
    {"echo", "time", "date", "whoami", "hostname", "dir", "ls", "help", "info", "stats", "history", "cat", "type"}

  /** `_is_system_command`: the first word, lower-cased, names a registered command. */
  predicate IsSystemCommand(cmd: String) {
    var l := Lower(Strip(cmd));
    !IsBlank(l) && SplitFirstWord(l).0 in SystemCommands
  }

  /** The original command with a leading `CMD:` and then a leading `FORCE:` removed, as `handle_response` cleans it. */
  function Cleaned(original: String): String {
    Router.DropForce(if StartsWith(original, "CMD:") then Strip(original[4..]) else original)
  }

  /**
    `handle_response`: whether the response is sent back. The empty original
    stands for `None`; both are false in Python.
   */
  predicate ShouldSend(response: String, original: String) {
    var category := Router.Route(Router.Text(response));
    if category == Router.JSON && original != [] && Contains(original, "FORCE:echo") then true
    else if StartsWith(original, "CMD:") && IsSystemCommand(Cleaned(original)) && response != Cleaned(original) then true
    else if category == Router.ECHO then !(original != [] && Strip(response) == Strip(Cleaned(original)))
    else true
  }

  /** A response is held back only when it is routed ECHO and repeats the cleaned command. */
  lemma OnlyEchoesHeldBack(response: String, original: String)
    requires !ShouldSend(response, original)
    ensures Router.Route(Router.Text(response)) == Router.ECHO
    ensures original != [] && Strip(response) == Strip(Cleaned(original))
  {
  }

  /**
    So the answer to a command whose cleaned text does not itself open with
    one of the echo prefixes is always sent back, whatever it is.
   */
  lemma PlainCommandAnswered(response: String, original: String)
    requires !Router.IsEchoText(Strip(Cleaned(original)))
    ensures ShouldSend(response, original)
  {
    if !ShouldSend(response, original) {
      OnlyEchoesHeldBack(response, original);
      Router.RouteEchoIff(response);
    }
  }

  /** A response that merely repeats an `INFO:` or `REPLAY:` command is held back. */
  lemma RepeatedInfoHeldBack(original: String)
    requires StartsWith(original, "INFO:") || StartsWith(original, "REPLAY:")
    requires !IsSpace(original[|original| - 1])
    ensures !ShouldSend(original, original)
  {
    var c := original[0];
    PrefixChar(original, if c == 'I' then "INFO:" else "REPLAY:", 0);
    assert c == 'I' || c == 'R';
    CharBlocks(original, "CMD:", 0);
    CharBlocks(original, "ECHO:", 0);
    CharBlocks(original, "FORCE:", 0);
    StripNoEdgeSpace(original);
    assert Cleaned(original) == original;
    Router.RouteEchoIff(original);
  }

  // ------------------------------------------------------------ cache keys

  /** `re.sub(r'\s+', ' ', s)`: every run of whitespace becomes one space. */
  function Collapse(s: String): (r: String)
    ensures r == [] <==> s == []
    ensures r != [] ==> (IsSpace(r[0]) <==> IsSpace(s[0]))
    ensures r != [] ==> (IsSpace(r[|r| - 1]) <==> IsSpace(s[|s| - 1]))
    ensures forall i | 0 <= i < |r| :: r[i] == ' ' || r[i] in s
    decreases |s|
  {
    if s == [] then []
    else if IsSpace(s[0]) then
      var rest := s[SpacesEnd(s, 0)..];
      var r := " " + Collapse(rest);
      assert forall i | 1 <= i < |r| :: r[i] == ' ' || r[i] in rest;
      r
    else
      var r := [s[0]] + Collapse(s[1..]);
      assert forall i | 1 <= i < |r| :: r[i] == ' ' || r[i] in s[1..];
      r
  }

  /** Whitespace only as single spaces between other characters. */
  predicate Collapsed(s: String) {
    forall i | 0 <= i < |s| && IsSpace(s[i]) :: s[i] == ' ' && (i + 1 == |s| || !IsSpace(s[i + 1]))
  }

  lemma {:induction false} CollapseIsCollapsed(s: String)
    ensures Collapsed(Collapse(s))
    decreases |s|
  {
    if s != [] {
      var r := Collapse(s);
      if IsSpace(s[0]) {
        var rest := s[SpacesEnd(s, 0)..];
        CollapseIsCollapsed(rest);
        assert r == " " + Collapse(rest);
        forall i | 0 <= i < |r| && IsSpace(r[i]) ensures r[i] == ' ' && (i + 1 == |r| || !IsSpace(r[i + 1])) {
          if i > 0 {
            assert r[i] == Collapse(rest)[i - 1];
          } else if |r| > 1 {
            assert r[1] == Collapse(rest)[0];
          }
        }
      } else {
        CollapseIsCollapsed(s[1..]);
        assert r == [s[0]] + Collapse(s[1..]);
        forall i | 0 <= i < |r| && IsSpace(r[i]) ensures r[i] == ' ' && (i + 1 == |r| || !IsSpace(r[i + 1])) {
          assert i > 0;
          assert r[i] == Collapse(s[1..])[i - 1];
        }
      }
    }
  }

  /** The tail of collapsed text is collapsed. */
  lemma CollapsedTail(s: String)
    requires s != [] && Collapsed(s)
    ensures Collapsed(s[1..])
  {
    var t := s[1..];
    forall i | 0 <= i < |t| && IsSpace(t[i]) ensures t[i] == ' ' && (i + 1 == |t| || !IsSpace(t[i + 1])) {
      assert t[i] == s[i + 1];
      if i + 1 < |t| {
        assert t[i + 1] == s[i + 2];
      }
    }
  }

  /** Collapsed text is left as it is. */
  lemma {:induction false} CollapsedKept(s: String)
    requires Collapsed(s)
    ensures Collapse(s) == s
    decreases |s|
  {
    if s != [] {
      CollapsedTail(s);
      CollapsedKept(s[1..]);
      assert s == [s[0]] + s[1..];
      if IsSpace(s[0]) {
        assert s[0] == ' ';
        assert |s| == 1 || !IsSpace(s[1]);
        assert SpacesEnd(s, 1) == 1;
        assert [s[0]] == " ";
        assert Collapse(s) == " " + s[1..];
      } else {
        assert Collapse(s) == [s[0]] + s[1..];
      }
    }
  }

  /** The text `_calculate_cache_key` hashes: stripped, lower-cased, whitespace collapsed. */
  function Normalize(s: String): String {
    Collapse(Lower(Strip(s)))
  }

  /** Collapsing keeps text that lower-casing leaves alone. */
  lemma CollapseKeepsFixed(l: String)
    requires LowerFixed(l)
    ensures LowerFixed(Collapse(l))
  {
    var n := Collapse(l);
    assert LowerFixedChar(' ');
    forall i | 0 <= i < |n| ensures LowerFixedChar(n[i]) {
      if n[i] != ' ' {
        assert n[i] in l;
      }
    }
  }

  /** Lower-casing stripped text leaves its ends non-space. */
  lemma LowerEdges(t: String)
    requires t == [] || (!IsSpace(t[0]) && !IsSpace(t[|t| - 1]))
    ensures Lower(t) == [] || (!IsSpace(Lower(t)[0]) && !IsSpace(Lower(t)[|Lower(t)| - 1]))
  {
    if t != [] {
      LowerKeepsSpace(t);
      LowerLastSpace(t);
    }
  }

  /** Whitespace has no case. */
  lemma SpaceLowerFixed(c: char)
    requires IsSpace(c)
    ensures LowerChar(c) == [c]
  {
  }

  /** `lstrip` and lower-casing can be done in either order. */
  lemma {:induction false} TrimStartLower(s: String)
    ensures TrimStart(Lower(s)) == Lower(TrimStart(s))
    decreases |s|
  {
    if s != [] && IsSpace(s[0]) {
      SpaceLowerFixed(s[0]);
      assert Lower(s) == [s[0]] + Lower(s[1..]);
      assert (([s[0]] + Lower(s[1..]))[1..]) == Lower(s[1..]);
      TrimStartLower(s[1..]);
    } else {
      LowerKeepsSpace(s);
      LowerKeepsSpace(Lower(s));
      TrimStartKeeps(Lower(s));
    }
  }

  /** `rstrip` and lower-casing can be done in either order. */
  lemma {:induction false} TrimEndLower(s: String)
    ensures TrimEnd(Lower(s)) == Lower(TrimEnd(s))
    decreases |s|
  {
    if s != [] && IsSpace(s[|s| - 1]) {
      var init, c := s[..|s| - 1], s[|s| - 1];
      assert s == init + [c];
      LowerAppend(init, [c]);
      SpaceLowerFixed(c);
      assert Lower([c]) == LowerChar(c) + Lower([]);
      var l := Lower(s);
      assert l[..|l| - 1] == Lower(init);
      TrimEndLower(init);
    } else if s != [] {
      LowerLastSpace(s);
    }
  }

  /** Stripping and lower-casing can be done in either order. */
  lemma StripLower(s: String)
    ensures Strip(Lower(s)) == Lower(Strip(s))
  {
    TrimStartLower(s);
    TrimEndLower(TrimStart(s));
  }

  /** What normalised text looks like. */
  lemma NormalShape(s: String)
    ensures Collapsed(Normalize(s)) && LowerFixed(Normalize(s))
    ensures Normalize(s) == [] || (!IsSpace(Normalize(s)[0]) && !IsSpace(Normalize(s)[|Normalize(s)| - 1]))
  {
    var t := Strip(s);
    var l := Lower(t);
    CollapseIsCollapsed(l);
    FixedLower(t);
    CollapseKeepsFixed(l);
    LowerEdges(t);
  }

  /**
    Normalising twice is normalising once, so a cached entry is found again
    under the key of its own normalised text.
   */
  lemma NormalizeIdempotent(s: String)
    ensures Normalize(Normalize(s)) == Normalize(s)
  {
    var n := Normalize(s);
    NormalShape(s);
    StripNoEdgeSpace(n);
    LowerOfFixed(n);
    CollapsedKept(n);
  }

  /** The cache key ignores case: a text and its lower-cased form normalise alike. */
  lemma NormalizeIgnoresCase(s: String)
    ensures Normalize(Lower(s)) == Normalize(s)
  {
    StripLower(s);
    LowerIdempotent(Strip(s));
  }

  /** Texts that differ only in case, accented Hungarian capitals included, share one cache key. */
  lemma CaseVariantsShareKey(s: String, t: String)
    requires Lower(s) == Lower(t)
    ensures Normalize(s) == Normalize(t)
  {
    NormalizeIgnoresCase(s);
    NormalizeIgnoresCase(t);
  }
}

=== FILE: json.dfy ===
/**
  Which strings Python's `json.loads` accepts (the C scanner of CPython's
  `json` module with its default `strict=True`). The router only asks whether
  a text decodes, never what it decodes to, so the recogniser returns the
  position just past a value rather than the value itself.

  Accepted: JSON as in RFC 8259 plus the constants `NaN`, `Infinity` and
  `-Infinity`; whitespace is space, tab, line feed and carriage return; a raw
  character below U+0020 inside a string is an error; numbers use ASCII
  digits only.
 */
module Json {
  import opened Wrappers
  import opened Text

  predicate IsWs(c: char) {
    c == ' ' || c == '\t' || c == '\n' || c == '\r'
  }

  /** The first position at or after `i` that is not JSON whitespace. */
  function SkipWs(s: String, i: nat): (j: nat)
    requires i <= |s|
    ensures i <= j <= |s|
    ensures j == |s| || !IsWs(s[j])
    decreases |s| - i
  {
    if i < |s| && IsWs(s[i]) then SkipWs(s, i + 1) else i
  }

  predicate IsHex(c: char) {
    IsDigit(c) || 'a' <= c <= 'f' || 'A' <= c <= 'F'
  }

  predicate IsSimpleEscape(c: char) {
    c == '"' || c == '\\' || c == '/' || c == 'b' || c == 'f' || c == 'n' || c == 'r' || c == 't'
  }

  /** The end of a string literal whose opening quote is just before `i`. */
  function StringTail(s: String, i: nat): (r: Option<nat>)
    requires i <= |s|
    ensures r.Some? ==> i < r.value <= |s|
    decreases |s| - i
  {
    if i == |s| then None
    else if s[i] == '"' then Some(i + 1)
    else if s[i] == '\\' then
      if i + 1 == |s| then None
      else if IsSimpleEscape(s[i + 1]) then StringTail(s, i + 2)
      else if s[i + 1] == 'u' && i + 6 <= |s| && IsHex(s[i + 2]) && IsHex(s[i + 3]) && IsHex(s[i + 4]) && IsHex(s[i + 5]) then
        StringTail(s, i + 6)
      else None
    else if s[i] < ' ' then None
    else StringTail(s, i + 1)
  }

  /** The end of the longest run of ASCII digits starting at `i`. */
  function DigitRun(s: String, i: nat): (j: nat)
    requires i <= |s|
    ensures i <= j <= |s|
    ensures j == |s| || !IsDigit(s[j])
    decreases |s| - i
  {
    if i < |s| && IsDigit(s[i]) then DigitRun(s, i + 1) else i
  }

  /**
    An exponent starting at the `e` or `E` at position `c`: an optional sign
    and at least one digit. Without digits the scanner backs off to `c`.
   */
  function Exponent(s: String, c: nat): (d: nat)
    requires c < |s|
    ensures c <= d <= |s|
  {
    var e := if c + 1 < |s| && (s[c + 1] == '+' || s[c + 1] == '-') then c + 2 else c + 1;
    if e < |s| && IsDigit(s[e]) then DigitRun(s, e) else c
  }

  /** `-?(0|[1-9][0-9]*)(\.[0-9]+)?([eE][-+]?[0-9]+)?`, longest match. */
  function Number(s: String, i: nat): (r: Option<nat>)
    requires i <= |s|
    ensures r.Some? ==> i < r.value <= |s|
  {
    var a := if i < |s| && s[i] == '-' then i + 1 else i;
    if a == |s| || !IsDigit(s[a]) then None
    else
      var b := if s[a] == '0' then a + 1 else DigitRun(s, a);
      var c := if b + 1 < |s| && s[b] == '.' && IsDigit(s[b + 1]) then DigitRun(s, b + 1) else b;
      var d := if c < |s| && (s[c] == 'e' || s[c] == 'E') then Exponent(s, c) else c;
      Some(d)
  }

  /** `w` is spelled out in `s` from position `i` on. */
  predicate Spelled(s: String, i: nat, w: String)
    decreases |w|
  {
    |w| == 0 || (i < |s| && s[i] == w[0] && Spelled(s, i + 1, w[1..]))
  }

  /** The word constants, including Python's non-standard ones. */
  function Keyword(s: String, i: nat): (r: Option<nat>)
    requires i <= |s|
    ensures r.Some? ==> i < r.value <= |s|
  {
    var w :=
      if i == |s| then []
      else if s[i] == 'n' then "null"
      else if s[i] == 't' then "true"
      else if s[i] == 'f' then "false"
      else if s[i] == 'N' then "NaN"
      else if s[i] == 'I' then "Infinity"
      else if s[i] == '-' then "-Infinity"
      else [];
    SpelledFits(s, i, w);
    if w != [] && Spelled(s, i, w) then Some(i + |w|) else None
  }

  lemma {:induction false} SpelledFits(s: String, i: nat, w: String)
    requires i <= |s|
    ensures Spelled(s, i, w) ==> i + |w| <= |s|
    decreases |w|
  {
    if |w| > 0 && Spelled(s, i, w) {
      assert Spelled(s, i + 1, w[1..]);
      SpelledFits(s, i + 1, w[1..]);
    }
  }

  /** The end of the JSON value starting exactly at `i` (no leading whitespace). */
  function Value(s: String, i: nat): (r: Option<nat>)
    requires i <= |s|
    ensures r.Some? ==> i < r.value <= |s|
    decreases |s| - i, 2
  {
    if i == |s| then None
    else if s[i] == '"' then StringTail(s, i + 1)
    else if s[i] == '{' then Object(s, i)
    else if s[i] == '[' then Array(s, i)
    else if Keyword(s, i).Some? then Keyword(s, i)
    else Number(s, i)
  }

  /** An object whose `{` is at `i`. */
  function Object(s: String, i: nat): (r: Option<nat>)
    requires i < |s|
    ensures r.Some? ==> i < r.value <= |s|
    decreases |s| - i, 1
  {
    var j := SkipWs(s, i + 1);
    if j < |s| && s[j] == '}' then Some(j + 1) else Members(s, j)
  }

  /**
    One `"key" : value` member starting at `j`: the position after the value
    and the whitespace that follows it.
   */
  function Member(s: String, j: nat): (r: Option<nat>)
    requires j <= |s|
    ensures r.Some? ==> j < r.value <= |s|
    decreases |s| - j, 0
  {
    if j == |s| || s[j] != '"' then None
    else match StringTail(s, j + 1)
      case None => None
      case Some(k) =>
        var colon := SkipWs(s, k);
        if colon == |s| || s[colon] != ':' then None
        else match Value(s, SkipWs(s, colon + 1))
          case None => None
          case Some(e) => Some(SkipWs(s, e))
  }

  /** Members separated by `,` up to and including the closing `}`, from `j`. */
  function Members(s: String, j: nat): (r: Option<nat>)
    requires j <= |s|
    ensures r.Some? ==> j < r.value <= |s|
    decreases |s| - j, 3
  {
    match Member(s, j)
    case None => None
    case Some(e1) =>
      if e1 < |s| && s[e1] == '}' then Some(e1 + 1)
      else if e1 < |s| && s[e1] == ',' then Members(s, SkipWs(s, e1 + 1))
      else None
  }

  /** An array whose `[` is at `i`. */
  function Array(s: String, i: nat): (r: Option<nat>)
    requires i < |s|
    ensures r.Some? ==> i < r.value <= |s|
    decreases |s| - i, 1
  {
    var j := SkipWs(s, i + 1);
    if j < |s| && s[j] == ']' then Some(j + 1) else Elements(s, j)
  }

  /** Values separated by `,` up to and including the closing `]`, from `j`. */
  function Elements(s: String, j: nat): (r: Option<nat>)
    requires j <= |s|
    ensures r.Some? ==> j < r.value <= |s|
    decreases |s| - j, 3
  {
    match Value(s, j)
    case None => None
    case Some(e) =>
      var e1 := SkipWs(s, e);
      if e1 < |s| && s[e1] == ']' then Some(e1 + 1)
      else if e1 < |s| && s[e1] == ',' then Elements(s, SkipWs(s, e1 + 1))
      else None
  }

  /**
    `json.loads(s)` succeeds: one value, optionally surrounded by whitespace,
    and nothing else.
   */
  predicate Loads(s: String) {
    var i := SkipWs(s, 0);
    match Value(s, i)
    case None => false
    case Some(e) => SkipWs(s, e) == |s|
  }

  // ------------------------------------------------------------ encoder

  /** JSON documents, as a serialiser would produce them. */
  datatype Doc =
    | Null
    | Bool(b: bool)
    | Int(n: int)
    | Str(text: String)
    | Arr(items: seq<Doc>)
    | Obj(fields: seq<Field>)

  datatype Field = Field(key: String, value: Doc)

  function HexDigit(d: nat): (c: char)
    requires d < 16
    ensures IsHex(c)
  {
    if d < 10 then DigitChar(d) else ('a' as int + d - 10) as char
  }

  /** One character of a string literal's body: quote, backslash and controls escaped. */
  function EscapeChar(c: char): String {
    if c == '"' then ['\\', '"']
    else if c == '\\' then ['\\', '\\']
    else if c < ' ' then ['\\', 'u', '0', '0', HexDigit(c as int / 16), HexDigit(c as int % 16)]
    else [c]
  }

  function Escape(t: String): String {
    if t == [] then [] else EscapeChar(t[0]) + Escape(t[1..])
  }

  function Quote(t: String): String {
    "\"" + Escape(t) + "\""
  }

  /** Compact serialisation: no whitespace, `,` between items, `:` after keys. */
  function Encode(v: Doc): String
    decreases v, 1, 0
  {
    match v
    case Null => "null"
    case Bool(b) => if b then "true" else "false"
    case Int(n) => IntToString(n)
    case Str(t) => Quote(t)
    case Arr(_) => "[" + Items(v, 0) + "]"
    case Obj(_) => "{" + Fields(v, 0) + "}"
  }

  /** The items of an array from the `k`-th on, separated by `,`. */
  function Items(v: Doc, k: nat): String
    requires v.Arr? && k <= |v.items|
    decreases v, 0, |v.items| - k
  {
    if k == |v.items| then []
    else Encode(v.items[k]) + (if k + 1 < |v.items| then "," + Items(v, k + 1) else [])
  }

  /** The `"key":value` members of an object from the `k`-th on, separated by `,`. */
  function Fields(v: Doc, k: nat): String
    requires v.Obj? && k <= |v.fields|
    decreases v, 0, |v.fields| - k
  {
    if k == |v.fields| then []
    else
      Quote(v.fields[k].key) + ":" + Encode(v.fields[k].value)
      + (if k + 1 < |v.fields| then "," + Fields(v, k + 1) else [])
  }

  // ------------------------------------------------- the encoder's output loads

  /** `t` occurs in `s` at position `i`, character by character. */
  predicate At(s: String, i: nat, t: String)
    decreases |t|
  {
    if t == [] then i <= |s| else i < |s| && s[i] == t[0] && At(s, i + 1, t[1..])
  }

  /** What may follow a value inside a document or at its end. */
  predicate Stops(s: String, j: nat) {
    j == |s| || (j < |s| && (s[j] == ',' || s[j] == ']' || s[j] == '}' || IsWs(s[j])))
  }

  lemma {:induction false} AtConcat(s: String, i: nat, a: String, b: String)
    requires At(s, i, a + b)
    ensures At(s, i, a) && At(s, i + |a|, b)
    decreases |a|
  {
    if a == [] {
      assert a + b == b;
      AtFits(s, i, b);
    } else {
      assert (a + b)[1..] == a[1..] + b;
      AtConcat(s, i + 1, a[1..], b);
    }
  }

  lemma {:induction false} AtIndex(s: String, i: nat, t: String, k: nat)
    requires At(s, i, t) && k < |t|
    ensures i + k < |s| && s[i + k] == t[k]
    decreases k
  {
    if k > 0 {
      AtIndex(s, i + 1, t[1..], k - 1);
    }
  }

  lemma {:induction false} AtFits(s: String, i: nat, t: String)
    requires At(s, i, t)
    ensures i + |t| <= |s|
    decreases |t|
  {
    if t != [] {
      AtFits(s, i + 1, t[1..]);
    }
  }

  /** Every suffix of `s` occurs where it starts. */
  lemma {:induction false} AtSuffix(s: String, i: nat)
    requires i <= |s|
    ensures At(s, i, s[i..])
    decreases |s| - i
  {
    if i < |s| {
      assert s[i..][1..] == s[i + 1..];
      AtSuffix(s, i + 1);
    }
  }

  /** A quoted body produced by `Escape` is scanned up to and including its closing quote. */
  lemma {:induction false} EscapeScans(t: String, s: String, i: nat, m: nat)
    requires At(s, i, Escape(t) + "\"") && m == i + |Escape(t)| + 1
    ensures StringTail(s, i) == Some(m)
    decreases |t|
  {
    if t == [] {
      AtIndex(s, i, Escape(t) + "\"", 0);
    } else {
      var rest := Escape(t[1..]) + "\"";
      var e := EscapeChar(t[0]);
      assert Escape(t) + "\"" == e + rest;
      AtConcat(s, i, e, rest);
      EscapeScans(t[1..], s, i + |e|, m);
      AtIndex(s, i, e, 0);
      if |e| > 1 {
        AtIndex(s, i, e, 1);
      }
      if |e| == 6 {
        AtIndex(s, i, e, 2);
        AtIndex(s, i, e, 3);
        AtIndex(s, i, e, 4);
        AtIndex(s, i, e, 5);
      }
    }
  }

  lemma {:induction false} DigitRunEnds(s: String, a: nat, m: nat)
    requires a + m <= |s|
    requires forall k | a <= k < a + m :: IsDigit(s[k])
    requires a + m == |s| || !IsDigit(s[a + m])
    ensures DigitRun(s, a) == a + m
    decreases m
  {
    if m > 0 {
      DigitRunEnds(s, a + 1, m - 1);
    }
  }

  lemma NumberOfDigits(s: String, a: nat, d: String, m: nat)
    requires At(s, a, d) && m == a + |d| && Stops(s, m)
    requires |d| >= 1 && AllDigits(d) && (|d| > 1 ==> d[0] != '0')
    ensures Number(s, a) == Some(m)
  {
    AtIndex(s, a, d, 0);
    forall k | a <= k < a + |d| ensures IsDigit(s[k]) {
      AtIndex(s, a, d, k - a);
    }
    if d[0] != '0' {
      DigitRunEnds(s, a, |d|);
    }
  }

  /** A spelled word fixes the character after its first one. */
  lemma SpelledSecond(s: String, i: nat, w: String)
    requires |w| >= 2
    ensures Spelled(s, i, w) ==> i + 1 < |s| && s[i + 1] == w[1]
  {
    if Spelled(s, i, w) {
      assert Spelled(s, i + 1, w[1..]);
    }
  }

  /** A digit, or a minus sign before a digit, starts a number token. */
  lemma ValueAtNumber(s: String, i: nat)
    requires i < |s|
    requires IsDigit(s[i]) || (s[i] == '-' && i + 1 < |s| && IsDigit(s[i + 1]))
    ensures Value(s, i) == Number(s, i)
  {
    if s[i] == '-' {
      SpelledSecond(s, i, "-Infinity");
    }
  }

  lemma NumberAfterMinus(s: String, i: nat)
    requires i + 1 < |s| && s[i] == '-' && IsDigit(s[i + 1])
    ensures Number(s, i) == Number(s, i + 1)
  {
  }

  /** A serialised integer is one number token. */
  lemma IntScans(n: int, s: String, i: nat, m: nat)
    requires At(s, i, IntToString(n)) && m == i + |IntToString(n)| && Stops(s, m)
    ensures Value(s, i) == Some(m)
  {
    if n < 0 {
      NegativeScans(NatToString(-n), s, i, m);
    } else {
      var t := NatToString(n);
      AtIndex(s, i, t, 0);
      ValueAtNumber(s, i);
      NumberOfDigits(s, i, t, m);
    }
  }

  lemma NegativeScans(d: String, s: String, i: nat, m: nat)
    requires |d| >= 1 && AllDigits(d) && (|d| > 1 ==> d[0] != '0')
    requires At(s, i, "-" + d) && m == i + 1 + |d| && Stops(s, m)
    ensures Value(s, i) == Some(m)
  {
    MinusThenDigits(d, s, i);
    ValueAtNumber(s, i);
    NumberAfterMinus(s, i);
    NumberOfDigits(s, i + 1, d, m);
  }

  lemma MinusThenDigits(d: String, s: String, i: nat)
    requires |d| >= 1 && AllDigits(d)
    requires At(s, i, "-" + d)
    ensures i + 1 < |s| && s[i] == '-' && IsDigit(s[i + 1]) && At(s, i + 1, d)
  {
    AtConcat(s, i, "-", d);
    AtIndex(s, i, "-", 0);
    AtIndex(s, i + 1, d, 0);
  }

  lemma SkipWsAt(s: String, j: nat)
    requires j < |s| && !IsWs(s[j])
    ensures SkipWs(s, j) == j
  {
  }

  /** Serialisations never begin with whitespace. */
  lemma EncodeStart(v: Doc)
    ensures |Encode(v)| >= 1 && !IsWs(Encode(v)[0])
    ensures Encode(v)[0] != ']' && Encode(v)[0] != '}'
  {
    match v
    case Int(n) =>
      if n < 0 {
        assert IntToString(n)[0] == '-';
      } else {
        assert IsDigit(IntToString(n)[0]);
      }
    case _ =>
  }

  lemma {:induction false} AtSpelled(s: String, i: nat, w: String)
    requires At(s, i, w)
    ensures Spelled(s, i, w)
    decreases |w|
  {
    if |w| > 0 {
      AtIndex(s, i, w, 0);
      assert w == [w[0]] + w[1..];
      AtConcat(s, i, [w[0]], w[1..]);
      AtSpelled(s, i + 1, w[1..]);
    }
  }

  lemma KeywordScans(s: String, i: nat, w: String, m: nat)
    requires w == "null" || w == "true" || w == "false"
    requires At(s, i, w) && m == i + |w|
    ensures Value(s, i) == Some(m)
  {
    AtSpelled(s, i, w);
    AtIndex(s, i, w, 0);
  }

  lemma QuoteScans(t: String, s: String, i: nat, m: nat)
    requires At(s, i, Quote(t)) && m == i + |Quote(t)|
    ensures i < |s| && s[i] == '"'
    ensures StringTail(s, i + 1) == Some(m)
  {
    assert Quote(t) == "\"" + (Escape(t) + "\"");
    AtConcat(s, i, "\"", Escape(t) + "\"");
    AtIndex(s, i, "\"", 0);
    EscapeScans(t, s, i + 1, m);
  }

  lemma ElementsThen(s: String, j: nat, e: nat, m: nat)
    requires j <= |s| && Value(s, j) == Some(e)
    requires e + 1 < |s| && s[e] == ',' && !IsWs(s[e + 1])
    requires Elements(s, e + 1) == Some(m)
    ensures Elements(s, j) == Some(m)
  {
    SkipWsAt(s, e);
    SkipWsAt(s, e + 1);
  }

  lemma ElementsLast(s: String, j: nat, e: nat, m: nat)
    requires j <= |s| && Value(s, j) == Some(e)
    requires e < |s| && s[e] == ']' && m == e + 1
    ensures Elements(s, j) == Some(m)
  {
    SkipWsAt(s, e);
  }

  /** One `"key":value` member whose key ends at `k` and whose value ends at `e`. */
  lemma MemberScans(s: String, j: nat, k: nat, e: nat)
    requires j < |s| && s[j] == '"' && StringTail(s, j + 1) == Some(k)
    requires k + 1 < |s| && s[k] == ':' && !IsWs(s[k + 1])
    requires Value(s, k + 1) == Some(e)
    requires e < |s| && !IsWs(s[e])
    ensures Member(s, j) == Some(e)
  {
    SkipWsAt(s, k);
    SkipWsAt(s, k + 1);
    SkipWsAt(s, e);
  }

  lemma MembersThen(s: String, j: nat, e: nat, m: nat)
    requires j <= |s| && Member(s, j) == Some(e)
    requires e < |s| && s[e] == ','
    requires e + 1 <= |s| && Members(s, e + 1) == Some(m)
    ensures Members(s, j) == Some(m)
  {
    SkipWsAt(s, e + 1);
  }

  lemma MembersLast(s: String, j: nat, e: nat, m: nat)
    requires j <= |s| && Member(s, j) == Some(e)
    requires e < |s| && s[e] == '}' && m == e + 1
    ensures Members(s, j) == Some(m)
  {
  }

  /** An array whose first item starts right after `[` ends where its items do. */
  lemma ArrayThen(s: String, i: nat, m: nat)
    requires i + 1 < |s| && s[i] == '[' && !IsWs(s[i + 1]) && s[i + 1] != ']'
    requires Elements(s, i + 1) == Some(m)
    ensures Value(s, i) == Some(m)
  {
    SkipWsAt(s, i + 1);
  }

  /** An object whose first member starts right after `{` ends where its members do. */
  lemma ObjectThen(s: String, i: nat, m: nat)
    requires i + 1 < |s| && s[i] == '{' && s[i + 1] == '"'
    requires Members(s, i + 1) == Some(m)
    ensures Value(s, i) == Some(m)
  {
    SkipWsAt(s, i + 1);
  }

  lemma EmptyOpen(s: String, i: nat, m: nat)
    requires i + 1 < |s| && ((s[i] == '[' && s[i + 1] == ']') || (s[i] == '{' && s[i + 1] == '}'))
    requires m == i + 2
    ensures Value(s, i) == Some(m)
  {
    SkipWsAt(s, i + 1);
  }

  /** `t` is `a + b + c` laid out at `i`. */
  lemma AtThree(s: String, i: nat, a: String, b: String, c: String)
    requires At(s, i, a + b + c)
    ensures At(s, i, a) && At(s, i + |a|, b) && At(s, i + |a| + |b|, c)
  {
    AtConcat(s, i, a + b, c);
    AtConcat(s, i, a, b);
  }

  /** Every serialised document is scanned as exactly one value, ending at `m`. */
  lemma {:induction false} EncodeScans(v: Doc, s: String, i: nat, m: nat)
    requires At(s, i, Encode(v)) && m == i + |Encode(v)| && Stops(s, m)
    ensures Value(s, i) == Some(m)
    decreases v, 1, 0, 0
  {
    match v
    case Null => KeywordScans(s, i, "null", m);
    case Bool(b) => KeywordScans(s, i, if b then "true" else "false", m);
    case Int(n) => IntScans(n, s, i, m);
    case Str(t) => QuoteScans(t, s, i, m);
    case Arr(_) => ArrScans(v, s, i, m);
    case Obj(_) => ObjScans(v, s, i, m);
  }

  lemma {:induction false} ArrScans(v: Doc, s: String, i: nat, m: nat)
    requires v.Arr? && At(s, i, Encode(v)) && m == i + |Encode(v)|
    ensures Value(s, i) == Some(m)
    decreases v, 0, |v.items| + 2, 0
  {
    var body := Items(v, 0);
    assert Encode(v) == ['['] + (body + "]");
    AtCons(s, i, '[', body + "]");
    if v.items == [] {
      AtIndex(s, i + 1, body + "]", 0);
      EmptyOpen(s, i, m);
    } else {
      ItemsScan(v, s, i, m);
    }
  }

  lemma {:induction false} ItemsScan(v: Doc, s: String, i: nat, m: nat)
    requires v.Arr? && v.items != []
    requires i < |s| && s[i] == '[' && At(s, i + 1, Items(v, 0) + "]")
    requires m == i + 1 + |Items(v, 0)| + 1
    ensures Value(s, i) == Some(m)
    decreases v, 0, |v.items| + 1, 0
  {
    ElementsScan(v, 0, s, i + 1, m);
    ItemStarts(v, 0, s, i + 1);
    ArrayThen(s, i, m);
  }

  lemma {:induction false} ObjScans(v: Doc, s: String, i: nat, m: nat)
    requires v.Obj? && At(s, i, Encode(v)) && m == i + |Encode(v)|
    ensures Value(s, i) == Some(m)
    decreases v, 0, |v.fields| + 2, 0
  {
    var body := Fields(v, 0);
    assert Encode(v) == ['{'] + (body + "}");
    AtCons(s, i, '{', body + "}");
    if v.fields == [] {
      AtIndex(s, i + 1, body + "}", 0);
      EmptyOpen(s, i, m);
    } else {
      FieldsScan(v, s, i, m);
    }
  }

  lemma {:induction false} FieldsScan(v: Doc, s: String, i: nat, m: nat)
    requires v.Obj? && v.fields != []
    requires i < |s| && s[i] == '{' && At(s, i + 1, Fields(v, 0) + "}")
    requires m == i + 1 + |Fields(v, 0)| + 1
    ensures Value(s, i) == Some(m)
    decreases v, 0, |v.fields| + 1, 0
  {
    MembersScan(v, 0, s, i + 1, m);
    FieldStarts(v, 0, s, i + 1);
    ObjectThen(s, i, m);
  }

  lemma AtCons(s: String, i: nat, c: char, t: String)
    requires At(s, i, [c] + t)
    ensures i < |s| && s[i] == c && At(s, i + 1, t)
  {
    AtConcat(s, i, [c], t);
    AtIndex(s, i, [c], 0);
  }

  /** The `k`-th item and its separator or the closing bracket. */
  lemma ItemLayout(v: Doc, k: nat, s: String, j: nat)
    requires v.Arr? && k < |v.items|
    requires At(s, j, Items(v, k) + "]")
    ensures At(s, j, Encode(v.items[k])) && j + |Encode(v.items[k])| < |s|
    ensures Stops(s, j + |Encode(v.items[k])|)
    ensures k + 1 == |v.items| ==> s[j + |Encode(v.items[k])|] == ']' && |Items(v, k)| == |Encode(v.items[k])|
    ensures k + 1 < |v.items| ==> s[j + |Encode(v.items[k])|] == ','
    ensures k + 1 < |v.items| ==> At(s, j + |Encode(v.items[k])| + 1, Items(v, k + 1) + "]")
    ensures k + 1 < |v.items| ==> |Items(v, k)| == |Encode(v.items[k])| + 1 + |Items(v, k + 1)|
  {
    var p := Encode(v.items[k]);
    if k + 1 == |v.items| {
      assert Items(v, k) + "]" == p + "]";
      AtConcat(s, j, p, "]");
      AtIndex(s, j + |p|, "]", 0);
    } else {
      var rest := Items(v, k + 1);
      assert Items(v, k) + "]" == p + ("," + (rest + "]"));
      AtConcat(s, j, p, "," + (rest + "]"));
      AtConcat(s, j + |p|, ",", rest + "]");
      AtIndex(s, j + |p|, ",", 0);
    }
  }

  lemma ItemStarts(v: Doc, k: nat, s: String, j: nat)
    requires v.Arr? && k < |v.items|
    requires At(s, j, Items(v, k) + "]")
    ensures j < |s| && !IsWs(s[j]) && s[j] != ']'
  {
    ItemLayout(v, k, s, j);
    EncodeStart(v.items[k]);
    AtIndex(s, j, Encode(v.items[k]), 0);
  }

  /**
    The items of `v` from the `k`-th on, then `]`, are scanned by `Elements`
    up to `m`, the position after the bracket.
   */
  lemma {:induction false} ElementsScan(v: Doc, k: nat, s: String, j: nat, m: nat)
    requires v.Arr? && k < |v.items|
    requires At(s, j, Items(v, k) + "]") && m == j + |Items(v, k)| + 1
    ensures Elements(s, j) == Some(m)
    decreases v, 0, |v.items| - k, 0
  {
    var e := j + |Encode(v.items[k])|;
    ItemLayout(v, k, s, j);
    EncodeScans(v.items[k], s, j, e);
    if k + 1 == |v.items| {
      ElementsLast(s, j, e, m);
    } else {
      ElementsScan(v, k + 1, s, e + 1, m);
      ItemStarts(v, k + 1, s, e + 1);
      ElementsThen(s, j, e, m);
    }
  }

  /** What follows the `k`-th member: `,` and the next members, or the closing brace. */
  function FieldTail(v: Doc, k: nat): String
    requires v.Obj? && k < |v.fields|
  {
    if k + 1 == |v.fields| then "}" else "," + (Fields(v, k + 1) + "}")
  }

  lemma FieldTailStarts(v: Doc, k: nat)
    requires v.Obj? && k < |v.fields|
    ensures |FieldTail(v, k)| >= 1 && (FieldTail(v, k)[0] == ',' || FieldTail(v, k)[0] == '}')
  {
  }

  lemma FieldsUnfold(v: Doc, k: nat)
    requires v.Obj? && k < |v.fields|
    ensures Fields(v, k) + "}" == Quote(v.fields[k].key) + (":" + (Encode(v.fields[k].value) + FieldTail(v, k)))
  {
  }

  lemma MemberLayout(s: String, j: nat, q: String, e: String, tail: String)
    requires |tail| >= 1 && At(s, j, q + (":" + (e + tail)))
    ensures At(s, j, q) && j + |q| + 1 + |e| < |s|
    ensures s[j + |q|] == ':' && At(s, j + |q| + 1, e)
    ensures s[j + |q| + 1 + |e|] == tail[0] && At(s, j + |q| + 1 + |e|, tail)
  {
    AtConcat(s, j, q, ":" + (e + tail));
    AtConcat(s, j + |q|, ":", e + tail);
    AtConcat(s, j + |q| + 1, e, tail);
    AtIndex(s, j + |q|, ":", 0);
    AtIndex(s, j + |q| + 1 + |e|, tail, 0);
  }

  /** Where the key of the `k`-th member, laid out at `j`, ends. */
  function KeyEnd(v: Doc, k: nat, j: nat): nat
    requires v.Obj? && k < |v.fields|
  {
    j + |Quote(v.fields[k].key)|
  }

  /** Where the `k`-th member, laid out at `j`, ends. */
  function MemberEnd(v: Doc, k: nat, j: nat): nat
    requires v.Obj? && k < |v.fields|
  {
    KeyEnd(v, k, j) + 1 + |Encode(v.fields[k].value)|
  }

  /** The `k`-th member and its separator or the closing brace. */
  lemma FieldLayout(v: Doc, k: nat, s: String, j: nat)
    requires v.Obj? && k < |v.fields|
    requires At(s, j, Fields(v, k) + "}")
    ensures At(s, j, Quote(v.fields[k].key))
    ensures MemberEnd(v, k, j) < |s| && s[KeyEnd(v, k, j)] == ':'
    ensures At(s, KeyEnd(v, k, j) + 1, Encode(v.fields[k].value))
    ensures At(s, MemberEnd(v, k, j), FieldTail(v, k))
    ensures s[MemberEnd(v, k, j)] == ',' || s[MemberEnd(v, k, j)] == '}'
  {
    FieldsUnfold(v, k);
    FieldTailStarts(v, k);
    MemberLayout(s, j, Quote(v.fields[k].key), Encode(v.fields[k].value), FieldTail(v, k));
  }

  lemma FieldStarts(v: Doc, k: nat, s: String, j: nat)
    requires v.Obj? && k < |v.fields|
    requires At(s, j, Fields(v, k) + "}")
    ensures j < |s| && s[j] == '"'
  {
    FieldLayout(v, k, s, j);
    AtIndex(s, j, Quote(v.fields[k].key), 0);
  }

  /** After the `k`-th member comes either `}` or `,` and the remaining members. */
  lemma FieldsSplit(v: Doc, k: nat, s: String, j: nat)
    requires v.Obj? && k < |v.fields|
    requires At(s, j, Fields(v, k) + "}")
    ensures MemberEnd(v, k, j) < |s|
    ensures k + 1 == |v.fields| ==>
      s[MemberEnd(v, k, j)] == '}' && j + |Fields(v, k)| + 1 == MemberEnd(v, k, j) + 1
    ensures k + 1 < |v.fields| ==>
      && s[MemberEnd(v, k, j)] == ','
      && At(s, MemberEnd(v, k, j) + 1, Fields(v, k + 1) + "}")
      && j + |Fields(v, k)| + 1 == MemberEnd(v, k, j) + 1 + |Fields(v, k + 1)| + 1
  {
    var e := MemberEnd(v, k, j);
    FieldLayout(v, k, s, j);
    FieldsUnfold(v, k);
    if k + 1 == |v.fields| {
      AtIndex(s, e, "}", 0);
    } else {
      AtCons(s, e, ',', Fields(v, k + 1) + "}");
    }
  }

  /**
    The members of `v` from the `k`-th on, then `}`, are scanned by `Members`
    up to `m`, the position after the brace.
   */
  lemma {:induction false} MembersScan(v: Doc, k: nat, s: String, j: nat, m: nat)
    requires v.Obj? && k < |v.fields|
    requires At(s, j, Fields(v, k) + "}") && m == j + |Fields(v, k)| + 1
    ensures Members(s, j) == Some(m)
    decreases v, 0, |v.fields| - k, 2
  {
    FieldsSplit(v, k, s, j);
    FirstMember(v, k, s, j);
    if k + 1 == |v.fields| {
      MembersLast(s, j, MemberEnd(v, k, j), m);
    } else {
      NextMembers(v, k, s, j, m);
    }
  }

  lemma {:induction false} NextMembers(v: Doc, k: nat, s: String, j: nat, m: nat)
    requires v.Obj? && k + 1 < |v.fields|
    requires At(s, j, Fields(v, k) + "}") && m == j + |Fields(v, k)| + 1
    ensures Members(s, j) == Some(m)
    decreases v, 0, |v.fields| - k, 1
  {
    var e := MemberEnd(v, k, j);
    FieldsSplit(v, k, s, j);
    MembersScan(v, k + 1, s, e + 1, m);
    FirstMemberThen(v, k, s, j, m);
  }

  /** The `k`-th member, a comma, and members that end at `m`. */
  lemma {:induction false} FirstMemberThen(v: Doc, k: nat, s: String, j: nat, m: nat)
    requires v.Obj? && k + 1 < |v.fields|
    requires At(s, j, Fields(v, k) + "}")
    requires MemberEnd(v, k, j) + 1 <= |s| && Members(s, MemberEnd(v, k, j) + 1) == Some(m)
    ensures Members(s, j) == Some(m)
    decreases v, 0, |v.fields| - k, 0, 1
  {
    FieldsSplit(v, k, s, j);
    FirstMember(v, k, s, j);
    MembersThen(s, j, MemberEnd(v, k, j), m);
  }

  /** The `k`-th member alone is scanned by `Member`, up to its separator. */
  lemma {:induction false} FirstMember(v: Doc, k: nat, s: String, j: nat)
    requires v.Obj? && k < |v.fields|
    requires At(s, j, Fields(v, k) + "}")
    ensures Member(s, j) == Some(MemberEnd(v, k, j))
    decreases v, 0, |v.fields| - k, 0, 0, 2
  {
    FieldLayout(v, k, s, j);
    LaidOutMember(v, k, s, j);
  }

  /** A member laid out as `FieldLayout` describes is scanned by `Member`. */
  lemma {:induction false} LaidOutMember(v: Doc, k: nat, s: String, j: nat)
    requires v.Obj? && k < |v.fields|
    requires At(s, j, Quote(v.fields[k].key))
    requires MemberEnd(v, k, j) < |s| && s[KeyEnd(v, k, j)] == ':'
    requires At(s, KeyEnd(v, k, j) + 1, Encode(v.fields[k].value))
    requires s[MemberEnd(v, k, j)] == ',' || s[MemberEnd(v, k, j)] == '}'
    ensures Member(s, j) == Some(MemberEnd(v, k, j))
    decreases v, 0, |v.fields| - k, 0, 0, 1
  {
    var c := KeyEnd(v, k, j);
    QuoteScans(v.fields[k].key, s, j, c);
    MemberValueScans(v, k, s, j);
    MemberScans(s, j, c, MemberEnd(v, k, j));
  }

  /** The value of the `k`-th member, after its key and colon, is scanned by `Value`. */
  lemma {:induction false} MemberValueScans(v: Doc, k: nat, s: String, j: nat)
    requires v.Obj? && k < |v.fields|
    requires At(s, KeyEnd(v, k, j) + 1, Encode(v.fields[k].value))
    requires MemberEnd(v, k, j) < |s| && (s[MemberEnd(v, k, j)] == ',' || s[MemberEnd(v, k, j)] == '}')
    ensures KeyEnd(v, k, j) + 1 < |s| && !IsWs(s[KeyEnd(v, k, j) + 1])
    ensures !IsWs(s[MemberEnd(v, k, j)])
    ensures Value(s, KeyEnd(v, k, j) + 1) == Some(MemberEnd(v, k, j))
    decreases v, 0, |v.fields| - k, 0, 0, 0
  {
    var w := v.fields[k].value;
    var i := KeyEnd(v, k, j) + 1;
    EncodeStart(w);
    AtIndex(s, i, Encode(w), 0);
    EncodeScans(w, s, i, i + |Encode(w)|);
  }

  /** `json.loads` accepts every serialised document. */
  lemma LoadsEncode(v: Doc)
    ensures Loads(Encode(v))
  {
    var s := Encode(v);
    AtSuffix(s, 0);
    EncodeStart(v);
    SkipWsAt(s, 0);
    EncodeScans(v, s, 0, |s|);
  }
}

=== FILE: ledger.dfy ===
/**
  The replay ledger (`ReplayManager`): a newest-first, bounded history of
  executed commands, the number of consecutive failures of each command and
  the time each command last ran. The repository holds three copies of the
  class with the same logic; the archived one adds `remove_failed_only`.
  The wall clock is the explicit parameter `now`.
 */
module Ledger {
  import opened Wrappers
  import opened Text

  /** One history record (the ISO timestamp string is not modelled). */
  datatype Entry = Entry(command: String, response: String, success: bool)

  /** The constructor's arguments: history bound, retry cap, cooldown in seconds. */
  datatype Config = Config(maxHistory: int, maxRetries: int, cooldown: real)

  /** The defaults `max_history_size=10, max_retries=3, retry_cooldown=1.0`. */
  const Default := Config(10, 3, 1.0)

  datatype Ledger = Ledger(history: seq<Entry>, failed: map<String, int>, lastRun: map<String, real>)

  /** A freshly constructed manager. */
  const Empty := Ledger([], map[], map[])

  /** The bound a history can reach; a negative bound keeps nothing. */
  function Cap(cfg: Config): nat {
    if cfg.maxHistory < 0 then 0 else cfg.maxHistory
  }

  /** What every ledger reachable from `Empty` satisfies. */
  predicate Valid(cfg: Config, l: Ledger) {
    |l.history| <= Cap(cfg) && forall c | c in l.failed :: l.failed[c] >= 1
  }

  /** `failed_commands.get(c, 0)` */
  function FailCount(l: Ledger, c: String): int {
    if c in l.failed then l.failed[c] else 0
  }

  /** The failure map after one more run of `c`. */
  function RecordOutcome(failed: map<String, int>, c: String, success: bool): (r: map<String, int>)
    ensures success <==> c !in r
    ensures !success ==> r[c] == (if c in failed then failed[c] else 0) + 1
    ensures forall k | k != c :: (k in r <==> k in failed) && (k in r ==> r[k] == failed[k])
  {
    if success then failed - {c} else failed[c := (if c in failed then failed[c] else 0) + 1]
  }

  /** `add_command(command, response, success)` at time `now`. */
  function AddCommand(cfg: Config, l: Ledger, command: String, response: String, success: bool, now: real): (r: Ledger)
    ensures Valid(cfg, l) ==> Valid(cfg, r)
    ensures |r.history| == if |l.history| + 1 > cfg.maxHistory then |l.history| else |l.history| + 1
    ensures r.history == ([Entry(command, response, success)] + l.history)[..|r.history|]
  {
    var h := [Entry(command, response, success)] + l.history;
    Ledger(
      if |h| > cfg.maxHistory then h[..|h| - 1] else h,
      RecordOutcome(l.failed, command, success),
      l.lastRun[command := now])
  }

  /**
    What `add_command` does to the two maps: the command's time becomes `now`
    whatever the outcome, a failure adds one to its count, a success removes
    its count, and no other command's entry changes.
   */
  lemma AddCommandTracking(cfg: Config, l: Ledger, c: String, resp: String, ok: bool, now: real)
    ensures var r := AddCommand(cfg, l, c, resp, ok, now);
      && c in r.lastRun && r.lastRun[c] == now
      && (ok ==> c !in r.failed)
      && (!ok ==> c in r.failed && r.failed[c] == FailCount(l, c) + 1)
      && (forall k | k != c :: (k in r.lastRun <==> k in l.lastRun) && (k in r.lastRun ==> r.lastRun[k] == l.lastRun[k]))
      && (forall k | k != c :: (k in r.failed <==> k in l.failed) && (k in r.failed ==> r.failed[k] == l.failed[k]))
  {
  }

  /** `get_command(index)`: 1-based, and `None` rather than an error out of range. */
  function GetCommand(l: Ledger, index: int): (r: Option<Entry>)
    ensures r.Some? <==> 1 <= index <= |l.history|
    ensures r.Some? ==> r.value == l.history[index - 1]
  {
    var i := index - 1;
    if 0 <= i < |l.history| then Some(l.history[i]) else None
  }

  /** `should_retry(command)` at time `now`: under the cap and out of cooldown. */
  function ShouldRetry(cfg: Config, l: Ledger, c: String, now: real): (b: bool)
    ensures FailCount(l, c) >= cfg.maxRetries ==> !b
    ensures c in l.lastRun && now - l.lastRun[c] < cfg.cooldown ==> !b
  {
    if FailCount(l, c) >= cfg.maxRetries then false
    else if c in l.lastRun && now - l.lastRun[c] < cfg.cooldown then false
    else true
  }

  /** `clear_history()` */
  function ClearHistory(l: Ledger): (r: Ledger)
    ensures r.history == [] && r.failed == map[] && r.lastRun == map[]
  {
    Empty
  }

  /** `remove_failed_only()`: failure counts forgotten, nothing else touched. */
  function RemoveFailedOnly(l: Ledger): (r: Ledger)
    ensures r.history == l.history && r.lastRun == l.lastRun
    ensures forall c :: c !in r.failed
  {
    l.(failed := map[])
  }

  predicate HasCommandPrefix(c: String) {
    || StartsWith(c, "CMD:") || StartsWith(c, "CODE:") || StartsWith(c, "INFO:")
    || StartsWith(c, "FILE:") || StartsWith(c, "REPLAY:")
  }

  /** `int(command.split(":")[1].strip())`, `None` for `IndexError` and `ValueError`. */
  function ReplayIndex(command: String): (r: Option<int>) {
    var parts := SplitOn(command, ":");
    if |parts| < 2 then None else ParseInt(Strip(parts[1]))
  }

  /** `validate_command(command)` for a text argument. */
  function ValidateCommand(l: Ledger, command: String): (b: bool)
    ensures b <==>
      && command != [] && HasCommandPrefix(command)
      && (StartsWith(command, "REPLAY:") ==>
            ReplayIndex(command).Some? && 1 <= ReplayIndex(command).value <= |l.history|)
  {
    if command == [] then false
    else if !HasCommandPrefix(command) then false
    else if StartsWith(command, "REPLAY:") then
      match ReplayIndex(command)
      case None => false
      case Some(n) => 1 <= n <= |l.history|
    else true
  }

  datatype RetryStatus = RetryStatus(attempts: int, maxRetries: int, canRetry: bool, cooldown: real)

  /** `last_execution.get(command, 0)` */
  function LastRun(l: Ledger, c: String): real {
    if c in l.lastRun then l.lastRun[c] else 0.0
  }

  /** `get_retry_status(command)` at time `now`; a command never run counts as run at time 0. */
  function GetRetryStatus(cfg: Config, l: Ledger, c: String, now: real): (s: RetryStatus)
    ensures s.attempts == FailCount(l, c) && s.maxRetries == cfg.maxRetries
    ensures s.cooldown >= 0.0
    ensures s.canRetry ==> s.attempts < s.maxRetries
    ensures c in l.lastRun && s.cooldown > 0.0 ==> !s.canRetry
    ensures s.cooldown == 0.0 && s.attempts < s.maxRetries ==> s.canRetry
    ensures s.canRetry == ShouldRetry(cfg, l, c, now)
    ensures var left := cfg.cooldown - (now - LastRun(l, c));
      s.cooldown >= left && (s.cooldown == 0.0 || s.cooldown == left)
  {
    var left := cfg.cooldown - (now - LastRun(l, c));
    RetryStatus(FailCount(l, c), cfg.maxRetries, ShouldRetry(cfg, l, c, now), if left > 0.0 then left else 0.0)
  }

  // ------------------------------------------------------------ properties

  /** The converse of `ShouldRetry`'s contract: under the cap and out of cooldown, retry. */
  lemma RetryAllowed(cfg: Config, l: Ledger, c: String, now: real)
    requires FailCount(l, c) < cfg.maxRetries
    requires c !in l.lastRun || now - l.lastRun[c] >= cfg.cooldown
    ensures ShouldRetry(cfg, l, c, now)
  {
  }

  /**
    The reported fields agree with each other: a retry is allowed exactly
    when the attempts are under the cap and either the command never ran or
    no cooldown is left.
   */
  lemma RetryStatusConsistent(cfg: Config, l: Ledger, c: String, now: real)
    ensures var s := GetRetryStatus(cfg, l, c, now);
      s.canRetry <==> s.attempts < s.maxRetries && (c !in l.lastRun || s.cooldown == 0.0)
  {
    var s := GetRetryStatus(cfg, l, c, now);
    if s.attempts < s.maxRetries && (c !in l.lastRun || s.cooldown == 0.0) {
      RetryAllowed(cfg, l, c, now);
    }
  }

  /** The entry just added is `get_command(1)`. */
  lemma AddThenGet(cfg: Config, l: Ledger, c: String, resp: String, ok: bool, now: real)
    requires cfg.maxHistory >= 1
    ensures GetCommand(AddCommand(cfg, l, c, resp, ok, now), 1) == Some(Entry(c, resp, ok))
  {
  }

  /** Older entries move one place back; only the oldest can fall off. */
  lemma AddShifts(cfg: Config, l: Ledger, c: String, resp: String, ok: bool, now: real, i: int)
    requires 1 <= i < |AddCommand(cfg, l, c, resp, ok, now).history|
    ensures GetCommand(AddCommand(cfg, l, c, resp, ok, now), i + 1) == GetCommand(l, i)
  {
    var h := [Entry(c, resp, ok)] + l.history;
    assert h[i] == l.history[i - 1];
  }

  /** `add_command` for each entry in turn. */
  function AddAll(cfg: Config, l: Ledger, es: seq<Entry>, now: real): Ledger
    decreases |es|
  {
    if es == [] then l
    else AddAll(cfg, AddCommand(cfg, l, es[0].command, es[0].response, es[0].success, now), es[1..], now)
  }

  function Reverse<T>(s: seq<T>): (r: seq<T>)
    ensures |r| == |s|
  {
    if s == [] then [] else Reverse(s[1..]) + [s[0]]
  }

  function Min(a: int, b: int): int {
    if a < b then a else b
  }

  /**
    After a run of additions the history holds the newest entries first,
    followed by what was there before, cut at the bound.
   */
  lemma {:induction false} AddAllHistory(cfg: Config, l: Ledger, es: seq<Entry>, now: real)
    requires Valid(cfg, l)
    ensures Valid(cfg, AddAll(cfg, l, es, now))
    ensures AddAll(cfg, l, es, now).history == (Reverse(es) + l.history)[..Min(|es| + |l.history|, Cap(cfg))]
    decreases |es|
  {
    if es != [] {
      var e := es[0];
      var l1 := AddCommand(cfg, l, e.command, e.response, e.success, now);
      AddAllHistory(cfg, l1, es[1..], now);
      AddStep(cfg, l, es, now);
    }
  }

  /** One step of `AddAllHistory`: the first addition, then the rest. */
  lemma AddStep(cfg: Config, l: Ledger, es: seq<Entry>, now: real)
    requires Valid(cfg, l) && es != []
    requires var l1 := AddCommand(cfg, l, es[0].command, es[0].response, es[0].success, now);
      AddAll(cfg, l1, es[1..], now).history == (Reverse(es[1..]) + l1.history)[..Min(|es| - 1 + |l1.history|, Cap(cfg))]
    ensures AddAll(cfg, l, es, now).history == (Reverse(es) + l.history)[..Min(|es| + |l.history|, Cap(cfg))]
  {
    var e := es[0];
    var l1 := AddCommand(cfg, l, e.command, e.response, e.success, now);
    var n1 := Min(1 + |l.history|, Cap(cfg));
    var n := Min(|es| + |l.history|, Cap(cfg));
    var r := Reverse(es[1..]);
    AddedHistory(cfg, l, e, now);
    CutConcat(r, [e] + l.history, n1, n);
    ReverseCons(es, l.history);
  }

  lemma ReverseCons<T>(s: seq<T>, h: seq<T>)
    requires s != []
    ensures Reverse(s) + h == Reverse(s[1..]) + ([s[0]] + h)
  {
  }

  /** The history after one addition to a valid ledger, as a cut. */
  lemma AddedHistory(cfg: Config, l: Ledger, e: Entry, now: real)
    requires Valid(cfg, l)
    ensures AddCommand(cfg, l, e.command, e.response, e.success, now).history
      == ([e] + l.history)[..Min(1 + |l.history|, Cap(cfg))]
  {
    assert e == Entry(e.command, e.response, e.success);
  }

  /** Cutting the tail first changes nothing when the final cut is short enough. */
  lemma CutConcat<T>(a: seq<T>, b: seq<T>, m: nat, n: nat)
    requires m <= |b| && n <= |a| + m
    ensures (a + b[..m])[..n] == (a + b)[..n]
  {
    assert forall j | 0 <= j < n :: (a + b[..m])[j] == (a + b)[j];
  }

  /**
    Seven additions to an empty ledger bounded at five keep five entries, the
    seventh first.
   */
  lemma SevenIntoFive(es: seq<Entry>, now: real)
    requires |es| == 7
    ensures var l := AddAll(Config(5, 3, 0.1), Empty, es, now);
      |l.history| == 5 && GetCommand(l, 1) == Some(es[6])
  {
    var cfg := Config(5, 3, 0.1);
    AddAllHistory(cfg, Empty, es, now);
    var r := Reverse(es);
    assert r[0] == es[6] by {
      assert es == es[..6] + [es[6]];
      ReverseLast(es[..6], es[6]);
    }
  }

  lemma ReverseLast<T>(s: seq<T>, x: T)
    ensures Reverse(s + [x]) == [x] + Reverse(s)
    decreases |s|
  {
    if s != [] {
      assert (s + [x])[1..] == s[1..] + [x];
      ReverseLast(s[1..], x);
    }
  }

  /** Three failures exhaust a cap of three, whatever the clock says. */
  lemma ThreeFailures(cfg: Config, l: Ledger, c: String, resp: String, t1: real, t2: real, t3: real, now: real)
    requires cfg.maxRetries == 3 && FailCount(l, c) == 0
    ensures var l3 := AddCommand(cfg, AddCommand(cfg, AddCommand(cfg, l, c, resp, false, t1), c, resp, false, t2), c, resp, false, t3);
      FailCount(l3, c) == 3 && !ShouldRetry(cfg, l3, c, now)
  {
  }

  /**
    Right after a failure the command is in cooldown; it becomes retryable
    exactly when the cooldown has elapsed, provided the cap is not reached.
   */
  lemma CooldownAfterFailure(cfg: Config, l: Ledger, c: String, resp: String, t: real, now: real)
    requires FailCount(l, c) + 1 < cfg.maxRetries
    ensures var l1 := AddCommand(cfg, l, c, resp, false, t);
      ShouldRetry(cfg, l1, c, now) <==> now - t >= cfg.cooldown
  {
  }

  /** A success clears the count; the command is then blocked only by the cooldown. */
  lemma SuccessClearsFailures(cfg: Config, l: Ledger, c: String, resp: String, t: real)
    ensures FailCount(AddCommand(cfg, l, c, resp, true, t), c) == 0
  {
  }

  /** A command never run is retryable as soon as retries are allowed at all. */
  lemma NeverRunRetries(cfg: Config, l: Ledger, c: String, now: real)
    requires c !in l.failed && c !in l.lastRun
    ensures ShouldRetry(cfg, l, c, now) <==> cfg.maxRetries > 0
  {
  }

  /** After `clear_history` nothing is found, nothing is in cooldown and no replay validates. */
  lemma ClearForgets(cfg: Config, l: Ledger, c: String, i: int, k: int, now: real)
    ensures GetCommand(ClearHistory(l), i) == None
    ensures ShouldRetry(cfg, ClearHistory(l), c, now) <==> cfg.maxRetries > 0
    ensures !ValidateCommand(ClearHistory(l), "REPLAY:" + IntToString(k))
  {
    ValidateReplay(ClearHistory(l), k);
  }

  /** Once the failure counts are dropped, only the cooldown decides. */
  lemma RetryAfterRemoveFailed(cfg: Config, l: Ledger, c: String, now: real)
    requires cfg.maxRetries > 0
    ensures ShouldRetry(cfg, RemoveFailedOnly(l), c, now) <==> (c !in l.lastRun || now - l.lastRun[c] >= cfg.cooldown)
  {
  }

  /** `REPLAY:k`, with `k` written in decimal, validates exactly when `k` indexes the history. */
  lemma ValidateReplay(l: Ledger, k: int)
    ensures ValidateCommand(l, "REPLAY:" + IntToString(k)) <==> 1 <= k <= |l.history|
  {
    var d := IntToString(k);
    var s := "REPLAY:" + d;
    PrefixOfConcat("REPLAY:", d);
    IntToStringPlain(k);
    ReplayPiece(d);
    ParseIntToString(k);
    ValidateIndexed(l, s, k);
  }

  /** A `REPLAY:` text whose index field reads `k` validates exactly when `k` is in range. */
  lemma ValidateIndexed(l: Ledger, s: String, k: int)
    requires StartsWith(s, "REPLAY:") && ReplayIndex(s) == Some(k)
    ensures ValidateCommand(l, s) <==> 1 <= k <= |l.history|
  {
  }

  /** The index field of `REPLAY:` followed by text without a `:`. */
  lemma ReplayPiece(d: String)
    requires ':' !in d
    ensures ReplayIndex("REPLAY:" + d) == ParseInt(Strip(d))
  {
    SplitAfterColon("REPLAY:", d);
    SplitWithout(d);
  }

  /** Every text under one of the four other prefixes validates. */
  lemma ValidatePlain(l: Ledger, p: String, rest: String)
    requires p == "CMD:" || p == "CODE:" || p == "INFO:" || p == "FILE:"
    ensures ValidateCommand(l, p + rest)
  {
    PrefixOfConcat(p, rest);
    CharBlocks(p + rest, "REPLAY:", 0);
  }

  /** An empty text or an unknown prefix never validates. */
  lemma RejectUnknownPrefix(l: Ledger)
    ensures !ValidateCommand(l, "")
    ensures !ValidateCommand(l, "INVALID:test")
  {
    var s := "INVALID:test";
    CharBlocks(s, "CMD:", 0);
    CharBlocks(s, "CODE:", 0);
    CharBlocks(s, "INFO:", 2);
    CharBlocks(s, "FILE:", 0);
    CharBlocks(s, "REPLAY:", 0);
  }

  /** A replay whose index is not a number never validates. */
  lemma RejectReplayWord(l: Ledger)
    ensures !ValidateCommand(l, "REPLAY:invalid")
  {
    assert "REPLAY:" + "invalid" == "REPLAY:invalid";
    ReplayPiece("invalid");
    InvalidIsNoNumber();
  }

  lemma InvalidIsNoNumber()
    ensures ParseInt(Strip("invalid")) == None
  {
    StripNoEdgeSpace("invalid");
    ParseNonNumeric("invalid");
  }

  /** The accepted examples: a shell command, a code snippet and an info request. */
  lemma AcceptExamples(l: Ledger)
    ensures ValidateCommand(l, "CMD:test")
    ensures ValidateCommand(l, "CODE:print('test')")
    ensures ValidateCommand(l, "INFO:status")
  {
    ValidatePlain(l, "CMD:", "test");
    assert "CMD:" + "test" == "CMD:test";
    ValidatePlain(l, "CODE:", "print('test')");
    assert "CODE:" + "print('test')" == "CODE:print('test')";
    ValidatePlain(l, "INFO:", "status");
    assert "INFO:" + "status" == "INFO:status";
  }

  // ------------------------------------------------------------ the log file

  /** A log line that records a command: it opens with `[` and mentions `COMMAND:`. */
  predicate IsCommandLine(line: String) {
    StartsWith(line, "[") && Contains(line, "COMMAND:")
  }

  /** `line.split("COMMAND:", 1)[1].strip()` */
  function CommandOfLine(line: String): String
    requires Contains(line, "COMMAND:")
  {
    Strip(line[Find(line, "COMMAND:") + 8..])
  }

  /**
    The commands recorded in the log from line `i` on: every third line, as
    long as a line follows it.
   */
  function LoggedCommands(lines: seq<String>, i: nat): (r: seq<String>)
    decreases |lines| - i
  {
    if i + 1 >= |lines| then []
    else
      var line := Strip(lines[i]);
      (if IsCommandLine(line) then [CommandOfLine(line)] else []) + LoggedCommands(lines, i + 3)
  }

  lemma SuffixStep<T>(all: seq<T>, n: nat, x: T, rest: seq<T>)
    requires n <= |all| && all[n..] == [x] + rest
    ensures n < |all| && all[n] == x && all[n + 1..] == rest
  {
    assert all[n..][0] == all[n];
    assert all[n + 1..] == all[n..][1..];
  }

  /** `_get_command_by_id(k)` on the lines of the command log. */
  method GetCommandById(lines: seq<String>, k: int) returns (r: Option<String>)
    ensures r.Some? <==> 1 <= k <= |LoggedCommands(lines, 0)|
    ensures r.Some? ==> r.value == LoggedCommands(lines, 0)[k - 1]
  {
    ghost var all := LoggedCommands(lines, 0);
    var count := 0;
    var i := 0;
    while i < |lines|
      invariant count <= |all| && all[count..] == LoggedCommands(lines, i)
      invariant count < k || k < 1
      decreases |lines| - i
    {
      if i + 1 >= |lines| {
        break;
      }
      var line := Strip(lines[i]);
      if IsCommandLine(line) {
        SuffixStep(all, count, CommandOfLine(line), LoggedCommands(lines, i + 3));
        count := count + 1;
        if count == k {
          return Some(CommandOfLine(line));
        }
      }
      i := i + 3;
    }
    return None;
  }
}


=== FILE: library.dfy ===
/**
  The command library: how the table of named commands is assembled from
  the constant command tables, and how a table command is run through the
  guards, the output limit and a time-limited result cache.
 */
module Library {
  import opened Wrappers
  import opened Text
  import Server

  // ------------------------------------------------------------ the table

  /** What a library name stands for: a built-in Python function, or a shell command line. */
  datatype Entry = Internal(name: String) | Shell(text: String)

  /** The names of `INTERNAL_COMMANDS`, in order. */
  const InternalNames: seq<String> := [
    "echo", "date", "time", "whoami", "hostname", "dir", "ls", "cat", "type", "help",
    "sysinfo", "processes", "network", "diskspace"]

  /** The keys of `SYSTEM_COMMANDS`, in order (iterating the dictionary gives its keys). */
  const SystemTable: seq<String> := [
    "echo", "dir", "cd", "pwd", "type", "copy", "move", "del", "mkdir", "rmdir", "cls", "ver",
    "time", "date", "whoami", "hostname"]

  /** The keys of `POWERSHELL_COMMANDS`, in order. */
  const PowerShellTable: seq<String> := [
    "Get-Content", "Set-Content", "Add-Content", "Get-ChildItem", "Copy-Item", "Move-Item",
    "Remove-Item", "New-Item", "Test-Path", "Get-Process", "Stop-Process", "Get-Service",
    "Start-Service", "Stop-Service", "Invoke-WebRequest"]

  /** The keys of `SECURITY_COMMANDS`, in order. */
  const SecurityTable: seq<String> := [
    "icacls", "netstat", "netsh", "tasklist", "taskkill", "sc", "reg", "gpupdate", "certutil",
    "sfc", "chkdsk", "cipher", "auditpol", "net", "firewall"]

  /** The command line behind the `open_ports` alias. */
  const OpenPorts: String := "netstat -abno | findstr \"LISTENING\""

  /** `ALIASES`, in order. */
  const Aliases: seq<(String, String)> := [
    ("open_ports", OpenPorts),
    ("running_processes", "tasklist /v"),
    ("network_connections", "netstat -ano"),
    ("system_info", "systeminfo"),
    ("users", "net user"),
    ("firewall_status", "netsh advfirewall show currentprofile"),
    ("installed_software", "wmic product get name,version"),
    ("services", "sc query"),
    ("startup_items", "wmic startup list full"),
    ("disk_info", "wmic logicaldisk get caption,description,freespace,size"),
    ("cpu_info", "wmic cpu get Name,NumberOfCores,MaxClockSpeed"),
    ("memory_info", "wmic memorychip get Capacity,Speed")]

  /** `r` keeps every entry of `lib`: nothing registered earlier is overwritten. */
  predicate Extends(lib: map<String, Entry>, r: map<String, Entry>) {
    forall k | k in lib :: k in r && r[k] == lib[k]
  }

  lemma AddNew(lib: map<String, Entry>, id: String, e: Entry)
    requires id !in lib
    ensures Extends(lib, lib[id := e])
    ensures lib[id := e].Keys == lib.Keys + {id}
  {
  }

  /** The internal commands, each under its own name. */
  function Internals(names: seq<String>): (lib: map<String, Entry>)
    ensures forall k | k in lib :: k in names && lib[k] == Internal(k)
    ensures forall i | 0 <= i < |names| :: names[i] in lib
  {
    if names == [] then map[]
    else Internals(names[..|names| - 1])[names[|names| - 1] := Internal(names[|names| - 1])]
  }

  /** `cmd.split('#', 1)[0].strip()`: the entry without its comment. */
  function CommentFree(cmd: String): (r: String)
    ensures '#' !in r
    ensures '#' !in cmd ==> r == Strip(cmd)
    ensures '#' in cmd ==> exists h | 0 <= h < |cmd| && cmd[h] == '#' && '#' !in cmd[..h] :: r == Strip(cmd[..h])
  {
    var h := Find(cmd, "#");
    FindChar(cmd, '#');
    var before := if h < 0 then cmd else cmd[..h];
    assert '#' !in before by {
      if h >= 0 {
        forall i | 0 <= i < h ensures cmd[i] != '#' {
          assert !OccursAt(cmd, "#", i);
          assert cmd[i..i + 1] == [cmd[i]];
        }
      }
    }
    var r := Strip(before);
    assert forall i | 0 <= i < |r| :: r[i] in before;
    r
  }

  /** `s.replace('-', '')` */
  function WithoutDashes(s: String): (r: String)
    ensures '-' !in r
    ensures |r| <= |s|
  {
    if s == [] then []
    else if s[0] == '-' then WithoutDashes(s[1..])
    else [s[0]] + WithoutDashes(s[1..])
  }

  /** The lower-cased first word of a non-blank text. */
  function FirstWord(parts: String): String {
    Lower(SplitFirstWord(parts).0)
  }

  /** Adds one entry of `SYSTEM_COMMANDS`: under its first word, unless that name is taken. */
  function AddSystem(lib: map<String, Entry>, cmd: String): (r: map<String, Entry>)
    ensures Extends(lib, r)
    ensures forall k | k in r && k !in lib :: r[k] == Shell(CommentFree(cmd))
    ensures CommentFree(cmd) == [] || FirstWord(CommentFree(cmd)) in lib ==> r == lib
    ensures CommentFree(cmd) != [] && FirstWord(CommentFree(cmd)) !in lib ==>
      r == lib[FirstWord(CommentFree(cmd)) := Shell(CommentFree(cmd))]
  {
    var parts := CommentFree(cmd);
    if parts == [] then lib
    else
      var id := FirstWord(parts);
      if id in lib then lib else AddNew(lib, id, Shell(parts)); lib[id := Shell(parts)]
  }

  /** The key of a PowerShell entry: `ps_` and its first word, lower-cased, without dashes. */
  function PowerShellKey(parts: String): (r: String)
    ensures StartsWith(r, "ps_")
  {
    PrefixOfConcat("ps_", WithoutDashes(FirstWord(parts)));
    "ps_" + WithoutDashes(FirstWord(parts))
  }

  /** Adds one entry of `POWERSHELL_COMMANDS`, run through `powershell`. */
  function AddPowerShell(lib: map<String, Entry>, cmd: String): (r: map<String, Entry>)
    ensures Extends(lib, r)
    ensures forall k | k in r && k !in lib :: k == PowerShellKey(CommentFree(cmd)) && r[k] == Shell("powershell " + CommentFree(cmd))
    ensures CommentFree(cmd) != [] && PowerShellKey(CommentFree(cmd)) !in lib ==>
      r == lib[PowerShellKey(CommentFree(cmd)) := Shell("powershell " + CommentFree(cmd))]
  {
    var parts := CommentFree(cmd);
    if parts == [] then lib
    else
      var id := PowerShellKey(parts);
      if id in lib then lib else AddNew(lib, id, Shell("powershell " + parts)); lib[id := Shell("powershell " + parts)]
  }

  /**
    The key a security entry asks for: `sec_` and its first word, with the
    second word added for `powershell`, `netsh` and `reg` when there is one.
   */
  function SecurityKey(parts: String): String {
    var words := Words(parts);
    var first := FirstWord(parts);
    if (first == "powershell" || first == "netsh" || first == "reg") && |words| > 1 then
      "sec_" + first + "_" + Lower(words[1])
    else "sec_" + first
  }

  /** The `n`-th candidate for a key: the key itself, then `key_1`, `key_2`, ... */
  function Candidate(key: String, n: nat): String {
    if n == 0 then key else key + "_" + NatToString(n)
  }

  /** Different counters give different candidates. */
  lemma CandidateInjective(key: String, m: nat, n: nat)
    requires Candidate(key, m) == Candidate(key, n)
    ensures m == n
  {
    if m != 0 && n != 0 {
      var a, b := key + "_" + NatToString(m), key + "_" + NatToString(n);
      assert a[|key| + 1..] == NatToString(m);
      assert b[|key| + 1..] == NatToString(n);
      NatToStringInjective(m, n);
    }
  }

  /** The candidates tried before the `n`-th. */
  ghost function Tried(key: String, n: nat): set<String> {
    if n == 0 then {} else Tried(key, n - 1) + {Candidate(key, n - 1)}
  }

  lemma {:induction false} TriedSize(key: String, n: nat)
    ensures |Tried(key, n)| == n
    ensures forall x | x in Tried(key, n) :: exists j :: 0 <= j < n && x == Candidate(key, j)
  {
    if n > 0 {
      TriedSize(key, n - 1);
      if Candidate(key, n - 1) in Tried(key, n - 1) {
        var j :| 0 <= j < n - 1 && Candidate(key, n - 1) == Candidate(key, j);
        CandidateInjective(key, n - 1, j);
      }
    }
  }

  lemma {:induction false} SubsetSize(a: set<String>, b: set<String>)
    requires a <= b
    ensures |a| <= |b|
    decreases |a|
  {
    if a != {} {
      var x :| x in a;
      SubsetSize(a - {x}, b - {x});
    }
  }

  /** The uniqueness loop: the first candidate from the `n`-th on that is not yet a key. */
  function FreeCandidate(keys: set<String>, key: String, n: nat): (r: nat)
    requires Tried(key, n) <= keys
    ensures n <= r && Candidate(key, r) !in keys
    ensures forall j | n <= j < r :: Candidate(key, j) in keys
    decreases |keys| - n
  {
    if Candidate(key, n) !in keys then n
    else
      TriedSize(key, n + 1);
      SubsetSize(Tried(key, n + 1), keys);
      FreeCandidate(keys, key, n + 1)
  }

  /** `Candidate(key, j)` is the first candidate not among `keys`. */
  predicate FirstFree(keys: set<String>, key: String, j: nat) {
    Candidate(key, j) !in keys && forall i | 0 <= i < j :: Candidate(key, i) in keys
  }

  /** There is only one first free candidate. */
  lemma FirstFreeUnique(keys: set<String>, key: String, i: nat, j: nat)
    requires FirstFree(keys, key, i) && FirstFree(keys, key, j)
    ensures i == j
  {
  }

  /** Adds one entry of `SECURITY_COMMANDS` under the first free candidate of its key. */
  function AddSecurity(lib: map<String, Entry>, cmd: String): (r: map<String, Entry>)
    ensures Extends(lib, r)
    ensures CommentFree(cmd) != [] ==> |r.Keys| == |lib.Keys| + 1
    ensures forall k | k in r && k !in lib :: r[k] == Shell(CommentFree(cmd))
    ensures CommentFree(cmd) == [] ==> r == lib
    ensures CommentFree(cmd) != [] ==> forall j | FirstFree(lib.Keys, SecurityKey(CommentFree(cmd)), j) ::
      r == lib[Candidate(SecurityKey(CommentFree(cmd)), j) := Shell(CommentFree(cmd))]
  {
    var parts := CommentFree(cmd);
    if parts == [] then lib else AddFirstFree(lib, SecurityKey(parts), Shell(parts))
  }

  /** `e` added under the first free candidate of `key`. */
  function AddFirstFree(lib: map<String, Entry>, key: String, e: Entry): (r: map<String, Entry>)
    ensures Extends(lib, r)
    ensures |r.Keys| == |lib.Keys| + 1
    ensures forall k | k in r && k !in lib :: r[k] == e
    ensures forall j | FirstFree(lib.Keys, key, j) :: r == lib[Candidate(key, j) := e]
  {
    var n := FreeCandidate(lib.Keys, key, 0);
    AddNew(lib, Candidate(key, n), e);
    assert forall j | FirstFree(lib.Keys, key, j) :: j == n by {
      forall j | FirstFree(lib.Keys, key, j) ensures j == n {
        FirstFreeUnique(lib.Keys, key, j, n);
      }
    }
    lib[Candidate(key, n) := e]
  }

  /** Adds an alias unless its name is taken. */
  function AddAlias(lib: map<String, Entry>, alias: (String, String)): (r: map<String, Entry>)
    ensures Extends(lib, r)
    ensures alias.0 !in lib ==> r == lib[alias.0 := Shell(alias.1)]
  {
    if alias.0 in lib then lib else AddNew(lib, alias.0, Shell(alias.1)); lib[alias.0 := Shell(alias.1)]
  }

  /** Which of the four tables a loop walks. */
  datatype Table = SystemT | PowerShellT | SecurityT

  function AddOne(t: Table, lib: map<String, Entry>, cmd: String): (r: map<String, Entry>)
    ensures Extends(lib, r)
  {
    match t
      case SystemT => AddSystem(lib, cmd)
      case PowerShellT => AddPowerShell(lib, cmd)
      case SecurityT => AddSecurity(lib, cmd)
  }

  /** One of the module-level loops over a table. */
  function AddAll(t: Table, lib: map<String, Entry>, cmds: seq<String>): (r: map<String, Entry>)
    ensures Extends(lib, r)
    ensures forall k | k in r && k !in lib :: r[k].Shell?
    decreases |cmds|
  {
    if cmds == [] then lib
    else
      var next := AddOne(t, lib, cmds[0]);
      assert forall k | k in next && k !in lib :: next[k].Shell?;
      AddAll(t, next, cmds[1..])
  }

  /** The alias loop. */
  function AddAliases(lib: map<String, Entry>, aliases: seq<(String, String)>): (r: map<String, Entry>)
    ensures Extends(lib, r)
    ensures forall k | k in r && k !in lib :: r[k].Shell?
    decreases |aliases|
  {
    if aliases == [] then lib else AddAliases(AddAlias(lib, aliases[0]), aliases[1..])
  }

  /** The four loops, run in order over what is already registered. */
  function Build(base: map<String, Entry>, system: seq<String>, powershell: seq<String>,
                 security: seq<String>, aliases: seq<(String, String)>): (r: map<String, Entry>)
    ensures Extends(base, r)
    ensures forall k | k in r && k !in base :: r[k].Shell?
  {
    var lib := AddAll(SystemT, base, system);
    var lib' := AddAll(PowerShellT, lib, powershell);
    var lib'' := AddAll(SecurityT, lib', security);
    AddAliases(lib'', aliases)
  }

  /**
    The library the module builds from its tables. No table overwrites an
    internal command: every internal name keeps its Python function, and
    every other name is a shell command.
   */
  function LibraryOf(internals: seq<String>, system: seq<String>, powershell: seq<String>,
                     security: seq<String>, aliases: seq<(String, String)>): (lib: map<String, Entry>)
    ensures forall i | 0 <= i < |internals| :: internals[i] in lib && lib[internals[i]] == Internal(internals[i])
    ensures forall k | k in lib && lib[k].Internal? :: k in internals && lib[k] == Internal(k)
  {
    Build(Internals(internals), system, powershell, security, aliases)
  }

  /** `COMMAND_LIBRARY` */
  const CommandLibrary: map<String, Entry> :=
    LibraryOf(InternalNames, SystemTable, PowerShellTable, SecurityTable, Aliases)

  /** A server environment whose library is the one this module builds, as the command server imports it. */
  predicate Serves(env: Server.Env) {
    env.library == CommandLibrary.Keys
  }

  /**
    Under that environment, a command whose first word names an internal
    function takes the library branch of `handle_cmd`, never the shell.
   */
  lemma InternalReached(env: Server.Env, cmd: String, i: nat)
    requires Serves(env) && i < |InternalNames|
    requires Lower(SplitFirstWord(Strip(cmd)).0) == InternalNames[i]
    ensures Server.Early(env, cmd)
  {
  }

  /** An entry that is empty once its comment is dropped adds nothing. */
  lemma CommentOnlySkipped(t: Table, lib: map<String, Entry>, cmd: String)
    requires CommentFree(cmd) == []
    ensures AddOne(t, lib, cmd) == lib
  {
  }

  /** A single word is its own first word. */
  lemma WordAlone(s: String)
    requires IsWord(s)
    ensures SplitFirstWord(s).0 == s
  {
  }

  /** An entry without a comment and without surrounding whitespace is taken as it is. */
  lemma CommentFreePlain(s: String)
    requires '#' !in s
    requires s == [] || (!IsSpace(s[0]) && !IsSpace(s[|s| - 1]))
    ensures CommentFree(s) == s
  {
    FindChar(s, '#');
    StripNoEdgeSpace(s);
  }

  /**
    A one-word PowerShell entry such as `Get-Content` is registered under
    `ps_` and the word lower-cased without its dashes (`ps_getcontent`).
   */
  lemma PowerShellWordKey(w: String)
    requires IsWord(w) && '#' !in w
    ensures PowerShellKey(CommentFree(w)) == "ps_" + WithoutDashes(Lower(w))
  {
    CommentFreePlain(w);
    WordAlone(w);
  }

  // --------------------------------------------------------- running a command

  /** The longest command line the library runs. */
  const MaxCommand: nat := 500

  /** The most output returned before it is cut. */
  const MaxOutput: nat := 1000

  const TooLong: String := "Hiba: Túl hosszú parancs."
  const Blocked: String := "Hiba: Potenciálisan veszélyes parancs blokkolva biztonsági okokból."
  const CutMark: String := "... [kimenet levágva]"
  const NoOutput: String := "(Nincs kimenet)"

  /** `_CACHE_TTL`, in seconds. */
  const CacheTtl: real := 300.0

  /** `_MAX_CACHE_SIZE` */
  const MaxCache: nat := 100

  /** How many entries a full cache drops at once. */
  const EvictCount: nat := 10

  /** One of the harmful patterns occurs in the lower-cased command line. */
  predicate Harmful(lowered: String) {
    || Contains(lowered, "rm -rf") || Contains(lowered, "deltree") || Contains(lowered, "format")
    || Contains(lowered, ":(){") || Contains(lowered, "sudo rm") || Contains(lowered, ">")
    || Contains(lowered, "|")
  }

  /**
    The output kept from a finished run: stripped stdout, else stripped
    stderr, cut at 1000 characters with a mark, or a placeholder when both
    are blank.
   */
  function KeptOutput(stdout: String, stderr: String): (r: String)
    ensures r != []
    ensures |r| <= MaxOutput + |CutMark|
    ensures IsBlank(stdout) && IsBlank(stderr) ==> r == NoOutput
    ensures var o := if IsBlank(stdout) then Strip(stderr) else Strip(stdout);
      && (0 < |o| <= MaxOutput ==> r == o)
      && (|o| > MaxOutput ==> r == o[..MaxOutput] + CutMark)
  {
    var o := if IsBlank(stdout) then Strip(stderr) else Strip(stdout);
    var cut := if |o| > MaxOutput then o[..MaxOutput] + CutMark else o;
    if cut != [] then cut else NoOutput
  }

  /** A cached result, in the dictionary's insertion order. */
  datatype Cached = Cached(key: String, result: String, time: real)

  /** No key twice. */
  predicate CacheOk(cache: seq<Cached>) {
    forall i, j | 0 <= i < j < |cache| :: cache[i].key != cache[j].key
  }

  /** The position of a key in the cache, if it is there. */
  function Position(cache: seq<Cached>, key: String): (r: Option<nat>)
    ensures r.Some? ==> r.value < |cache| && cache[r.value].key == key
    ensures r.Some? ==> forall i | 0 <= i < r.value :: cache[i].key != key
    ensures r.None? ==> forall i | 0 <= i < |cache| :: cache[i].key != key
  {
    if cache == [] then None
    else if cache[0].key == key then Some(0)
    else match Position(cache[1..], key)
      case None => None
      case Some(i) => Some(i + 1)
  }

  /** The first of the oldest entries: what a stable sort by time puts first. */
  function Oldest(cache: seq<Cached>): (r: nat)
    requires cache != []
    ensures r < |cache|
    ensures forall j | 0 <= j < |cache| :: cache[r].time <= cache[j].time
    ensures forall j | 0 <= j < r :: cache[r].time < cache[j].time
  {
    if |cache| == 1 then 0
    else
      var k := Oldest(cache[1..]) + 1;
      if cache[k].time < cache[0].time then k else 0
  }

  function Without(cache: seq<Cached>, i: nat): (r: seq<Cached>)
    requires i < |cache|
    ensures |r| == |cache| - 1
    ensures forall e | e in r :: e in cache
    ensures forall j | 0 <= j < |cache| && j != i :: cache[j] in r
    ensures CacheOk(cache) ==> CacheOk(r)
  {
    assert forall j | 0 <= j < |cache| - 1 :: (cache[..i] + cache[i + 1..])[j] == if j < i then cache[j] else cache[j + 1];
    cache[..i] + cache[i + 1..]
  }

  /**
    The `n` oldest entries removed, ties going to the earlier entry: the
    first `n` keys of the stable sort by time, deleted.
   */
  function Evict(cache: seq<Cached>, n: nat): (r: seq<Cached>)
    ensures |r| == if n <= |cache| then |cache| - n else 0
    ensures forall e | e in r :: e in cache
    ensures forall a, b | a in cache && a !in r && b in r :: a.time <= b.time
    ensures CacheOk(cache) ==> CacheOk(r)
  {
    if n == 0 || cache == [] then cache
    else
      var o := Oldest(cache);
      var rest := Without(cache, o);
      var r := Evict(rest, n - 1);
      assert forall a | a in cache && a !in rest :: a == cache[o];
      r
  }

  /** The cache after storing a result: in place for a known key, appended for a new one. */
  function Store(cache: seq<Cached>, key: String, result: String, now: real): (r: seq<Cached>)
    ensures |r| == |cache| + (if Position(cache, key).None? then 1 else 0)
    ensures Position(r, key).Some? && r[Position(r, key).value] == Cached(key, result, now)
    ensures forall e | e in r && e.key != key :: e in cache
    ensures forall i | 0 <= i < |cache| && cache[i].key != key :: cache[i] in r
    ensures CacheOk(cache) ==> CacheOk(r)
  {
    match Position(cache, key)
      case None =>
        var r := cache + [Cached(key, result, now)];
        assert r[|cache|].key == key;
        r
      case Some(i) =>
        var r := cache[i := Cached(key, result, now)];
        assert forall j | 0 <= j < |cache| && j != i :: r[j] == cache[j];
        assert r[i].key == key;
        var p := Position(r, key);
        assert p.Some?;
        assert p.value == i;
        r
  }

  /** A cache entry for the key younger than the time to live. */
  predicate FreshHit(cache: seq<Cached>, key: String, now: real) {
    Position(cache, key).Some? && now - cache[Position(cache, key).value].time < CacheTtl
  }

  /** The command line: the command, then the arguments after a space when there are any. */
  function FullCommand(cmd: String, args: String): String {
    if args != [] then cmd + " " + args else cmd
  }

  /** The cache key: the command line and the machine's name. */
  function CacheKey(full: String, node: String): String {
    full + "__" + node
  }

  /**
    `_execute_command`: the answer for a table command and the cache after
    it. `node` is `platform.node()`, `now` the clock when the cache is
    consulted, `done` the clock read again when a result is stored, and
    `run` the shell with a time limit in seconds.
   */
  function Execute(cache: seq<Cached>, cmd: String, args: String, node: String, now: real, done: real,
                   run: (String, nat) -> Server.Outcome): (r: (String, seq<Cached>))
    ensures |cache| <= MaxCache ==> |r.1| <= MaxCache
    ensures CacheOk(cache) ==> CacheOk(r.1)
    ensures |cache| >= MaxCache && !FreshHit(cache, CacheKey(FullCommand(cmd, args), node), now) ==>
      |r.1| <= |cache| - EvictCount + 1
    ensures FreshHit(cache, CacheKey(FullCommand(cmd, args), node), now) ==>
      r == (cache[Position(cache, CacheKey(FullCommand(cmd, args), node)).value].result, cache)
    ensures var full := FullCommand(cmd, args);
      !FreshHit(cache, CacheKey(full, node), now) && |full| <= MaxCommand && !Harmful(Lower(full)) && run(full, 15).Exited? ==>
        && r.0 == KeptOutput(run(full, 15).stdout, run(full, 15).stderr)
        && Position(r.1, CacheKey(full, node)).Some?
        && r.1[Position(r.1, CacheKey(full, node)).value] == Cached(CacheKey(full, node), r.0, done)
  {
    var full := FullCommand(cmd, args);
    var key := CacheKey(full, node);
    if FreshHit(cache, key, now) then (cache[Position(cache, key).value].result, cache)
    else
      var kept := if |cache| >= MaxCache then Evict(cache, EvictCount) else cache;
      if |full| > MaxCommand then (TooLong, kept)
      else if Harmful(Lower(full)) then (Blocked, kept)
      else match run(full, 15)
        case Exited(_, stdout, stderr) =>
          var out := KeptOutput(stdout, stderr);
          (out, Store(kept, key, out, done))
        case TimedOut => ("Hiba: Rendszerparancs időtúllépés.", kept)
        case Raised(e) => ("Rendszerparancs hiba: " + e, kept)
  }

  /**
    A refused command line is never run and never cached: the answer is the
    refusal whatever the shell would do, and the cache only loses entries.
   */
  lemma RefusedNeverRuns(cache: seq<Cached>, cmd: String, args: String, node: String, now: real, done: real,
                         run: (String, nat) -> Server.Outcome)
    requires !FreshHit(cache, CacheKey(FullCommand(cmd, args), node), now)
    requires |FullCommand(cmd, args)| > MaxCommand || Harmful(Lower(FullCommand(cmd, args)))
    ensures Execute(cache, cmd, args, node, now, done, run).0 == if |FullCommand(cmd, args)| > MaxCommand then TooLong else Blocked
    ensures forall e | e in Execute(cache, cmd, args, node, now, done, run).1 :: e in cache
  {
  }

  /** The patterns are matched in any case. */
  lemma HarmfulAnyCase(full: String, x: String)
    requires Contains(full, x)
    requires Lower(x) in ["rm -rf", "deltree", "format", ":(){", "sudo rm", ">", "|"]
    ensures Harmful(Lower(full))
  {
    LowerContains(full, x);
  }

  /** The `open_ports` alias pipes into `findstr`, so it is always refused unless a fresh result is cached. */
  lemma OpenPortsBlocked(cache: seq<Cached>, args: String, node: String, now: real, done: real,
                         run: (String, nat) -> Server.Outcome)
    requires !FreshHit(cache, CacheKey(FullCommand(OpenPorts, args), node), now)
    ensures Execute(cache, OpenPorts, args, node, now, done, run).0 in {TooLong, Blocked}
  {
    var full := FullCommand(OpenPorts, args);
    assert full[..|OpenPorts|] == OpenPorts;
    assert OpenPorts[14] == '|';
    assert full[14..15] == "|";
    ContainsIntro(full, "|", 14);
    assert Lower("|") == "|";
    HarmfulAnyCase(full, "|");
  }

  /**
    A result that was run and cached is answered from the cache for five
    minutes after it was stored, whatever the shell would now say.
   */
  lemma CachedRepeat(cache: seq<Cached>, cmd: String, args: String, node: String, now: real, done: real,
                     later: real, again: real,
                     run: (String, nat) -> Server.Outcome, rerun: (String, nat) -> Server.Outcome)
    requires !FreshHit(cache, CacheKey(FullCommand(cmd, args), node), now)
    requires |FullCommand(cmd, args)| <= MaxCommand && !Harmful(Lower(FullCommand(cmd, args)))
    requires run(FullCommand(cmd, args), 15).Exited?
    requires later < done + CacheTtl
    ensures var first := Execute(cache, cmd, args, node, now, done, run);
      Execute(first.1, cmd, args, node, later, again, rerun) == first
  {
  }

  /** A refused command line leaves no cache entry behind, so from an empty cache it is refused every time. */
  lemma RefusedNotCached(cache: seq<Cached>, cmd: String, args: String, node: String, now: real, done: real,
                         run: (String, nat) -> Server.Outcome)
    requires Harmful(Lower(FullCommand(cmd, args)))
    requires Position(cache, CacheKey(FullCommand(cmd, args), node)).None?
    ensures Position(Execute(cache, cmd, args, node, now, done, run).1, CacheKey(FullCommand(cmd, args), node)).None?
  {
    var key := CacheKey(FullCommand(cmd, args), node);
    var r := Execute(cache, cmd, args, node, now, done, run).1;
    RefusedNeverRuns(cache, cmd, args, node, now, done, run);
    forall i | 0 <= i < |r| ensures r[i].key != key {
      assert r[i] in cache;
    }
  }
}

=== FILE: router.dfy ===
/**
  The response classifier: an ordered chain of rules that sends every reply
  to exactly one of five categories.
 */
module Router {
  import opened Wrappers
  import opened Text
  import opened Json

  datatype Category = ERROR | ECHO | CODE | JSON | UNKNOWN

  /** The classifier's argument: Python lets any object through. */
  datatype Input = Text(text: String) | NotText

  /** Messages that may carry a JSON payload after their prefix. */
  predicate IsCommand(r: String) {
    StartsWith(r, "CMD:") || StartsWith(r, "ECHO:")
  }

  /** `{...}` or `[...]`, judged by the first and last characters only. */
  predicate Bracketed(c: String) {
    (StartsWith(c, "{") && EndsWith(c, "}")) || (StartsWith(c, "[") && EndsWith(c, "]"))
  }

  /** Everything after the first `:` of a command. */
  function AfterColon(r: String): String
    requires IsCommand(r)
  {
    Drop(r, (Find(r, ":") + 1) as nat)
  }

  /** One leading `FORCE:` and the whitespace after it removed. */
  function DropForce(rest: String): String {
    if StartsWith(rest, "FORCE:") then Strip(rest[6..]) else rest
  }

  /** What follows the first `:` of a command, stripped, without a leading `FORCE:`. */
  function Payload(r: String): String
    requires IsCommand(r)
  {
    DropForce(Strip(AfterColon(r)))
  }

  /**
    The second JSON test on a payload. Python's `and` binds tighter than
    `or`, so brackets alone qualify the payload; braces qualify it only after
    `echo`.
   */
  predicate EchoCandidate(c: String) {
    (StartsWith(c, "echo") && '{' in c && '}' in c) || ('[' in c && ']' in c)
  }

  /** The first `{` or `[` of the payload, or -1 when there is neither. */
  function FirstOpen(c: String): (k: int)
    ensures k == -1 || (0 <= k < |c| && (c[k] == '{' || c[k] == '['))
    ensures k == -1 <==> ('{' !in c && '[' !in c)
  {
    var a := Find(c, "{");
    var b := Find(c, "[");
    FindChar(c, '{');
    FindChar(c, '[');
    if a < 0 then b else if b < 0 then a else if a < b then a else b
  }

  /** No bracket comes before the one `FirstOpen` finds. */
  lemma FirstOpenFirst(c: String)
    ensures forall j | 0 <= j < |c| && (FirstOpen(c) == -1 || j < FirstOpen(c)) :: c[j] != '{' && c[j] != '['
  {
    FindChar(c, '{');
    FindChar(c, '[');
  }

  /** The first rule: a command whose payload is, or ends in, a JSON document. */
  predicate EmbeddedJson(r: String)
    requires IsCommand(r)
  {
    var c := Payload(r);
    || (Bracketed(c) && Loads(c))
    || (EchoCandidate(c) && FirstOpen(c) >= 0 && Loads(c[FirstOpen(c)..]))
  }

  /** `w`, in any case, then `:` or whitespace, at the start of `r`. */
  predicate ErrorWordAt(r: String, w: String) {
    |w| < |r| && StartsWithIgnoreCase(r, w) && (r[|w|] == ':' || IsSpace(r[|w|]))
  }

  /** The error rule: the text opens with one of the error words. */
  predicate IsErrorText(r: String) {
    || ErrorWordAt(r, "error") || ErrorWordAt(r, "hiba") || ErrorWordAt(r, "exception")
    || ErrorWordAt(r, "failed") || ErrorWordAt(r, "sikertelen")
  }

  /** The echo rule. */
  predicate IsEchoText(r: String) {
    || StartsWith(r, "CMD:") || StartsWith(r, "INFO:") || StartsWith(r, "ECHO:")
    || StartsWith(r, "REPLAY:") || StartsWith(r, "OUTPUT:") || StartsWith(r, "RESPONSE:")
  }

  /** Python's `\w`, restricted to ASCII. */
  predicate IsWordChar(c: char) {
    ('a' <= c <= 'z') || ('A' <= c <= 'Z') || ('0' <= c <= '9') || c == '_'
  }

  /** "python", in any case, among the first 20 characters. */
  predicate MentionsPython(r: String) {
    Contains(Lower(Take(r, 20)), "python")
  }

  /** The code rule: a keyword, a decorator or a fence at the start, or "python" early on. */
  predicate IsCodeText(r: String) {
    || StartsWith(r, "def ") || StartsWith(r, "class ")
    || StartsWith(r, "import ") || StartsWith(r, "from ")
    || (|r| >= 2 && r[0] == '@' && IsWordChar(r[1]))
    || StartsWith(r, "```")
    || MentionsPython(r)
  }

  /** The last rule: the whole text is one JSON document. */
  predicate IsJsonText(r: String) {
    Bracketed(r) && Loads(r)
  }

  /** `route_response` */
  function Route(x: Input): (c: Category)
    ensures x.NotText? ==> c == ERROR
    ensures x.Text? && IsBlank(x.text) ==> c == ERROR
    ensures x.Text? && !IsBlank(x.text) ==> c == RouteStripped(Strip(x.text))
  {
    match x
    case NotText => ERROR
    case Text(t) => if IsBlank(t) then ERROR else RouteStripped(Strip(t))
  }

  /** The rule chain on stripped, non-empty text. */
  function RouteStripped(r: String): (c: Category)
    ensures c == ECHO ==> IsEchoText(r)
    ensures c == CODE ==> IsCodeText(r)
    ensures c == UNKNOWN ==> !IsJsonText(r) && !IsCodeText(r) && !IsEchoText(r) && !IsErrorText(r)
    ensures c == ERROR <==> !(IsCommand(r) && EmbeddedJson(r)) && IsErrorText(r)
    ensures c == JSON ==> (IsCommand(r) && EmbeddedJson(r)) || IsJsonText(r)
  {
    if IsCommand(r) && EmbeddedJson(r) then JSON
    else if IsErrorText(r) then ERROR
    else if IsEchoText(r) then ECHO
    else if IsCodeText(r) then CODE
    else if IsJsonText(r) then JSON
    else UNKNOWN
  }

  // ---------------------------------------------------------------- lemmas

  /** What an error word allows as the first two characters. */
  lemma ErrorTextStart(r: String)
    requires IsErrorText(r)
    ensures |r| >= 2
    ensures r[0] in "eEhHfFsS\U{17F}"
    ensures r[0] in "eE" ==> r[1] in "rRxX"
  {
  }

  /** A text with prefix `p` begins with the first two characters of `p`. */
  lemma PrefixStart(r: String, p: String)
    requires |p| >= 2 && StartsWith(r, p)
    ensures r[0] == p[0] && r[1] == p[1]
  {
    assert r[..|p|][0] == r[0] && r[..|p|][1] == r[1];
  }

  /** No command or echo prefix opens with an error word. */
  lemma ErrorTextNotPrefixed(r: String)
    requires IsErrorText(r)
    ensures !IsCommand(r) && !IsEchoText(r)
  {
    ErrorTextStart(r);
    var ps := ["CMD:", "INFO:", "ECHO:", "REPLAY:", "OUTPUT:", "RESPONSE:"];
    forall p | p in ps ensures !StartsWith(r, p) {
      if StartsWith(r, p) {
        PrefixStart(r, p);
      }
    }
  }

  /** The text is an error exactly when it is blank or opens with an error word. */
  lemma RouteErrorIff(t: String)
    ensures Route(Text(t)) == ERROR <==> IsBlank(t) || IsErrorText(Strip(t))
  {
    if !IsBlank(t) {
      var r := Strip(t);
      if IsErrorText(r) {
        ErrorTextNotPrefixed(r);
      }
    }
  }

  /** Echo is everything with an echo prefix that does not carry a JSON payload. */
  lemma RouteEchoIff(t: String)
    ensures Route(Text(t)) == ECHO <==>
      && !IsBlank(t)
      && IsEchoText(Strip(t))
      && !(IsCommand(Strip(t)) && EmbeddedJson(Strip(t)))
  {
    if !IsBlank(t) {
      var r := Strip(t);
      if IsErrorText(r) {
        ErrorTextNotPrefixed(r);
      }
    }
  }

  /** Text opening with a bracket falls through every rule before the code rule. */
  lemma BracketOpening(r: String)
    requires r != [] && (r[0] == '[' || r[0] == '{')
    ensures !IsCommand(r) && !IsErrorText(r) && !IsEchoText(r)
    ensures IsCodeText(r) <==> MentionsPython(r)
  {
    if IsErrorText(r) {
      ErrorTextStart(r);
    }
    CharBlocks(r, "CMD:", 0);
    CharBlocks(r, "INFO:", 0);
    CharBlocks(r, "ECHO:", 0);
    CharBlocks(r, "REPLAY:", 0);
    CharBlocks(r, "OUTPUT:", 0);
    CharBlocks(r, "RESPONSE:", 0);
    CharBlocks(r, "def ", 0);
    CharBlocks(r, "class ", 0);
    CharBlocks(r, "import ", 0);
    CharBlocks(r, "from ", 0);
    CharBlocks(r, "```", 0);
  }

  /** The compact serialisation of an array or object opens and closes with its brackets. */
  lemma EncodeBrackets(v: Doc)
    requires v.Arr? || v.Obj?
    ensures |Encode(v)| >= 2
    ensures v.Arr? ==> Encode(v)[0] == '[' && Encode(v)[|Encode(v)| - 1] == ']'
    ensures v.Obj? ==> Encode(v)[0] == '{' && Encode(v)[|Encode(v)| - 1] == '}'
  {
  }

  /** Text without whitespace at its ends reaches the rule chain unchanged. */
  lemma RouteTrimmed(t: String)
    requires t != [] && !IsSpace(t[0]) && !IsSpace(t[|t| - 1])
    ensures Route(Text(t)) == RouteStripped(t)
  {
    StripNoEdgeSpace(t);
  }

  /** A bracketed JSON document is JSON unless the code rule claims it first. */
  lemma RouteBracketed(r: String)
    requires r != [] && (r[0] == '[' || r[0] == '{')
    requires IsJsonText(r)
    ensures RouteStripped(r) == if MentionsPython(r) then CODE else JSON
  {
    BracketOpening(r);
  }

  /** The serialisation of an array or object is a bracketed JSON document. */
  lemma EncodedJsonText(v: Doc)
    requires v.Arr? || v.Obj?
    ensures IsJsonText(Encode(v))
  {
    var e := Encode(v);
    EncodeBrackets(v);
    assert e[..1] == [e[0]] && e[|e| - 1..] == [e[|e| - 1]];
    LoadsEncode(v);
  }

  /**
    A serialised array or object is routed JSON, unless "python" appears in
    its first 20 characters, in which case the earlier code rule claims it.
   */
  lemma RouteEncoded(v: Doc)
    requires v.Arr? || v.Obj?
    ensures Route(Text(Encode(v))) == if MentionsPython(Encode(v)) then CODE else JSON
  {
    var r := Encode(v);
    EncodeBrackets(v);
    RouteTrimmed(r);
    EncodedJsonText(v);
    RouteBracketed(r);
  }

  /** The first `:` of a command is the one that ends its prefix. */
  lemma CommandColon(prefix: String, rest: String)
    requires prefix == "CMD:" || prefix == "ECHO:"
    ensures IsCommand(prefix + rest)
    ensures AfterColon(prefix + rest) == rest
  {
    var r := prefix + rest;
    PrefixOfConcat(prefix, rest);
    FirstColon(prefix, rest);
    assert Drop(r, |prefix|) == rest;
  }

  /** A bracketed text has no whitespace at its ends. */
  predicate Delimited(e: String) {
    e != [] && (e[0] == '[' || e[0] == '{') && (e[|e| - 1] == ']' || e[|e| - 1] == '}')
  }

  /** `FORCE:` in front of a bracketed text is removed. */
  lemma ForcedPayload(e: String)
    requires Delimited(e)
    ensures DropForce(Strip("FORCE:" + e)) == e
  {
    var rest := "FORCE:" + e;
    assert rest[0] == 'F' && rest[|rest| - 1] == e[|e| - 1];
    StripNoEdgeSpace(rest);
    StripNoEdgeSpace(e);
    assert rest[..6] == "FORCE:" && rest[6..] == e;
  }

  /** A bracketed text on its own is kept. */
  lemma UnforcedPayload(e: String)
    requires Delimited(e)
    ensures DropForce(Strip(e)) == e
  {
    assert !IsSpace(e[0]) && !IsSpace(e[|e| - 1]);
    StripNoEdgeSpace(e);
    assert e[0] != 'F';
    CharBlocks(e, "FORCE:", 0);
  }

  /** The payload of `prefix`, optional `FORCE:`, then a bracketed text is that text. */
  lemma CommandPayload(prefix: String, force: bool, e: String)
    requires prefix == "CMD:" || prefix == "ECHO:"
    requires Delimited(e)
    ensures IsCommand(prefix + ((if force then "FORCE:" else "") + e))
    ensures Payload(prefix + ((if force then "FORCE:" else "") + e)) == e
  {
    var rest := (if force then "FORCE:" else "") + e;
    CommandColon(prefix, rest);
    if force {
      ForcedPayload(e);
    } else {
      assert rest == e;
      UnforcedPayload(e);
    }
  }

  /** A command whose payload is a bracketed JSON document is routed JSON. */
  lemma RouteCommandPayload(r: String)
    requires IsCommand(r) && IsJsonText(Payload(r))
    ensures RouteStripped(r) == JSON
  {
  }

  /**
    A command or echo message whose payload, after an optional `FORCE:`, is a
    serialised array or object is routed JSON.
   */
  lemma RouteCommandJson(v: Doc, prefix: String, force: bool)
    requires v.Arr? || v.Obj?
    requires prefix == "CMD:" || prefix == "ECHO:"
    ensures Route(Text(prefix + ((if force then "FORCE:" else "") + Encode(v)))) == JSON
  {
    var e := Encode(v);
    var r := prefix + ((if force then "FORCE:" else "") + e);
    EncodeBrackets(v);
    assert r[0] == prefix[0] && r[|r| - 1] == e[|e| - 1];
    RouteTrimmed(r);
    CommandPayload(prefix, force, e);
    EncodedJsonText(v);
    RouteCommandPayload(r);
  }

  // ------------------------------------------------------- concrete cases

  /** Whitespace alone is an error, not unknown. */
  lemma RouteSpaces()
    ensures Route(Text("   ")) == ERROR
    ensures Route(Text("")) == ERROR
    ensures Route(NotText) == ERROR
  {
  }

  /** Lower-casing introduces a `p` only where there was a `p` or a `P`. */
  lemma {:induction false} LowerNoP(s: String)
    requires 'p' !in s && 'P' !in s
    ensures 'p' !in Lower(s)
  {
    if s != [] {
      assert 'p' !in s[1..] && 'P' !in s[1..];
      LowerNoP(s[1..]);
    }
  }

  /** A text found in `s` brings its first character with it. */
  lemma FoundFirstChar(s: String, t: String)
    requires t != []
    ensures Contains(s, t) ==> t[0] in s
  {
    var i := Find(s, t);
    if i >= 0 {
      assert s[i..i + |t|][0] == s[i];
    }
  }

  /** Without a `p` in either case there is no "python" to find. */
  lemma NoPython(r: String)
    requires 'p' !in r && 'P' !in r
    ensures !MentionsPython(r)
  {
    var x := Take(r, 20);
    assert 'p' !in x && 'P' !in x;
    var y := Lower(x);
    LowerNoP(x);
    FoundFirstChar(y, "python");
  }

  /** The smallest documents are JSON. */
  lemma RouteEmptyObject()
    ensures Route(Text("{}")) == JSON
  {
    assert Encode(Obj([])) == "{}";
    NoPython("{}");
    RouteEncoded(Obj([]));
  }

  lemma RouteEmptyArray()
    ensures Route(Text("[]")) == JSON
  {
    assert Encode(Arr([])) == "[]";
    NoPython("[]");
    RouteEncoded(Arr([]));
  }

  /** A command with nothing but whitespace after its colon has an empty payload. */
  lemma BlankPayload(r: String)
    requires IsCommand(r) && IsBlank(AfterColon(r))
    ensures Payload(r) == []
  {
    assert Strip(AfterColon(r)) == [];
    DropForceEmpty();
  }

  lemma DropForceEmpty()
    ensures DropForce([]) == []
  {
  }

  /** An empty payload carries no JSON. */
  lemma EmptyPayload(r: String)
    requires IsCommand(r) && Payload(r) == []
    ensures !EmbeddedJson(r)
  {
    NoJsonIn([]);
  }

  lemma NoJsonIn(c: String)
    requires c == []
    ensures !Bracketed(c) && !EchoCandidate(c)
  {
  }

  /** A bare prefix is an echo. */
  lemma RouteBarePrefix()
    ensures Route(Text("CMD:")) == ECHO
  {
    var r := "CMD:";
    RouteTrimmed(r);
    CommandColon("CMD:", "");
    assert "CMD:" + "" == r;
    assert IsBlank(AfterColon(r));
    BlankPayload(r);
    EmptyPayload(r);
    if IsErrorText(r) {
      ErrorTextStart(r);
    }
  }

  /** An error word must be followed by something: bare "ERROR" is unknown. */
  lemma RouteBareErrorWord()
    ensures Route(Text("ERROR")) == UNKNOWN
  {
    var r := "ERROR";
    RouteTrimmed(r);
    BareErrorWordEarlyRules();
    BareErrorWordLateRules();
  }

  lemma BareErrorWordEarlyRules()
    ensures !IsCommand("ERROR") && !IsErrorText("ERROR") && !IsEchoText("ERROR")
  {
    var r := "ERROR";
    CharBlocks(r, "ECHO:", 1);
    CharBlocks(r, "CMD:", 0);
    CharBlocks(r, "INFO:", 0);
    CharBlocks(r, "REPLAY:", 0);
    CharBlocks(r, "OUTPUT:", 0);
    CharBlocks(r, "RESPONSE:", 0);
    assert !IgnoreCaseEq(r[0], 'h') && !IgnoreCaseEq(r[0], 'f') && !IgnoreCaseEq(r[0], 's');
  }

  lemma BareErrorWordLateRules()
    ensures !IsCodeText("ERROR") && !IsJsonText("ERROR")
  {
    var r := "ERROR";
    NoPython(r);
    CharBlocks(r, "def ", 0);
    CharBlocks(r, "class ", 0);
    CharBlocks(r, "import ", 0);
    CharBlocks(r, "from ", 0);
    CharBlocks(r, "```", 0);
    CharBlocks(r, "{", 0);
    CharBlocks(r, "[", 0);
  }

  /** A word matches, ignoring case, where it appears with a capital first letter. */
  lemma CapitalisedWord(s: String, w: String)
    requires 1 <= |w| <= |s| && 'a' <= w[0] <= 'z'
    requires s[0] as int == w[0] as int - 32 && s[1..|w|] == w[1..]
    ensures StartsWithIgnoreCase(s, w)
  {
    forall i | 0 <= i < |w| ensures IgnoreCaseEq(s[i], w[i]) {
      if i > 0 {
        assert s[i] == s[1..|w|][i - 1];
      }
    }
  }

  /** An error word followed by a colon is an error. */
  lemma RouteErrorColon()
    ensures Route(Text("Error: x")) == ERROR
  {
    var r := "Error: x";
    RouteTrimmed(r);
    ErrorColonWord();
  }

  lemma ErrorColonWord()
    ensures !IsCommand("Error: x") && IsErrorText("Error: x")
  {
    CharBlocks("Error: x", "ECHO:", 1);
    CharBlocks("Error: x", "CMD:", 0);
    CapitalisedWord("Error: x", "error");
  }

  /** A lone code fence is code. */
  lemma RouteFence()
    ensures Route(Text("```")) == CODE
  {
    RouteTrimmed("```");
    FenceFacts();
    RouteCodeText("```");
  }

  /** Text the code rule claims, and no earlier rule, is code. */
  lemma RouteCodeText(r: String)
    requires !IsCommand(r) && !IsErrorText(r) && !IsEchoText(r) && IsCodeText(r)
    ensures RouteStripped(r) == CODE
  {
  }

  /** A fence is no command, no error and no echo, and the code rule claims it. */
  lemma FenceFacts()
    ensures !IsCommand("```") && !IsErrorText("```") && !IsEchoText("```") && IsCodeText("```")
  {
    var r := "```";
    CharBlocks(r, "CMD:", 0);
    CharBlocks(r, "INFO:", 0);
    CharBlocks(r, "ECHO:", 0);
    CharBlocks(r, "REPLAY:", 0);
    CharBlocks(r, "OUTPUT:", 0);
    CharBlocks(r, "RESPONSE:", 0);
    if IsErrorText(r) {
      ErrorTextStart(r);
    }
    assert StartsWith(r, "```");
  }

  /** Stripping a bracketed text with one space in front leaves the text. */
  lemma SpacedStrip(e: String)
    requires Delimited(e)
    ensures Strip(" " + e) == Strip(e)
  {
    assert (" " + e)[1..] == e;
  }

  /** One space after the colon is stripped away. */
  lemma SpacedPayload(prefix: String, e: String)
    requires prefix == "CMD:" || prefix == "ECHO:"
    requires Delimited(e)
    ensures IsCommand(prefix + (" " + e)) && Payload(prefix + (" " + e)) == e
  {
    CommandColon(prefix, " " + e);
    SpacedStrip(e);
    UnforcedPayload(e);
  }

  /** A bracketed JSON document after `CMD: ` or `ECHO: ` is JSON, ahead of the echo rule. */
  lemma RouteSpacedCommand(prefix: String, e: String)
    requires prefix == "CMD:" || prefix == "ECHO:"
    requires Delimited(e) && IsJsonText(e)
    ensures Route(Text(prefix + (" " + e))) == JSON
  {
    var r := prefix + (" " + e);
    assert r[0] == prefix[0] && r[|r| - 1] == e[|e| - 1];
    RouteTrimmed(r);
    SpacedPayload(prefix, e);
    RouteCommandPayload(r);
  }

  /** The first bracket of `w + e` is the one opening `e` when `w` has none. */
  lemma FirstOpenAfter(w: String, e: String)
    requires '{' !in w && '[' !in w && e != [] && e[0] == '['
    ensures FirstOpen(w + e) == |w|
  {
    var c := w + e;
    forall i | 0 <= i < |w| ensures !OccursAt(c, "[", i) {
      assert c[i..i + 1][0] == w[i];
    }
    assert c[|w|..|w| + 1] == "[";
    FindFirst(c, "[", |w|);
    var a := Find(c, "{");
    if a >= 0 {
      assert c[a..a + 1][0] == c[a];
    }
  }

  /** A command whose payload passes the second JSON test is routed JSON. */
  lemma RouteCommandEcho(r: String)
    requires IsCommand(r) && EchoCandidate(Payload(r))
    requires FirstOpen(Payload(r)) >= 0 && Loads(Payload(r)[FirstOpen(Payload(r))..])
    ensures RouteStripped(r) == JSON
  {
  }

  /** Text without brackets followed by a serialised array passes the second JSON test. */
  lemma TailDocument(w: String, v: Doc)
    requires v.Arr? && '{' !in w && '[' !in w
    ensures EchoCandidate(w + Encode(v))
    ensures FirstOpen(w + Encode(v)) == |w| && Loads((w + Encode(v))[|w|..])
  {
    var e := Encode(v);
    EncodeBrackets(v);
    var c := w + e;
    FirstOpenAfter(w, e);
    assert c[|w|..] == e;
    EncodedJsonText(v);
    assert c[|w|] == '[' && c[|c| - 1] == ']';
  }

  /**
    The payload test at line 30 needs no `echo`: any command whose payload
    ends in a serialised array, after text without brackets, is JSON.
   */
  lemma RouteCommandTail(prefix: String, w: String, v: Doc)
    requires prefix == "CMD:" || prefix == "ECHO:"
    requires v.Arr?
    requires w != [] && !IsSpace(w[0]) && w[0] != 'F' && '{' !in w && '[' !in w
    ensures Route(Text(prefix + (w + Encode(v)))) == JSON
  {
    var e := Encode(v);
    EncodeBrackets(v);
    var c := w + e;
    var r := prefix + c;
    assert r[0] == prefix[0] && r[|r| - 1] == e[|e| - 1];
    RouteTrimmed(r);
    CommandColon(prefix, c);
    TailPayload(w, e);
    TailDocument(w, v);
    RouteCommandEcho(r);
  }

  /** Text that neither starts with whitespace or `F` nor ends in whitespace is its own payload. */
  lemma TailPayload(w: String, e: String)
    requires w != [] && !IsSpace(w[0]) && w[0] != 'F'
    requires e != [] && e[|e| - 1] == ']'
    ensures DropForce(Strip(w + e)) == w + e
  {
    var c := w + e;
    assert c[0] == w[0] && c[|c| - 1] == ']';
    StripNoEdgeSpace(c);
    CharBlocks(c, "FORCE:", 0);
  }
}

=== FILE: server.dfy ===
/**
  The WebSocket command server (`CommandServer`): the shared replay history,
  the one-retry protocol built on the `RETRY_NEEDED` marker, the dispatch of
  one incoming message by its prefix, `REPLAY:n` resolution and the `FILE:`
  operations. Everything the server cannot decide by itself (the shell, the
  Python interpreter, the command library, system information, the network
  diagnostics and directory listings) is an explicit environment `Env`.
 */
module Server {
  import opened Wrappers
  import opened Text
  import Json

  /** The marker a handler returns to ask the dispatcher for one more attempt. */
  const Sentinel: String := "RETRY_NEEDED"

  /** `_max_history_size` */
  const MaxHistory: nat := 10

  /** The reply when a message has none of the known prefixes. */
  const UnknownFormat: String := "Unknown command format"

  // ------------------------------------------------------------- history

  /** What the class-wide history keeps at all times. */
  predicate HistoryOk(h: seq<String>) {
    && |h| <= MaxHistory
    && (forall i, j | 0 <= i < j < |h| :: h[i] != h[j])
    && (forall i | 0 <= i < |h| :: !StartsWith(h[i], "REPLAY:"))
  }

  /**
    `add_to_history`: a new command goes to the front and the oldest falls
    off past ten; `REPLAY:` messages and repeats leave the history as it is.
   */
  function AddToHistory(h: seq<String>, c: String): (r: seq<String>)
    ensures StartsWith(c, "REPLAY:") || c in h ==> r == h
    ensures !StartsWith(c, "REPLAY:") ==> c in r
    ensures !StartsWith(c, "REPLAY:") && c !in h ==>
      |r| == (if |h| < MaxHistory then |h| + 1 else |h|) && r[0] == c && r[1..] == h[..|r| - 1]
    ensures HistoryOk(h) ==> HistoryOk(r)
  {
    if StartsWith(c, "REPLAY:") || c in h then h
    else
      var g := [c] + h;
      var r := if |g| > MaxHistory then g[..|g| - 1] else g;
      assert r[0] == c;
      r
  }

  /** Recording keeps the history short, free of repeats and free of `REPLAY:` entries. */
  lemma HistoryKept(h: seq<String>, c: String)
    requires HistoryOk(h)
    ensures HistoryOk(AddToHistory(h, c))
  {
    var r := AddToHistory(h, c);
    if r != h {
      forall i | 0 <= i < |r| ensures !StartsWith(r[i], "REPLAY:") {
        if i > 0 {
          assert r[i] == h[i - 1];
        }
      }
      forall i, j | 0 <= i < j < |r| ensures r[i] != r[j] {
        assert r[j] == h[j - 1];
        if i > 0 {
          assert r[i] == h[i - 1];
        }
      }
    }
  }

  /** A message with one of the four handler prefixes is never taken for a replay. */
  lemma NotReplay(message: String)
    requires StartsWith(message, "CMD:") || StartsWith(message, "CODE:") || StartsWith(message, "INFO:") || StartsWith(message, "FILE:")
    ensures !StartsWith(message, "REPLAY:")
  {
    if StartsWith(message, "CMD:") {
      PrefixChar(message, "CMD:", 0);
    } else if StartsWith(message, "CODE:") {
      PrefixChar(message, "CODE:", 0);
    } else if StartsWith(message, "INFO:") {
      PrefixChar(message, "INFO:", 0);
    } else {
      PrefixChar(message, "FILE:", 0);
    }
    CharBlocks(message, "REPLAY:", 0);
  }

  /** `get_from_history`: zero-based, `None` outside the history. */
  function GetFromHistory(h: seq<String>, index: int): (r: Option<String>)
    ensures r.Some? <==> 0 <= index < |h|
    ensures r.Some? ==> r.value == h[index]
  {
    if 0 <= index < |h| then Some(h[index]) else None
  }

  /** A command just recorded is the first one `REPLAY:1` finds, and the rest shift by one. */
  lemma RecordedFirst(h: seq<String>, c: String, index: int)
    requires !StartsWith(c, "REPLAY:") && c !in h
    requires 0 <= index < |h| && index + 1 < MaxHistory
    ensures GetFromHistory(AddToHistory(h, c), 0) == Some(c)
    ensures GetFromHistory(AddToHistory(h, c), index + 1) == GetFromHistory(h, index)
  {
    var r := AddToHistory(h, c);
    assert r[1..][index] == h[..|r| - 1][index];
  }

  // ---------------------------------------------------------- environment

  /** What a subprocess run ends with. */
  datatype Outcome =
    | Exited(code: int, stdout: String, stderr: String)
    | TimedOut
    | Raised(error: String)

  /** What a command-library function does with its argument string. */
  datatype LibraryCall = Returned(result: String) | Failed(error: String)

  /**
    What a JSON object command names: no `parancs` field, the `parancs` and
    `paraméterek` strings (the latter `""` when absent), or a `parancs` or
    `paraméterek` value that is not a string, whose `lower` or `strip`
    raises the error whose text is given.
   */
  datatype JsonCommand = NoParancs | Named(name: String, args: String) | NotText(error: String)

  /**
    The world around the server. `shell` and `python` take the attempt number
    (0 for the first dispatch of a message, 1 for the retry), so a retried
    command may behave differently. `parancs` says what a JSON object
    command names (for a `cmd` that `json.loads` accepts). `dirs` maps each directory to its `os.listdir` names, with `/`
    already appended to sub-directories; `osError` is the text of the error
    the OS raises when a path cannot be opened as a file (a directory, a path
    ending in `/`, the empty path, a path under a stored file).
    `writeError` is the error, if any, that `os.makedirs` or `open(path, "w")`
    raise for reasons the model does not track (permissions, names the file
    system refuses, a full disk).
   */
  datatype Env = Env(
    library: set<String>,
    call: (String, String) -> LibraryCall,
    parancs: String -> JsonCommand,
    diagnose: String,
    shell: (String, nat) -> Outcome,
    python: (String, nat) -> Outcome,
    info: String,
    dirs: map<String, seq<String>>,
    osError: String -> String,
    writeError: String -> Option<String>)

  /** The server's state: the class-wide history, the retry flags and the files it can see. */
  datatype Server = Server(history: seq<String>, lastCommand: Option<String>, retrying: bool, files: map<String, String>)

  /** A freshly started server. */
  const Start := Server([], None, false, map[])

  /** A reply and the state after producing it. */
  datatype Reply = Reply(text: String, state: Server)

  // ----------------------------------------------------------------- CMD:

  /** Whether `cmd` takes the JSON branch of `handle_cmd`. */
  predicate JsonBranch(env: Env, cmd: String) {
    var t := Strip(cmd);
    StartsWith(t, "{") && EndsWith(t, "}") && (!Json.Loads(cmd) || !env.parancs(cmd).NoParancs?)
  }

  /** Whether `handle_cmd` answers `cmd` without starting a subprocess. */
  predicate Early(env: Env, cmd: String) {
    || JsonBranch(env, cmd)
    || Lower(Strip(cmd)) == "diagnose network"
    || Lower(SplitFirstWord(Strip(cmd)).0) in env.library
  }

  /**
    Calling a library function: its result is the reply and `record` enters
    the history; an exception becomes `failure` followed by its text.
   */
  function CallLibrary(env: Env, s: Server, name: String, args: String, record: String, failure: String): (r: Reply)
    requires |failure| > |Sentinel|
    ensures r.text == Sentinel ==> env.call(name, args) == Returned(Sentinel)
    ensures r.state == s.(history := r.state.history)
    ensures env.call(name, args).Returned? ==> r == Reply(env.call(name, args).result, s.(history := AddToHistory(s.history, record)))
  {
    match env.call(name, args)
      case Returned(out) => Reply(out, s.(history := AddToHistory(s.history, record)))
      case Failed(e) =>
        NotMarker(failure, e);
        Reply(failure + e, s)
  }

  /**
    The JSON branch: a malformed object, a library command named by
    `parancs`, an unknown name, or a field that is not a string, whose error
    escapes to the handler's last `except` and lowers the retry flag.
   */
  function JsonCmd(env: Env, s: Server, cmd: String): (r: Reply)
    requires JsonBranch(env, cmd)
    ensures r.text == Sentinel ==>
      && Json.Loads(cmd) && env.parancs(cmd).Named?
      && env.call(Strip(Lower(env.parancs(cmd).name)), Strip(env.parancs(cmd).args)) == Returned(Sentinel)
    ensures r.state == s.(history := r.state.history) || r.state == s.(retrying := false)
    ensures !Json.Loads(cmd) ==> r == Reply("Hibás JSON formátum a parancsban", s)
    ensures Json.Loads(cmd) && env.parancs(cmd).NotText? ==>
      r == Reply("Error executing command: " + env.parancs(cmd).error, s.(retrying := false))
    ensures r.state.retrying != s.retrying ==> Json.Loads(cmd) && env.parancs(cmd).NotText?
  {
    if !Json.Loads(cmd) then Reply("Hibás JSON formátum a parancsban", s)
    else
      match env.parancs(cmd)
        case NotText(e) =>
          NotMarker("Error executing command: ", e);
          Reply("Error executing command: " + e, s.(retrying := false))
        case Named(n, a) =>
          var name := Strip(Lower(n));
          var args := Strip(a);
          if name !in env.library then
            NotMarker("Ismeretlen parancs a parancskönyvtárban: ", name);
            Reply("Ismeretlen parancs a parancskönyvtárban: " + name, s)
          else CallLibrary(env, s, name, args, "CMD: " + name + " " + args, "Hiba a parancskönyvtári parancs végrehajtásakor: ")
  }

  /**
    The JSON, `diagnose network` and library branches of `handle_cmd`. They
    never raise the retry flag and never touch `last_command`; only a JSON
    field that is not a string lowers the flag.
   */
  function EarlyCmd(env: Env, s: Server, cmd: String): (r: Reply)
    requires Early(env, cmd)
    ensures r.state == s.(history := r.state.history) || r.state == s.(retrying := false)
    ensures r.state.retrying != s.retrying ==>
      JsonBranch(env, cmd) && Json.Loads(cmd) && env.parancs(cmd).NotText?
  {
    if JsonBranch(env, cmd) then JsonCmd(env, s, cmd)
    else if Lower(Strip(cmd)) == "diagnose network" then Reply(env.diagnose, s)
    else
      var parts := SplitFirstWord(Strip(cmd));
      CallLibrary(env, s, Lower(parts.0), parts.1, "CMD: " + cmd, "Hiba a parancs végrehajtásakor: ")
  }

  /**
    The subprocess branch of `handle_cmd`. A failing exit asks for a retry
    exactly when no retry is running and the command differs from the last
    one that asked; every other outcome clears the retry flag.
   */
  function ShellCmd(env: Env, s: Server, cmd: String, attempt: nat): (r: Reply)
    ensures r.text == Sentinel && QuietShell(env.shell(cmd, attempt)) ==>
      !s.retrying && s.lastCommand != Some(cmd) && r.state == s.(lastCommand := Some(cmd), retrying := true)
    ensures r.text != Sentinel ==> !r.state.retrying && r.state.lastCommand == s.lastCommand
    ensures env.shell(cmd, attempt).Exited? && env.shell(cmd, attempt).code != 0 ==>
      (r.text == Sentinel <==> !s.retrying && s.lastCommand != Some(cmd))
    ensures r.state.files == s.files
  {
    match env.shell(cmd, attempt)
      case TimedOut => Reply("Command timed out after 60 seconds", s.(retrying := false))
      case Raised(e) => Reply("Error executing command: " + e, s.(retrying := false))
      case Exited(code, out, err) =>
        if code != 0 then
          var msg := if err != [] then err else if out != [] then out else "Command failed with no output";
          if !s.retrying && s.lastCommand != Some(cmd) then Reply(Sentinel, s.(lastCommand := Some(cmd), retrying := true))
          else Reply("Error executing command: " + msg, s.(retrying := false))
        else
          var output := if out != [] then out else err;
          var t := s.(retrying := false);
          if output != [] then Reply(output, t.(history := AddToHistory(t.history, "CMD: " + cmd)))
          else Reply("Command executed (no output)", t)
  }

  /** A shell run whose own output is not the retry marker. */
  predicate QuietShell(o: Outcome) {
    o.Exited? ==> o.stdout != Sentinel && o.stderr != Sentinel
  }

  /**
    `handle_cmd`: no branch touches the files, only the retry marker raises
    the retry flag, and the branches that start no subprocess leave
    `last_command` alone.
   */
  function HandleCmd(env: Env, s: Server, cmd: String, attempt: nat): (r: Reply)
    ensures r.state.files == s.files
    ensures r.state.retrying ==> s.retrying || r.text == Sentinel
    ensures Early(env, cmd) ==> r.state.lastCommand == s.lastCommand && (r.state.retrying ==> s.retrying)
  {
    if Early(env, cmd) then EarlyCmd(env, s, cmd) else ShellCmd(env, s, cmd, attempt)
  }

  // ---------------------------------------------------------------- CODE:

  /** A Python run whose standard output is not the retry marker. */
  predicate QuietCode(o: Outcome) {
    o.Exited? ==> o.stdout != Sentinel
  }

  /** `code_filename` */
  const CodeFile: String := "generated_code.py"

  /** The lines `handle_code` writes before the code. */
  const CodeHeader: String :=
    "#!/usr/bin/env python\n# -*- coding: utf-8 -*-\n" + "import sys\n"
    + "sys.stdout.reconfigure(encoding='utf-8')\n" + "sys.stderr.reconfigure(encoding='utf-8')\n"

  /** The byte order mark the `utf-8-sig` codec writes first, read back as a character by `utf-8`. */
  const Bom: char := '\U{FEFF}'

  /** The text of the script file `handle_code` writes for `code`. */
  function Script(code: String): (r: String)
    ensures |r| == 1 + |CodeHeader| + |code| && r[0] == Bom
    ensures r[1 + |CodeHeader|..] == code
  {
    [Bom] + CodeHeader + code
  }

  /**
    `handle_code`: the script file is written first, then the same retry
    protocol as the shell branch, with the code text as the key. When the
    file cannot be opened for writing, nothing is written or run and the
    error is the reply.
   */
  function HandleCode(env: Env, s: Server, code: String, attempt: nat): (r: Reply)
    ensures WriteBlocked(env, s.files, CodeFile).Some? ==>
      r == Reply("Error executing code: " + WriteBlocked(env, s.files, CodeFile).value, s.(retrying := false))
    ensures r.text == Sentinel && QuietCode(env.python(code, attempt)) ==>
      && !s.retrying && s.lastCommand != Some(code)
      && r.state == s.(lastCommand := Some(code), retrying := true, files := s.files[CodeFile := Script(code)])
    ensures r.text != Sentinel ==> !r.state.retrying && r.state.lastCommand == s.lastCommand
    ensures WriteBlocked(env, s.files, CodeFile).None? && env.python(code, attempt).Exited? && env.python(code, attempt).code != 0 ==>
      (r.text == Sentinel <==> !s.retrying && s.lastCommand != Some(code))
    ensures r.state.history == s.history
    ensures WriteBlocked(env, s.files, CodeFile).None? ==> r.state.files == s.files[CodeFile := Script(code)]
  {
    match WriteBlocked(env, s.files, CodeFile)
      case Some(e) =>
        NotMarker("Error executing code: ", e);
        Reply("Error executing code: " + e, s.(retrying := false))
      case None =>
        var w := s.(files := s.files[CodeFile := Script(code)]);
        match env.python(code, attempt)
          case TimedOut => Reply("Code execution timed out after 60 seconds", w.(retrying := false))
          case Raised(e) => Reply("Error executing code: " + e, w.(retrying := false))
          case Exited(status, out, err) =>
            if status != 0 then
              if !w.retrying && w.lastCommand != Some(code) then Reply(Sentinel, w.(lastCommand := Some(code), retrying := true))
              else Reply("Error:\n" + err + "\n\nOutput:\n" + out, w.(retrying := false))
            else Reply(if out != [] then out else "Code executed (no output)", w.(retrying := false))
  }

  // ---------------------------------------------------------------- FILE:

  /** A text led by something longer than the retry marker, or by another letter, is not the marker. */
  lemma NotMarker(lead: String, rest: String)
    requires |lead| > |Sentinel| || (lead != [] && lead[0] != 'R')
    ensures lead + rest != Sentinel
  {
    if |lead| <= |Sentinel| {
      assert (lead + rest)[0] == lead[0];
    }
  }

  /** The directory-traversal guard. */
  predicate Unsafe(path: String) {
    Contains(path, "..") || Contains(path, "~")
  }

  const TruncationMark: String := "\n...(truncated)..."

  /** Contents longer than 5000 characters are cut and marked. */
  function Truncate(content: String): (r: String)
    ensures |content| <= 5000 ==> r == content
    ensures |content| > 5000 ==> |r| == 5000 + |TruncationMark| && r[..5000] == content[..5000]
  {
    if |content| > 5000 then content[..5000] + TruncationMark else content
  }

  /**
    What reading a stored text in text mode gives: universal newlines turn
    every `\r\n` and every other `\r` into `\n`.
   */
  function Universal(s: String): (r: String)
    ensures '\r' !in r
    ensures |r| <= |s|
    decreases |s|
  {
    if s == [] then []
    else if s[0] == '\r' && |s| >= 2 && s[1] == '\n' then "\n" + Universal(s[2..])
    else if s[0] == '\r' then "\n" + Universal(s[1..])
    else [s[0]] + Universal(s[1..])
  }

  /** A text without carriage returns reads back unchanged. */
  lemma {:induction false} UniversalPlain(s: String)
    requires '\r' !in s
    ensures Universal(s) == s
    decreases |s|
  {
    if s != [] {
      assert '\r' !in s[1..] by {
        forall i | 0 <= i < |s| - 1 ensures s[1..][i] != '\r' {
          assert s[1..][i] == s[i + 1];
        }
      }
      UniversalPlain(s[1..]);
    }
  }

  /** `read <path>`: the guard, then the (possibly truncated) contents as text mode reads them, or the error. */
  function ReadFile(env: Env, files: map<String, String>, path: String): (r: String)
    ensures r != Sentinel
    ensures Unsafe(path) ==> r == "Security error: Invalid file path"
    ensures !Unsafe(path) && path in files ==> r == "File content of " + path + ":\n\n" + Truncate(Universal(files[path]))
    ensures !Unsafe(path) && path !in files ==>
      r == (if NotAFile(env, files, path) then "Error reading file: " + env.osError(path) else "Error: File not found: " + path)
  {
    if Unsafe(path) then "Security error: Invalid file path"
    else if path in files then
      NotMarker("File content of ", path + ":\n\n" + Truncate(Universal(files[path])));
      "File content of " + path + ":\n\n" + Truncate(Universal(files[path]))
    else if NotAFile(env, files, path) then
      NotMarker("Error reading file: ", env.osError(path));
      "Error reading file: " + env.osError(path)
    else
      NotMarker("Error: File not found: ", path);
      "Error: File not found: " + path
  }

  /** The path and content of `path || content`, split at the first `||` and stripped. */
  function WriteRequest(rest: String): (r: Option<(String, String)>)
    ensures r.None? <==> !Contains(rest, "||")
    ensures r.Some? ==> r.value.0 == Strip(rest[..Find(rest, "||")])
  {
    if Contains(rest, "||") then
      var i := Find(rest, "||");
      Some((Strip(rest[..i]), Strip(rest[i + 2..])))
    else None
  }

  /**
    `open(path)` raises something other than `FileNotFoundError`: `path` is a
    directory, or lies below a stored file (`NotADirectoryError`), or above
    one, which makes it a directory (`IsADirectoryError`).
   */
  predicate NotAFile(env: Env, files: map<String, String>, path: String) {
    path in env.dirs || StoredAbove(files, path) || StoredBelow(files, path)
  }

  /** Some stored file is a directory component of `path`. */
  predicate StoredAbove(files: map<String, String>, path: String) {
    exists q | q in files :: StartsWith(path, q + "/")
  }

  /** Some stored file lies below `path`, which is therefore a directory. */
  predicate StoredBelow(files: map<String, String>, path: String) {
    exists q | q in files :: StartsWith(q, path + "/")
  }

  /**
    The error `os.makedirs(dirname(abspath(path)))` or `open(path, "w")`
    raise, if any: the empty path (`FileNotFoundError`), a directory or a path
    ending in `/` (`IsADirectoryError`), a path under a stored file
    (`FileExistsError`), or whatever else the environment refuses.
   */
  function WriteBlocked(env: Env, files: map<String, String>, path: String): (e: Option<String>)
    ensures path == [] || path[|path| - 1] == '/' || path in env.dirs ==> e.Some?
    ensures StoredAbove(files, path) || StoredBelow(files, path) ==> e.Some?
    ensures env.writeError(path).Some? ==> e.Some?
  {
    if path == [] || path[|path| - 1] == '/' || NotAFile(env, files, path) then
      Some(env.osError(path))
    else env.writeError(path)
  }

  /** `write <path> || <content>`: a guarded path is written (or replaced) and nothing else changes. */
  function WriteFile(env: Env, files: map<String, String>, rest: String): (r: (String, map<String, String>))
    ensures r.0 != Sentinel
    ensures r.1 == files || (WriteRequest(rest).Some? && r.1 == files[WriteRequest(rest).value.0 := WriteRequest(rest).value.1])
    ensures r.1 != files ==> !Unsafe(WriteRequest(rest).value.0)
    ensures WriteRequest(rest).Some? && !Unsafe(WriteRequest(rest).value.0) ==>
      var path := WriteRequest(rest).value.0;
      match WriteBlocked(env, files, path)
        case Some(e) => r == ("Error in FILE operation: " + e, files)
        case None => r.1 == files[path := WriteRequest(rest).value.1]
  {
    match WriteRequest(rest)
      case None => ("Error: Invalid FILE:write format. Use 'FILE:write path/to/file || content'", files)
      case Some((path, content)) =>
        if Unsafe(path) then ("Security error: Invalid file path", files)
        else if WriteBlocked(env, files, path).Some? then
          NotMarker("Error in FILE operation: ", WriteBlocked(env, files, path).value);
          ("Error in FILE operation: " + WriteBlocked(env, files, path).value, files)
        else
          NotMarker("Successfully wrote ", IntToString(|content|) + " bytes to " + path);
          ("Successfully wrote " + IntToString(|content|) + " bytes to " + path, files[path := content])
  }

  /** The `- name` lines of a directory listing. */
  function Listing(names: seq<String>): String {
    if names == [] then [] else "- " + names[0] + "\n" + Listing(names[1..])
  }

  /** `list <dir>`: the guard, then a missing path, a file, or the listing. */
  function ListDir(env: Env, files: map<String, String>, dir: String): (r: String)
    ensures r != Sentinel
    ensures Unsafe(dir) ==> r == "Security error: Invalid directory path"
    ensures !Unsafe(dir) && dir in env.dirs ==> r == "Contents of " + dir + ":\n" + Listing(env.dirs[dir])
    ensures !Unsafe(dir) && dir !in env.dirs ==>
      r == (if dir in files then "Error: Not a directory: " + dir else "Error: Directory not found: " + dir)
  {
    if Unsafe(dir) then "Security error: Invalid directory path"
    else if dir !in env.dirs && dir !in files then
      NotMarker("Error: Directory not found: ", dir);
      "Error: Directory not found: " + dir
    else if dir !in env.dirs then
      NotMarker("Error: Not a directory: ", dir);
      "Error: Not a directory: " + dir
    else
      NotMarker("Contents of ", dir + ":\n" + Listing(env.dirs[dir]));
      "Contents of " + dir + ":\n" + Listing(env.dirs[dir])
  }

  /** `handle_file` on the already stripped parameters; `files` is what the server can open. */
  function HandleFile(env: Env, files: map<String, String>, params: String): (r: (String, map<String, String>))
    ensures r.0 != Sentinel
    ensures !StartsWith(params, "write ") ==> r.1 == files
  {
    if StartsWith(params, "read ") then (ReadFile(env, files, Strip(params[5..])), files)
    else if StartsWith(params, "write ") then WriteFile(env, files, params[6..])
    else if StartsWith(params, "list ") then (ListDir(env, files, Strip(params[5..])), files)
    else
      NotMarker("Unsupported FILE operation: ", params);
      ("Unsupported FILE operation: " + params, files)
  }
  /** In `p || c` the first `||` is the written one when the path has none. */
  lemma WriteSplitAt(p: String, c: String)
    requires !Contains(p, "||")
    ensures Find(p + " || " + c, "||") == |p| + 1
  {
    var rest := p + " || " + c;
    assert rest[|p| + 1..|p| + 3] == "||";
    assert rest[|p|] == (p + " || ")[|p|] == ' ';
    forall i | 0 <= i < |p| + 1 ensures !OccursAt(rest, "||", i) {
      if i + 2 <= |p| {
        assert !OccursAt(p, "||", i);
        assert rest[i..i + 2] == p[i..i + 2];
      } else if i + 1 == |p| {
        assert rest[i..i + 2][1] == rest[|p|];
      } else {
        assert rest[i..i + 2][0] == rest[|p|];
      }
    }
    FindFirst(rest, "||", |p| + 1);
  }

  /** Padding a text that has no whitespace at its ends with spaces is undone by `strip`. */
  lemma StripPadded(t: String)
    requires t == [] || (!IsSpace(t[0]) && !IsSpace(t[|t| - 1]))
    ensures Strip(t + " ") == t && Strip(" " + t) == t
  {
    assert TrimStart(t + " ") == t + " " || t == [];
    assert TrimEnd(t + " ") == TrimEnd(t) by {
      assert (t + " ")[..|t + " "| - 1] == t;
    }
    StripNoEdgeSpace(t);
    assert TrimStart(" " + t) == TrimStart(t) by {
      assert (" " + t)[1..] == t;
    }
  }

  /** `path || content` names the path and content it was written with. */
  lemma WriteRequestOf(p: String, c: String)
    requires p != [] && !IsSpace(p[0]) && !IsSpace(p[|p| - 1]) && !Contains(p, "||")
    requires c == [] || (!IsSpace(c[0]) && !IsSpace(c[|c| - 1]))
    ensures WriteRequest(p + " || " + c) == Some((p, c))
  {
    var rest := p + " || " + c;
    WriteSplitAt(p, c);
    assert rest[..|p| + 1] == p + " ";
    assert rest[|p| + 3..] == " " + c;
    StripPadded(p);
    StripPadded(c);
  }

  /** The parameters of `read <path>` and `write <rest>` select their operations. */
  lemma FileParams(p: String, rest: String)
    ensures StartsWith("read " + p, "read ") && ("read " + p)[5..] == p
    ensures StartsWith("write " + rest, "write ") && !StartsWith("write " + rest, "read ")
    ensures ("write " + rest)[6..] == rest
  {
    PrefixOfConcat("read ", p);
    PrefixOfConcat("write ", rest);
    CharBlocks("write " + rest, "read ", 0);
  }

  /**
    What is written to a permitted path reads back with its line ends
    translated, truncated past 5000 characters.
   */
  lemma WriteThenRead(env: Env, files: map<String, String>, p: String, c: String)
    requires p != [] && !IsSpace(p[0]) && !IsSpace(p[|p| - 1]) && !Contains(p, "||")
    requires c == [] || (!IsSpace(c[0]) && !IsSpace(c[|c| - 1]))
    requires !Unsafe(p) && WriteBlocked(env, files, p).None?
    ensures HandleFile(env, files, "write " + p + " || " + c).1 == files[p := c]
    ensures HandleFile(env, files[p := c], "read " + p).0 == "File content of " + p + ":\n\n" + Truncate(Universal(c))
  {
    WrittenFile(env, files, p, c);
    ReadWritten(env, files[p := c], p);
  }

  /** Without carriage returns in it, what is written reads back exactly, truncated past 5000 characters. */
  lemma WriteThenReadPlain(env: Env, files: map<String, String>, p: String, c: String)
    requires p != [] && !IsSpace(p[0]) && !IsSpace(p[|p| - 1]) && !Contains(p, "||")
    requires c == [] || (!IsSpace(c[0]) && !IsSpace(c[|c| - 1]))
    requires !Unsafe(p) && WriteBlocked(env, files, p).None? && '\r' !in c
    ensures HandleFile(env, files[p := c], "read " + p).0 == "File content of " + p + ":\n\n" + Truncate(c)
  {
    WriteThenRead(env, files, p, c);
    UniversalPlain(c);
  }

  /** `write p || c` sets exactly `p` to `c`. */
  lemma WrittenFile(env: Env, files: map<String, String>, p: String, c: String)
    requires p != [] && !IsSpace(p[0]) && !IsSpace(p[|p| - 1]) && !Contains(p, "||")
    requires c == [] || (!IsSpace(c[0]) && !IsSpace(c[|c| - 1]))
    requires !Unsafe(p) && WriteBlocked(env, files, p).None?
    ensures HandleFile(env, files, "write " + p + " || " + c).1 == files[p := c]
  {
    FileParams(p, p + " || " + c);
    assert "write " + p + " || " + c == "write " + (p + " || " + c);
    WriteRequestOf(p, c);
  }

  /** Reading below a stored file is the OS error, not a missing file. */
  lemma ReadBelowFile(env: Env, files: map<String, String>, q: String, rest: String)
    requires q in files && q + "/" + rest !in files && !Unsafe(q + "/" + rest)
    ensures ReadFile(env, files, q + "/" + rest) == "Error reading file: " + env.osError(q + "/" + rest)
  {
    PrefixOfConcat(q + "/", rest);
    assert StoredAbove(files, q + "/" + rest);
  }

  /** A path above a stored file is a directory: reading it is the OS error. */
  lemma ReadAboveFile(env: Env, files: map<String, String>, d: String, rest: String)
    requires d + "/" + rest in files && d !in files && !Unsafe(d)
    ensures ReadFile(env, files, d) == "Error reading file: " + env.osError(d)
  {
    PrefixOfConcat(d + "/", rest);
    assert StoredBelow(files, d);
  }

  /**
    Once a file is written below `generated_code.py`, that name is a directory:
    `CODE:` then answers the OS error and writes nothing.
   */
  lemma CodeFileTaken(env: Env, s: Server, code: String, attempt: nat, rest: String)
    requires CodeFile + "/" + rest in s.files
    ensures HandleCode(env, s, code, attempt) == Reply("Error executing code: " + env.osError(CodeFile), s.(retrying := false))
  {
    PrefixOfConcat(CodeFile + "/", rest);
    assert StoredBelow(s.files, CodeFile);
  }

  /** `read p` of a stored, permitted path gives its contents under the header. */
  lemma ReadWritten(env: Env, files: map<String, String>, p: String)
    requires p != [] && !IsSpace(p[0]) && !IsSpace(p[|p| - 1])
    requires !Unsafe(p) && p in files
    ensures HandleFile(env, files, "read " + p).0 == "File content of " + p + ":\n\n" + Truncate(Universal(files[p]))
  {
    FileParams(p, []);
    StripNoEdgeSpace(p);
  }

  // ------------------------------------------------------------- dispatch

  /** Where one message (or the history entry it replays) is sent. */
  datatype Path =
    | ToCmd(cmd: String)
    | ToCode(code: String)
    | ToFile(params: String)
    | ToInfo
    | Refused(reason: String)
    | Nowhere

  /** The handler a history entry is replayed with; entries with no known prefix go nowhere. */
  function Target(original: String): (r: Path)
    ensures !r.Refused?
  {
    if StartsWith(original, "CMD:") then ToCmd(Strip(original[4..]))
    else if StartsWith(original, "CODE:") then ToCode(Strip(original[5..]))
    else if StartsWith(original, "FILE:") then ToFile(Strip(original[5..]))
    else if StartsWith(original, "INFO:") then ToInfo
    else Nowhere
  }

  /** The refusal for a `REPLAY:` number outside the history, naming the number and the history size. */
  function IndexRefusal(n: int, size: nat): (r: String)
    ensures r != Sentinel
  {
    NotMarker("Invalid REPLAY index: ", IntToString(n) + ". History size: " + IntToString(size));
    "Invalid REPLAY index: " + IntToString(n) + ". History size: " + IntToString(size)
  }

  /** How `REPLAY:<rest>` resolves: a number counts from one into the history. */
  function ResolveReplay(h: seq<String>, rest: String): (r: Path)
    ensures r.Refused? ==> r.reason != Sentinel
  {
    match ParseInt(Strip(rest))
      case None =>
        NotMarker("Invalid REPLAY format. Expected number, got: ", rest);
        Refused("Invalid REPLAY format. Expected number, got: " + rest)
      case Some(n) =>
        if 1 <= n <= |h| then Target(h[n - 1])
        else
          Refused(IndexRefusal(n, |h|))
  }

  /** The branch of `command_handler` a message takes, `REPLAY:n` resolved against the history. */
  function Resolve(h: seq<String>, message: String): (r: Path)
    ensures r.Refused? ==> r.reason != Sentinel && StartsWith(message, "REPLAY:")
  {
    if StartsWith(message, "CMD:") then ToCmd(Strip(message[4..]))
    else if StartsWith(message, "CODE:") then ToCode(Strip(message[5..]))
    else if StartsWith(message, "INFO:") then ToInfo
    else if StartsWith(message, "FILE:") then ToFile(Strip(message[5..]))
    else if StartsWith(message, "REPLAY:") then ResolveReplay(h, message[7..])
    else Nowhere
  }

  /** Running the handler a path names; `Nowhere` keeps the reply of the previous round. */
  function Perform(env: Env, s: Server, p: Path, attempt: nat, prior: String): (r: Reply)
    ensures p.Nowhere? ==> r == Reply(prior, s)
    ensures p.Refused? ==> r == Reply(p.reason, s)
    ensures r.state.retrying ==> s.retrying || r.text == Sentinel
  {
    match p
      case ToCmd(cmd) => HandleCmd(env, s, cmd, attempt)
      case ToCode(code) => HandleCode(env, s, code, attempt)
      case ToFile(params) =>
        var f := HandleFile(env, s.files, params);
        Reply(f.0, s.(files := f.1))
      case ToInfo => Reply(env.info, s)
      case Refused(reason) => Reply(reason, s)
      case Nowhere => Reply(prior, s)
  }

  /** Whether the dispatcher records the message itself after handling it. */
  predicate Records(message: String, reply: String) {
    || StartsWith(message, "INFO:")
    || ((StartsWith(message, "CMD:") || StartsWith(message, "CODE:") || StartsWith(message, "FILE:")) && reply != Sentinel)
  }

  /** One pass of the body of the `while retry_count < 2` loop. */
  function Dispatch(env: Env, s: Server, message: String, attempt: nat, prior: String): (r: Reply)
    ensures r.text == Perform(env, s, Resolve(s.history, message), attempt, prior).text
    ensures r.state.retrying == Perform(env, s, Resolve(s.history, message), attempt, prior).state.retrying
    ensures !Records(message, r.text) ==> r == Perform(env, s, Resolve(s.history, message), attempt, prior)
    ensures Records(message, r.text) ==> message in r.state.history
  {
    var r := Perform(env, s, Resolve(s.history, message), attempt, prior);
    if Records(message, r.text) then
      NotReplay(message);
      r.(state := r.state.(history := AddToHistory(r.state.history, message)))
    else r
  }

  /** The reply sent for one message, the state after it and how many passes it took. */
  datatype Exchange = Exchange(reply: String, state: Server, passes: nat)

  /** `command_handler` for one message: a second pass only when the first asked for it. */
  function HandleMessage(env: Env, s: Server, message: String): (x: Exchange)
    ensures x.passes == 1 || x.passes == 2
    ensures x.passes == 2 <==> Dispatch(env, s, message, 0, UnknownFormat).text == Sentinel
    ensures Resolve(s.history, message).Nowhere? ==> x == Exchange(UnknownFormat, s, 1)
  {
    var first := Dispatch(env, s, message, 0, UnknownFormat);
    if first.text == Sentinel then
      var second := Dispatch(env, first.state, message, 1, Sentinel);
      Exchange(second.text, second.state, 2)
    else Exchange(first.text, first.state, 1)
  }

  // ------------------------------------------------------- retry protocol

  /** No executor, library function or information source itself prints the retry marker. */
  ghost predicate Quiet(env: Env) {
    && env.diagnose != Sentinel
    && env.info != Sentinel
    && (forall c, a :: QuietShell(env.shell(c, a)))
    && (forall c, a :: QuietCode(env.python(c, a)))
    && (forall n, a :: env.call(n, a).Returned? ==> env.call(n, a).result != Sentinel)
  }

  /** Only a failing subprocess with the flags down asks for a retry, and asking changes nothing but the flags. */
  lemma AskedOnlyByFailure(env: Env, s: Server, p: Path, attempt: nat, prior: String)
    requires Quiet(env) && prior != Sentinel
    requires p.Refused? ==> p.reason != Sentinel
    requires Perform(env, s, p, attempt, prior).text == Sentinel
    ensures p.ToCmd? || p.ToCode?
    ensures p.ToCmd? ==> !Early(env, p.cmd)
    ensures !s.retrying
    ensures var t := Perform(env, s, p, attempt, prior).state;
      t == s.(lastCommand := t.lastCommand, retrying := true, files := t.files)
  {
    match p
      case ToCmd(cmd) =>
      case ToCode(code) =>
      case ToFile(params) =>
      case ToInfo =>
      case Refused(reason) =>
      case Nowhere =>
  }

  /** With a retry running, the subprocess branches answer with something other than the marker and lower the flag. */
  lemma RetryAnswers(env: Env, s: Server, p: Path, attempt: nat, prior: String)
    requires Quiet(env) && s.retrying
    requires p.ToCmd? ==> !Early(env, p.cmd)
    requires p.ToCmd? || p.ToCode?
    ensures Perform(env, s, p, attempt, prior).text != Sentinel
    ensures !Perform(env, s, p, attempt, prior).state.retrying
  {
  }

  /** An `INFO:` message goes to the information handler. */
  lemma InfoMessage(h: seq<String>, message: String)
    requires StartsWith(message, "INFO:")
    ensures Resolve(h, message) == ToInfo
  {
    PrefixChar(message, "INFO:", 0);
    CharBlocks(message, "CMD:", 0);
    CharBlocks(message, "CODE:", 0);
  }

  /**
    The retry protocol: in an environment whose programs never print the
    marker themselves, the reply sent is never `RETRY_NEEDED`, and a server
    whose flag is down before a message has it down again afterwards.
   */
  lemma NeverSendsMarker(env: Env, s: Server, message: String)
    requires Quiet(env)
    ensures HandleMessage(env, s, message).reply != Sentinel
    ensures !s.retrying ==> !HandleMessage(env, s, message).state.retrying
  {
    var p := Resolve(s.history, message);
    var first := Dispatch(env, s, message, 0, UnknownFormat);
    if first.text == Sentinel {
      AskedOnlyByFailure(env, s, p, 0, UnknownFormat);
      var mid := Perform(env, s, p, 0, UnknownFormat);
      if StartsWith(message, "INFO:") {
        InfoMessage(s.history, message);
      }
      assert first.state == mid.state;
      assert Resolve(first.state.history, message) == p;
      RetryAnswers(env, first.state, p, 1, Sentinel);
    }
  }

  // ------------------------------------------------------------- REPLAY:

  /** A message that starts with `REPLAY:` takes none of the other branches. */
  lemma ReplayBranch(message: String)
    requires StartsWith(message, "REPLAY:")
    ensures !StartsWith(message, "CMD:") && !StartsWith(message, "CODE:")
    ensures !StartsWith(message, "INFO:") && !StartsWith(message, "FILE:")
  {
    PrefixChar(message, "REPLAY:", 0);
    CharBlocks(message, "CMD:", 0);
    CharBlocks(message, "CODE:", 0);
    CharBlocks(message, "INFO:", 0);
    CharBlocks(message, "FILE:", 0);
  }

  /** A `REPLAY:` message is resolved by what follows the prefix. */
  lemma ReplayMessage(h: seq<String>, message: String)
    requires StartsWith(message, "REPLAY:")
    ensures Resolve(h, message) == ResolveReplay(h, message[7..])
  {
    ReplayBranch(message);
  }

  /** `REPLAY:n` replays the `n`-th most recent entry, counting from one, and refuses any other number. */
  lemma ReplayResolves(h: seq<String>, n: int)
    ensures 1 <= n <= |h| ==> Resolve(h, "REPLAY:" + IntToString(n)) == Target(h[n - 1])
    ensures !(1 <= n <= |h|) ==>
      Resolve(h, "REPLAY:" + IntToString(n)) ==
        Refused(IndexRefusal(n, |h|))
  {
    var d := IntToString(n);
    var m := "REPLAY:" + d;
    PrefixOfConcat("REPLAY:", d);
    assert m[7..] == d;
    IntToStringReads(n);
    ReplayResolvesTo(h, m, d, n);
  }

  /** The decimal text of `n` reads back as `n` once stripped. */
  lemma IntToStringReads(n: int)
    ensures ParseInt(Strip(IntToString(n))) == Some(n)
  {
    IntToStringPlain(n);
    ParseIntToString(n);
  }

  /** A `REPLAY:` message whose rest reads as `n` resolves by `n`. */
  lemma ReplayResolvesTo(h: seq<String>, m: String, d: String, n: int)
    requires StartsWith(m, "REPLAY:") && m[7..] == d && ParseInt(Strip(d)) == Some(n)
    ensures 1 <= n <= |h| ==> Resolve(h, m) == Target(h[n - 1])
    ensures !(1 <= n <= |h|) ==>
      Resolve(h, m) == Refused(IndexRefusal(n, |h|))
  {
    ReplayMessage(h, m);
    ReplayNumber(h, d, n);
  }

  /** `REPLAY:` followed by a number resolves by that number alone. */
  lemma ReplayNumber(h: seq<String>, rest: String, n: int)
    requires ParseInt(Strip(rest)) == Some(n)
    ensures 1 <= n <= |h| ==> ResolveReplay(h, rest) == Target(h[n - 1])
    ensures !(1 <= n <= |h|) ==>
      ResolveReplay(h, rest) == Refused(IndexRefusal(n, |h|))
  {
  }

  /** A refused message is answered with the refusal in one pass and changes nothing. */
  lemma RefusedMessage(env: Env, s: Server, message: String)
    requires Resolve(s.history, message).Refused?
    ensures HandleMessage(env, s, message) == Exchange(Resolve(s.history, message).reason, s, 1)
  {
  }

  /** A replay out of range is answered with the index and the history size, and changes nothing. */
  lemma ReplayOutOfRange(env: Env, s: Server, n: int)
    requires !(1 <= n <= |s.history|)
    ensures HandleMessage(env, s, "REPLAY:" + IntToString(n)) ==
      Exchange(IndexRefusal(n, |s.history|), s, 1)
  {
    ReplayResolves(s.history, n);
    RefusedMessage(env, s, "REPLAY:" + IntToString(n));
  }

  /** A replay of something that is not a number is refused and changes nothing. */
  lemma ReplayNotANumber(env: Env, s: Server, rest: String)
    requires ParseInt(Strip(rest)) == None
    ensures HandleMessage(env, s, "REPLAY:" + rest) ==
      Exchange("Invalid REPLAY format. Expected number, got: " + rest, s, 1)
  {
    var m := "REPLAY:" + rest;
    PrefixOfConcat("REPLAY:", rest);
    assert m[7..] == rest;
    ReplayMessage(s.history, m);
    RefusedMessage(env, s, m);
  }
}

=== FILE: text.dfy ===
/**
  The pieces of Python's `str` behaviour that the protocol code relies on:
  `isspace`/`strip`/`split()`, `startswith`/`endswith`, `find`/`in`,
  `split(sep)`/`join`/`replace`, `lower`, `int(...)` and `str(n)`.
  Characters are Unicode scalar values, as in a Python 3 `str`.
 */
module Text {
  import opened Wrappers

  type String = seq<char>

  /** Python's `str.isspace()` for one character. */
  predicate IsSpace(c: char) {
    || c == ' '
    || ('\t' <= c <= '\r')
    || ('\U{1C}' <= c <= '\U{1F}')
    || c == '\U{85}' || c == '\U{A0}' || c == '\U{1680}'
    || ('\U{2000}' <= c <= '\U{200A}')
    || c == '\U{2028}' || c == '\U{2029}' || c == '\U{202F}'
    || c == '\U{205F}' || c == '\U{3000}'
  }

  /** Every character is whitespace: what Python's `not s.strip()` tests. */
  predicate IsBlank(s: String) {
    forall i | 0 <= i < |s| :: IsSpace(s[i])
  }

  predicate IsDigit(c: char) {
    '0' <= c <= '9'
  }

  // ---------------------------------------------------------------- strip

  /** `s.lstrip()` */
  function TrimStart(s: String): (r: String)
    ensures |r| <= |s| && forall i | 0 <= i < |r| :: r[i] == s[|s| - |r| + i]
    ensures forall i | 0 <= i < |s| - |r| :: IsSpace(s[i])
    ensures r == [] || !IsSpace(r[0])
  {
    if |s| > 0 && IsSpace(s[0]) then
      var r := TrimStart(s[1..]);
      SuffixStep(s, r);
      r
    else s
  }

  /** A tail of `s[1..]` that follows only spaces there is a tail of `s` that follows only spaces, when `s[0]` is a space. */
  lemma SuffixStep(s: String, r: String)
    requires |s| > 0 && IsSpace(s[0]) && |r| <= |s| - 1
    requires forall i | 0 <= i < |r| :: r[i] == s[1..][|s| - 1 - |r| + i]
    requires forall i | 0 <= i < |s| - 1 - |r| :: IsSpace(s[1..][i])
    ensures forall i | 0 <= i < |r| :: r[i] == s[|s| - |r| + i]
    ensures forall i | 0 <= i < |s| - |r| :: IsSpace(s[i])
  {
    forall i | 0 <= i < |r| ensures r[i] == s[|s| - |r| + i] {
      assert s[1..][|s| - 1 - |r| + i] == s[|s| - |r| + i];
    }
    forall i | 0 <= i < |s| - |r| ensures IsSpace(s[i]) {
      if i > 0 {
        assert s[1..][i - 1] == s[i];
      }
    }
  }

  /** `s.rstrip()` */
  function TrimEnd(s: String): (r: String)
    ensures |r| <= |s| && forall i | 0 <= i < |r| :: r[i] == s[i]
    ensures forall i | |r| <= i < |s| :: IsSpace(s[i])
    ensures r == [] || !IsSpace(r[|r| - 1])
  {
    if |s| > 0 && IsSpace(s[|s| - 1]) then TrimEnd(s[..|s| - 1]) else s
  }

  /** `s.strip()`: no whitespace at either end, and empty exactly when `s` is blank. */
  function Strip(s: String): (r: String)
    ensures r == [] || (!IsSpace(r[0]) && !IsSpace(r[|r| - 1]))
    ensures r == [] <==> IsBlank(s)
    ensures |r| <= |s|
  {
    TrimEnd(TrimStart(s))
  }

  lemma StripNoEdgeSpace(s: String)
    requires s == [] || (!IsSpace(s[0]) && !IsSpace(s[|s| - 1]))
    ensures Strip(s) == s
  {
  }

  /** Text whose every character has a one-character lower case is lower-cased character by character. */
  lemma {:induction false} LowerEach(s: String, r: String)
    requires |s| == |r| && forall i | 0 <= i < |s| :: LowerChar(s[i]) == [r[i]]
    ensures Lower(s) == r
    decreases |s|
  {
    if s != [] {
      LowerEach(s[1..], r[1..]);
      assert r == [r[0]] + r[1..];
    }
  }

  /** Text that does not open with whitespace is left alone by `lstrip`. */
  lemma TrimStartKeeps(s: String)
    requires s == [] || !IsSpace(s[0])
    ensures TrimStart(s) == s
  {
  }

  /** `rstrip` keeps a prefix that ends in a non-space character. */
  lemma TrimEndKeepsPrefix(s: String, w: String)
    requires StartsWith(s, w) && w != [] && !IsSpace(w[|w| - 1])
    ensures StartsWith(TrimEnd(s), w)
  {
    var r := TrimEnd(s);
    PrefixChar(s, w, |w| - 1);
    forall i | 0 <= i < |w| ensures r[i] == w[i] {
      PrefixChar(s, w, i);
    }
    PrefixByChars(r, w);
  }

  // ------------------------------------------------------- prefix, suffix, slices

  /** `s.startswith(p)` */
  predicate StartsWith(s: String, p: String) {
    |p| <= |s| && s[..|p|] == p
  }

  /** `s.endswith(p)` */
  predicate EndsWith(s: String, p: String) {
    |p| <= |s| && s[|s| - |p|..] == p
  }

  /** Python's `s[n:]`, which is empty rather than an error past the end. */
  function Drop(s: String, n: nat): (r: String)
    ensures |r| == if n <= |s| then |s| - n else 0
  {
    if n <= |s| then s[n..] else []
  }

  /** Python's `s[:n]` for `n >= 0`. */
  function Take(s: String, n: nat): (r: String)
    ensures |r| == if n <= |s| then n else |s|
    ensures r == s[..|r|]
  {
    if n <= |s| then s[..n] else s
  }

  /** A prefix fixes the characters it covers. */
  lemma PrefixChar(r: String, p: String, i: nat)
    requires StartsWith(r, p) && i < |p|
    ensures r[i] == p[i]
  {
    assert r[..|p|][i] == r[i];
  }

  /** A text cannot start with a prefix whose `i`-th character it lacks. */
  lemma CharBlocks(r: String, p: String, i: nat)
    requires i < |p| && (|r| <= i || r[i] != p[i])
    ensures !StartsWith(r, p)
  {
    if i < |r| && StartsWith(r, p) {
      PrefixChar(r, p, i);
    }
  }

  /** A text agreeing with `p` on its first `|p|` characters starts with `p`. */
  lemma PrefixByChars(r: String, p: String)
    requires |p| <= |r| && forall i | 0 <= i < |p| :: r[i] == p[i]
    ensures StartsWith(r, p)
  {
    assert r[..|p|] == p;
  }

  lemma PrefixOfConcat(p: String, rest: String)
    ensures StartsWith(p + rest, p)
  {
    assert (p + rest)[..|p|] == p;
  }

  lemma PrefixOfPrefix(s: String, p: String, q: String)
    requires StartsWith(s, p) && StartsWith(p, q)
    ensures StartsWith(s, q)
  {
    assert s[..|q|] == s[..|p|][..|q|];
  }

  // ---------------------------------------------------------------- search

  ghost predicate OccursAt(s: String, t: String, i: int) {
    0 <= i && i + |t| <= |s| && s[i..i + |t|] == t
  }

  /** `s.find(t)`: the first position of `t` in `s`, or -1. */
  function Find(s: String, t: String): (r: int)
    ensures -1 <= r
    ensures r >= 0 ==> OccursAt(s, t, r)
    ensures forall i | 0 <= i && (r < 0 || i < r) :: !OccursAt(s, t, i)
  {
    FindFrom(s, t, 0)
  }

  function FindFrom(s: String, t: String, k: nat): (r: int)
    ensures r == -1 || k <= r
    ensures r >= 0 ==> OccursAt(s, t, r)
    ensures forall i | k <= i && (r < 0 || i < r) :: !OccursAt(s, t, i)
    decreases |s| + 1 - k
  {
    if k + |t| > |s| then -1
    else if s[k..k + |t|] == t then k
    else FindFrom(s, t, k + 1)
  }

  /** The first occurrence is what `find` reports. */
  lemma FindFirst(s: String, t: String, k: nat)
    requires OccursAt(s, t, k)
    requires forall i | 0 <= i < k :: !OccursAt(s, t, i)
    ensures Find(s, t) == k
  {
  }

  /** Searching for one character. */
  lemma FindChar(s: String, c: char)
    ensures Find(s, [c]) == -1 <==> c !in s
    ensures Find(s, [c]) >= 0 ==> s[Find(s, [c])] == c
    ensures forall j | 0 <= j < |s| && (Find(s, [c]) < 0 || j < Find(s, [c])) :: s[j] != c
  {
    ContainsChar(s, c);
    var i := Find(s, [c]);
    if i >= 0 {
      assert s[i..i + 1] == [c];
    }
    forall j | 0 <= j < |s| && (i < 0 || j < i) ensures s[j] != c {
      assert !OccursAt(s, [c], j);
      assert s[j..j + 1] == [s[j]];
    }
  }

  /** Splitting after a prefix whose only `:` is its last character. */
  lemma SplitAfterColon(p: String, rest: String)
    requires p != [] && p[|p| - 1] == ':' && ':' !in p[..|p| - 1]
    ensures SplitOn(p + rest, ":") == [p[..|p| - 1]] + SplitOn(rest, ":")
  {
    var s := p + rest;
    FirstColon(p, rest);
    assert s[..|p| - 1] == p[..|p| - 1];
    assert s[|p|..] == rest;
  }

  /** Text without the separator is a single piece. */
  lemma SplitWithout(s: String)
    requires ':' !in s
    ensures SplitOn(s, ":") == [s]
  {
    FindChar(s, ':');
  }

  /**
    In `p + rest`, where `p` ends with its only `:`, the first `:` is the one
    ending `p`.
   */
  lemma FirstColon(p: String, rest: String)
    requires p != [] && p[|p| - 1] == ':' && ':' !in p[..|p| - 1]
    ensures Find(p + rest, ":") == |p| - 1
  {
    var r := p + rest;
    var k := |p| - 1;
    assert r[k..k + 1] == ":";
    forall i | 0 <= i < k ensures !OccursAt(r, ":", i) {
      assert r[i..i + 1] == [p[..k][i]];
    }
    FindFirst(r, ":", k);
  }

  /** Python's `t in s`. */
  predicate Contains(s: String, t: String) {
    Find(s, t) >= 0
  }

  lemma ContainsIntro(s: String, t: String, i: int)
    requires OccursAt(s, t, i)
    ensures Contains(s, t)
  {
  }

  lemma ContainsChar(s: String, c: char)
    ensures Contains(s, [c]) <==> c in s
  {
    if c in s {
      var i :| 0 <= i < |s| && s[i] == c;
      assert s[i..i + 1] == [c];
      ContainsIntro(s, [c], i);
    }
    if Contains(s, [c]) {
      var i := Find(s, [c]);
      assert s[i..i + 1] == [c];
      assert s[i] == c;
    }
  }

  /** `t in s` implies `t in a + s + b`. */
  lemma ContainsWiden(a: String, s: String, b: String, t: String)
    requires Contains(s, t)
    ensures Contains(a + s + b, t)
  {
    var i := Find(s, t);
    assert (a + s + b)[|a| + i..|a| + i + |t|] == s[i..i + |t|];
    ContainsIntro(a + s + b, t, |a| + i);
  }

  // ------------------------------------------------------------- lower case

  /**
    `str.lower()` for one character, for ASCII, the Latin-1 Supplement and
    Latin Extended-A (which hold every accented capital of Hungarian), plus
    KELVIN SIGN (to `k`). LATIN CAPITAL LETTER I WITH DOT ABOVE becomes `i`
    plus a combining dot. Every other character is kept.
   */
  function LowerChar(c: char): String {
    if 'A' <= c <= 'Z' then [(c as int + 32) as char]
    else if c == '\U{212A}' then ['k']
    else if c == '\U{130}' then ['i', '\U{307}']
    else if '\U{C0}' <= c <= '\U{DE}' && c != '\U{D7}' then [(c as int + 32) as char]
    else if c == '\U{178}' then ['\U{FF}']
    else if ('\U{100}' <= c <= '\U{137}' || '\U{14A}' <= c <= '\U{177}') && c as int % 2 == 0 then [(c as int + 1) as char]
    else if ('\U{139}' <= c <= '\U{148}' || '\U{179}' <= c <= '\U{17E}') && c as int % 2 == 1 then [(c as int + 1) as char]
    else [c]
  }

  /** What `LowerChar` produces is left alone by it. */
  lemma LowerCharFixed(c: char)
    ensures LowerFixed(LowerChar(c))
  {
  }

  /** `s.lower()` (see `LowerChar`). */
  function Lower(s: String): (r: String)
    ensures |r| >= |s|
  {
    if s == [] then [] else LowerChar(s[0]) + Lower(s[1..])
  }

  lemma {:induction false} LowerAppend(a: String, b: String)
    ensures Lower(a + b) == Lower(a) + Lower(b)
    decreases |a|
  {
    if a == [] {
      assert a + b == b;
    } else {
      assert (a + b)[1..] == a[1..] + b;
      LowerAppend(a[1..], b);
    }
  }

  /** Lower-casing twice is lower-casing once. */
  lemma {:induction false} LowerIdempotent(s: String)
    ensures Lower(Lower(s)) == Lower(s)
    decreases |s|
  {
    if s != [] {
      var c := s[0];
      LowerAppend(LowerChar(c), Lower(s[1..]));
      LowerIdempotent(s[1..]);
      var lc := LowerChar(c);
      if |lc| == 1 {
        LowerCharFixed(c);
        assert Lower(lc) == LowerChar(lc[0]) + Lower([]);
      } else {
        assert lc == ['i', '\U{307}'];
        assert Lower(lc) == LowerChar('i') + Lower(['\U{307}']);
        assert Lower(['\U{307}']) == LowerChar('\U{307}') + Lower([]);
      }
    }
  }

  lemma BlankAppend(a: String, b: String)
    ensures IsBlank(a + b) <==> IsBlank(a) && IsBlank(b)
  {
    if IsBlank(a) && IsBlank(b) {
      forall i | 0 <= i < |a + b| ensures IsSpace((a + b)[i]) {
        if i >= |a| {
          assert (a + b)[i] == b[i - |a|];
        }
      }
    }
    if IsBlank(a + b) {
      forall i | 0 <= i < |a| ensures IsSpace(a[i]) {
        assert (a + b)[i] == a[i];
      }
      forall i | 0 <= i < |b| ensures IsSpace(b[i]) {
        assert (a + b)[|a| + i] == b[i];
      }
    }
  }

  /** Lower-casing neither creates nor removes whitespace. */
  lemma {:induction false} LowerKeepsSpace(s: String)
    ensures IsBlank(s) <==> IsBlank(Lower(s))
    ensures s != [] ==> (IsSpace(s[0]) <==> IsSpace(Lower(s)[0]))
    decreases |s|
  {
    if s != [] {
      LowerKeepsSpace(s[1..]);
      var lc := LowerChar(s[0]);
      assert Lower(s) == lc + Lower(s[1..]);
      BlankAppend(lc, Lower(s[1..]));
      assert IsBlank(lc) <==> IsSpace(s[0]);
      assert Lower(s)[0] == lc[0];
      assert s == [s[0]] + s[1..];
      BlankAppend([s[0]], s[1..]);
    }
  }

  /** `t in s` survives lower-casing both. */
  lemma LowerContains(s: String, t: String)
    requires Contains(s, t)
    ensures Contains(Lower(s), Lower(t))
  {
    var i := Find(s, t);
    var a, b := s[..i], s[i + |t|..];
    assert s == a + t + b;
    LowerAppend(a + t, b);
    LowerAppend(a, t);
    assert Lower(t)[0..|Lower(t)|] == Lower(t);
    ContainsIntro(Lower(t), Lower(t), 0);
    ContainsWiden(Lower(a), Lower(t), Lower(b), Lower(t));
  }

  /** The accented capitals of Hungarian lower-case as `str.lower` does it. */
  lemma HungarianLower()
    ensures Lower("ÁRVÍZTŰRŐ TÜKÖRFÚRÓGÉP") == "árvíztűrő tükörfúrógép"
  {
    LowerEach("ÁRVÍZTŰRŐ TÜKÖRFÚRÓGÉP", "árvíztűrő tükörfúrógép");
  }

  /** A character that lower-casing leaves alone. */
  predicate LowerFixedChar(c: char) {
    LowerChar(c) == [c]
  }

  /** Text that lower-casing leaves alone, character by character. */
  predicate LowerFixed(s: String) {
    forall i | 0 <= i < |s| :: LowerFixedChar(s[i])
  }

  lemma {:induction false} LowerOfFixed(s: String)
    requires LowerFixed(s)
    ensures Lower(s) == s
    decreases |s|
  {
    if s != [] {
      LowerOfFixed(s[1..]);
    }
  }

  /** Every character lower-casing produces is one it leaves alone. */
  lemma {:induction false} FixedLower(s: String)
    ensures LowerFixed(Lower(s))
    decreases |s|
  {
    if s != [] {
      FixedLower(s[1..]);
      var lc := LowerChar(s[0]);
      LowerCharFixed(s[0]);
      forall i | 0 <= i < |Lower(s)| ensures LowerFixedChar(Lower(s)[i]) {
        if i >= |lc| {
          assert Lower(s)[i] == Lower(s[1..])[i - |lc|];
        }
      }
    }
  }

  /** Lower-case ASCII letters and spaces are left alone. */
  lemma {:induction false} LowerPlain(s: String)
    requires forall i | 0 <= i < |s| :: 'a' <= s[i] <= 'z' || s[i] == ' '
    ensures Lower(s) == s
    decreases |s|
  {
    if s != [] {
      LowerPlain(s[1..]);
    }
  }

  /** Lower-casing keeps a non-space last character non-space. */
  lemma LowerLastSpace(s: String)
    requires s != []
    ensures IsSpace(s[|s| - 1]) <==> IsSpace(Lower(s)[|Lower(s)| - 1])
  {
    var c := s[|s| - 1];
    assert s == s[..|s| - 1] + [c];
    LowerAppend(s[..|s| - 1], [c]);
    var lc := LowerChar(c);
    assert Lower([c]) == lc + Lower([]);
    assert Lower(s)[|Lower(s)| - 1] == lc[|lc| - 1];
    LowerCharSpace(c);
  }

  lemma LowerCharSpace(c: char)
    ensures IsSpace(LowerChar(c)[|LowerChar(c)| - 1]) <==> IsSpace(c)
  {
    if 'A' <= c <= 'Z' {
      var d := (c as int + 32) as char;
      assert 'a' <= d <= 'z';
      assert !IsSpace(c) && !IsSpace(d);
    } else if c == '\U{212A}' || c == '\U{130}' {
      assert !IsSpace(c);
    }
  }

  /**
    Python's `re` with IGNORECASE: does character `c` match the lower-case ASCII
    letter `p`? Besides the other ASCII case, `sre` equates `i` with U+0130 and
    U+0131, `s` with U+017F and `k` with U+212A.
   */
  predicate IgnoreCaseEq(c: char, p: char) {
    || c == p
    || ('a' <= p <= 'z' && c as int == p as int - 32)
    || (p == 'i' && (c == '\U{130}' || c == '\U{131}'))
    || (p == 's' && c == '\U{17F}')
    || (p == 'k' && c == '\U{212A}')
  }

  /** `re.match("(?i)" + p, s)` for a literal lower-case word `p`. */
  predicate StartsWithIgnoreCase(s: String, p: String) {
    |p| <= |s| && forall i | 0 <= i < |p| :: IgnoreCaseEq(s[i], p[i])
  }

  // ---------------------------------------------------------- split and join

  /** Length of the longest prefix of `s` without whitespace. */
  function WordLen(s: String): (n: nat)
    ensures n <= |s|
    ensures forall i | 0 <= i < n :: !IsSpace(s[i])
    ensures n == |s| || IsSpace(s[n])
  {
    if s == [] || IsSpace(s[0]) then 0 else 1 + WordLen(s[1..])
  }

  /** A non-empty run of non-whitespace characters. */
  predicate IsWord(w: String) {
    w != [] && forall i | 0 <= i < |w| :: !IsSpace(w[i])
  }

  /** `s.split()`: the maximal runs of non-whitespace, in order. */
  function Words(s: String): (r: seq<String>)
    ensures forall k | 0 <= k < |r| :: IsWord(r[k])
    ensures r == [] <==> IsBlank(s)
    decreases |s|
  {
    if s == [] then []
    else if IsSpace(s[0]) then
      assert IsBlank(s) <==> IsBlank(s[1..]) by { BlankAppend([s[0]], s[1..]); assert s == [s[0]] + s[1..]; }
      Words(s[1..])
    else
      var n := WordLen(s);
      [s[..n]] + Words(s[n..])
  }

  /**
    `s.split(None, 1)`: the first word and what follows it with leading
    whitespace removed (`""` when there is no second part).
   */
  function SplitFirstWord(s: String): (r: (String, String))
    ensures IsBlank(s) ==> r == ([], [])
    ensures !IsBlank(s) ==> r.0 == Words(s)[0]
    ensures r.1 == [] || !IsSpace(r.1[0])
    decreases |s|
  {
    if s == [] then ([], [])
    else if IsSpace(s[0]) then
      assert IsBlank(s) <==> IsBlank(s[1..]) by { BlankAppend([s[0]], s[1..]); assert s == [s[0]] + s[1..]; }
      SplitFirstWord(s[1..])
    else
      var n := WordLen(s);
      (s[..n], TrimStart(s[n..]))
  }

  /** `s.split(sep)` for a non-empty separator. */
  function SplitOn(s: String, sep: String): (r: seq<String>)
    requires sep != []
    ensures |r| >= 1
    ensures forall k | 0 <= k < |r| :: !Contains(r[k], sep)
    decreases |s|
  {
    var i := Find(s, sep);
    if i < 0 then [s]
    else
      var rest := s[i + |sep|..];
      SplitFirstPieceClean(s, sep, i);
      [s[..i]] + SplitOn(rest, sep)
  }

  lemma SplitFirstPieceClean(s: String, sep: String, i: int)
    requires sep != []
    requires 0 <= i && OccursAt(s, sep, i)
    requires forall j | 0 <= j < i :: !OccursAt(s, sep, j)
    ensures !Contains(s[..i], sep)
  {
    var p := s[..i];
    var j := Find(p, sep);
    if j >= 0 {
      OccursInPrefix(s, sep, j, i);
      assert false;
    }
  }

  lemma OccursInPrefix(s: String, t: String, j: int, n: nat)
    requires n <= |s| && OccursAt(s[..n], t, j)
    ensures OccursAt(s, t, j) && j + |t| <= n
  {
    assert s[..n][j..j + |t|] == s[j..j + |t|];
  }

  /** `sep.join(parts)` */
  function Join(parts: seq<String>, sep: String): String {
    if |parts| == 0 then []
    else if |parts| == 1 then parts[0]
    else parts[0] + sep + Join(parts[1..], sep)
  }

  lemma JoinCons(a: String, tail: seq<String>, sep: String)
    requires tail != []
    ensures Join([a] + tail, sep) == a + sep + Join(tail, sep)
  {
    assert ([a] + tail)[1..] == tail;
  }

  /** Splitting and re-joining on the same separator gives back the text. */
  lemma {:induction false} JoinSplitOn(s: String, sep: String)
    requires sep != []
    ensures Join(SplitOn(s, sep), sep) == s
    decreases |s|
  {
    var i := Find(s, sep);
    if i >= 0 {
      var rest := s[i + |sep|..];
      JoinSplitOn(rest, sep);
      var tail := SplitOn(rest, sep);
      JoinCons(s[..i], tail, sep);
      assert s[i..i + |sep|] == sep;
      assert s == s[..i] + s[i..i + |sep|] + rest;
    }
  }

  /** `s.replace(pat, repl)`, which Python defines as `repl.join(s.split(pat))`. */
  function ReplaceAll(s: String, pat: String, repl: String): String
    requires pat != []
  {
    Join(SplitOn(s, pat), repl)
  }

  /** `c * n` for one character. */
  function Repeat(c: char, n: nat): (r: String)
    ensures |r| == n && forall i | 0 <= i < n :: r[i] == c
  {
    if n == 0 then [] else [c] + Repeat(c, n - 1)
  }

  // ------------------------------------------------------------ integers

  function DigitChar(d: nat): (c: char)
    requires d < 10
    ensures IsDigit(c)
  {
    ('0' as int + d) as char
  }

  function DigitValue(c: char): (d: nat)
    requires IsDigit(c)
    ensures d < 10 && DigitChar(d) == c
  {
    c as int - '0' as int
  }

  predicate AllDigits(s: String) {
    forall i | 0 <= i < |s| :: IsDigit(s[i])
  }

  /** The value of a string of decimal digits, most significant first. */
  function DigitsValue(s: String): nat
    requires AllDigits(s)
  {
    if s == [] then 0 else DigitsValue(s[..|s| - 1]) * 10 + DigitValue(s[|s| - 1])
  }

  /** `str(n)` for `n >= 0`. */
  function NatToString(n: nat): (r: String)
    ensures |r| >= 1 && AllDigits(r)
    ensures |r| > 1 ==> r[0] != '0'
  {
    if n < 10 then [DigitChar(n)] else NatToString(n / 10) + [DigitChar(n % 10)]
  }

  /** `str(n)` */
  function IntToString(n: int): String {
    if n < 0 then "-" + NatToString(-n) else NatToString(n)
  }

  lemma {:induction false} DigitsValueOfNat(n: nat)
    ensures DigitsValue(NatToString(n)) == n
    decreases n
  {
    if n >= 10 {
      DigitsValueOfNat(n / 10);
      var s := NatToString(n);
      assert s[..|s| - 1] == NatToString(n / 10);
    }
  }

  /** Only digits and underscores. */
  predicate DigitsOrUnderscores(s: String) {
    s == [] || ((IsDigit(s[0]) || s[0] == '_') && DigitsOrUnderscores(s[1..]))
  }

  /** No two underscores in a row. */
  predicate SingleUnderscores(s: String) {
    |s| < 2 || (!(s[0] == '_' && s[1] == '_') && SingleUnderscores(s[1..]))
  }

  /** The body of a Python integer literal: digits, with single `_` between digits. */
  predicate IsDigitGroup(s: String) {
    && |s| > 0 && IsDigit(s[0]) && IsDigit(s[|s| - 1])
    && DigitsOrUnderscores(s) && SingleUnderscores(s)
  }

  function RemoveUnderscores(s: String): (r: String)
    ensures DigitsOrUnderscores(s) ==> AllDigits(r)
    ensures AllDigits(s) ==> r == s
  {
    if s == [] then []
    else (if s[0] == '_' then [] else [s[0]]) + RemoveUnderscores(s[1..])
  }

  /** The value of a digit group. */
  function GroupValue(body: String): nat
    requires IsDigitGroup(body)
  {
    DigitsValue(RemoveUnderscores(body))
  }

  /**
    Python's `int(s)` in base 10: surrounding whitespace, an optional sign, and
    a digit group; anything else is a `ValueError` (here `None`).
   */
  function ParseInt(s: String): (r: Option<int>)
    ensures r.Some? ==> !IsBlank(s)
  {
    ParseNumeral(Strip(s))
  }

  /** `int` of a text without surrounding whitespace. */
  function ParseNumeral(t: String): (r: Option<int>)
    ensures r.Some? ==> t != []
  {
    if t == [] then None
    else
      var body := if t[0] == '-' || t[0] == '+' then t[1..] else t;
      if !IsDigitGroup(body) then None
      else if t[0] == '-' then Some(-(GroupValue(body) as int))
      else Some(GroupValue(body))
  }

  /** A canonical decimal numeral is a digit group without underscores. */
  lemma NumeralIsGroup(d: String)
    requires |d| >= 1 && AllDigits(d)
    ensures IsDigitGroup(d) && GroupValue(d) == DigitsValue(d)
  {
    PlainDigits(d);
  }

  lemma {:induction false} PlainDigits(d: String)
    requires AllDigits(d)
    ensures DigitsOrUnderscores(d) && SingleUnderscores(d)
    decreases |d|
  {
    if d != [] {
      PlainDigits(d[1..]);
    }
  }

  /** `int` of a plain numeral is its value `x`. */
  lemma ParseDigits(d: String, x: int)
    requires |d| >= 1 && AllDigits(d) && x == DigitsValue(d)
    ensures ParseInt(d) == Some(x)
  {
    StripNoEdgeSpace(d);
    NumeralDigits(d, x);
  }

  lemma NumeralDigits(d: String, x: int)
    requires |d| >= 1 && AllDigits(d) && x == DigitsValue(d)
    ensures ParseNumeral(d) == Some(x)
  {
    NumeralIsGroup(d);
  }

  /** `int` of a minus sign and a plain numeral is its negated value `x`. */
  lemma ParseNegative(d: String, x: int)
    requires |d| >= 1 && AllDigits(d) && x == -(DigitsValue(d) as int)
    ensures ParseInt("-" + d) == Some(x)
  {
    StripMinus(d);
    NumeralMinus(d, x);
  }

  lemma StripMinus(d: String)
    requires |d| >= 1 && AllDigits(d)
    ensures ParseInt("-" + d) == ParseNumeral("-" + d)
  {
    var s := "-" + d;
    assert s[|s| - 1] == d[|d| - 1];
    StripNoEdgeSpace(s);
  }

  lemma NumeralMinus(d: String, x: int)
    requires |d| >= 1 && AllDigits(d) && x == -(DigitsValue(d) as int)
    ensures ParseNumeral("-" + d) == Some(x)
  {
    var s := "-" + d;
    assert s[0] == '-' && s[1..] == d;
    NumeralIsGroup(d);
    ParseMinus(s, x);
  }

  lemma ParseMinus(t: String, x: int)
    requires |t| >= 1 && t[0] == '-' && IsDigitGroup(t[1..]) && x == -(GroupValue(t[1..]) as int)
    ensures ParseNumeral(t) == Some(x)
  {
  }

  /** `int(str(n)) == n` */
  lemma ParseNatToString(n: nat)
    ensures ParseInt(NatToString(n)) == Some(n)
  {
    DigitsValueOfNat(n);
    ParseDigits(NatToString(n), n);
  }

  /** `int(str(n)) == n`, negative numbers included. */
  lemma ParseIntToString(n: int)
    ensures ParseInt(IntToString(n)) == Some(n)
  {
    if n >= 0 {
      ParseNatToString(n);
    } else {
      DigitsValueOfNat(-n);
      ParseNegative(NatToString(-n), n);
    }
  }

  /** `str` is injective on naturals. */
  lemma NatToStringInjective(a: nat, b: nat)
    requires NatToString(a) == NatToString(b)
    ensures a == b
  {
    ParseNatToString(a);
    ParseNatToString(b);
  }

  /** `str(n)` is a sign and digits, so it has no whitespace and no `:`. */
  lemma DigitsHaveNoColon(d: String)
    requires AllDigits(d)
    ensures ':' !in d && ':' !in "-" + d
  {
    assert "-" + d == ['-'] + d;
  }

  lemma IntToStringPlain(n: int)
    ensures ':' !in IntToString(n)
    ensures Strip(IntToString(n)) == IntToString(n)
  {
    var d := NatToString(if n < 0 then -n else n);
    DigitsHaveNoColon(d);
    assert IsDigit(d[|d| - 1]);
    if n < 0 {
      assert IntToString(n) == "-" + d;
      StripNoEdgeSpace("-" + d);
    } else {
      StripNoEdgeSpace(d);
    }
  }

  /** A text that starts with something other than a sign or a digit is not an integer. */
  lemma ParseNonNumeric(s: String)
    requires s != [] && !IsSpace(s[0]) && !IsSpace(s[|s| - 1])
    requires !IsDigit(s[0]) && s[0] != '-' && s[0] != '+'
    ensures ParseInt(s) == None
  {
    StripNoEdgeSpace(s);
  }
}


=== FILE: wrappers.dfy ===
/** The optional-value datatype used wherever the modelled code returns `None`. */
module Wrappers {

  datatype Option<+T> = None | Some(value: T) {

    /** The wrapped value, or `default` for `None` (Python's `d.get(k, default)`). */
    function GetOr(default: T): T {
      match this
      case Some(v) => v
      case None => default
    }
  }
}
